=== FILE: README.md ===
# Wuthering Waves gacha simulator core, in Dafny

This project models the core of an AstrBot plugin that simulates the
Wuthering Waves gacha:

- **The draw engine.** It computes the 5-star rate (base rate, soft-pity
  intervals, hard pity) and the 4-star rate (base rate, hard pity, and an
  error once the counter passes it). One draw is a state machine over two
  pity counters and two guarantee flags, and a fallback search picks the
  item among the pool's rarity and rate-up buckets.
- **The draw session.** It covers a single pull and a ten-pull. The
  ten-pull has a retry loop, a batch of history rows, and a stable sort by
  rarity and item type.
- **The item value type and the in-memory catalogue.** Items are identified
  by their external id alone. The catalogue normalises rarities and maps
  items to and from dictionaries.
- **Pool configurations and their registry.** This covers building a
  configuration from a dictionary, the generated pool id, and add, update,
  dotted-path property update, delete, enable and lookup. The registry holds
  two maps: pool id to configuration, and file path to pool id.
- **Item-catalogue bookkeeping.** Before inserting an item the code checks
  the required fields, generates a default external id and normalises the
  rarity. An update detects key changes and filters the fields it writes.
  When an item's id changes or the item is deleted, the change is
  propagated into every pool configuration.
- **Proxy settings.** These cover URL normalisation, folding credentials
  into the URL, and the proxy mapping handed to the HTTP client.

Every operation is a pure function over immutable datatypes. Randomness
becomes explicit samples: the tier roll, the rate-up roll, the role roll
and a choice index (`random.choice(c)` is `c[choice % |c|]`). The k-th
attempt of a ten-pull uses `sample(k)`. MD5 is a hash-function parameter,
and the clock is a timestamp parameter. Probabilities are `real`.

Modules, one per file:

- `Wrappers`: `Option` and `Result`.
- `Dict`: Python's insertion-ordered `dict` as an association list.
- `Text`: `str` and `posixpath` helpers.
- `Json`: dynamic values.
- `Digest`: the hash parameter.
- `Sorting`: stable `sorted`.
- `Items`: `item_manager.py`.
- `PoolConfigs` and `Registry`: `cardpool_manager.py`.
- `Rates`, `Selection` and `Draw`: `gacha_mechanics.py`.
- `Flow`: `gacha_flow.py`.
- `Propagation` and `ItemOps`: `item_db_operations.py`.
- `Proxy`: `proxy_config.py`.

The database layer (`CommonDatabase`) is not part of this model. The item
table is modelled by the SQL semantics the statements imply. It is a map
from external id to item, since that column is `UNIQUE` in the table
definition. An `UPDATE` or `DELETE` touches the row stored under the given
id. A statement that would break a column constraint fails, and the
operation reports it as `False`.

## Model

| member | source | states |
|---|---|---|
| Rates.RulesOf | src/gacha/gacha_mechanics.py:174-184 | Reading a pool's rules: a missing `4star` or `5star` progression is a `KeyError`; each absent setting takes the source's default (0.5, 0.5, 0.06, 0.008, 0.06, 1.0); an absent hard-pity count or soft-pity list stays absent |
| Rates.Rate5 | src/gacha/gacha_mechanics.py:67-122 | At or past the 5-star hard pity (count = rate_number + 1, default 95) the rate is `hard_pity_rate` verbatim; below it a missing `soft_pity` is a `KeyError` and otherwise the rate is at most 1 |
| Rates.Rate5Bounds | src/gacha/gacha_mechanics.py:94-122 | With a non-negative base, non-negative increments and start <= end, the rate below hard pity lies in [0, 1] |
| Rates.Rate5Monotone | src/gacha/gacha_mechanics.py:81-122 | The 5-star rate is non-decreasing in the counter when the hard-pity rate is at least 1 |
| Rates.Rate5NoSoftPity | src/gacha/gacha_mechanics.py:94-122 | With an empty interval list the rate below hard pity is the base rate, capped at 1 |
| Rates.Rate5ByIntervals | src/gacha/gacha_mechanics.py:97-122 | For ordered, disjoint intervals the early-exit walk equals the base plus every interval's own bonus `increment*(min(c,end)-start+1)`, capped at 1: the breaks skip only intervals that add nothing |
| Rates.WalkMonotone | src/gacha/gacha_mechanics.py:101-119 | The interval walk is non-decreasing in both the starting total and the count |
| Rates.WalkIsTotalBonus | src/gacha/gacha_mechanics.py:101-119 | The walk with breaks agrees with the break-free per-interval sum on ordered, disjoint, well-formed intervals |
| Rates.Rate4 | src/gacha/gacha_mechanics.py:124-149 | The 4-star rate is the base rate below hard pity and the hard-pity rate at it; past it there is a `ValueError` carrying the count, and there is one exactly then |
| Rates.Rate4WithoutHardPity | src/gacha/gacha_mechanics.py:135-148 | Without a 4-star `hard_pity_pull` the default 0 makes every non-negative counter raise |
| Sorting.SortBy | src/gacha/gacha_mechanics.py:98 | `sorted` by a numeric key returns a sorted permutation of its input |
| Sorting.SortByStable | src/gacha/gacha_flow.py:269 | `sorted` is stable: the elements sharing a key keep their input order |
| Sorting.SortBySorted | src/gacha/gacha_mechanics.py:98 | Sorting an already sorted sequence leaves it unchanged |
| Selection.PoolItems | src/gacha/gacha_mechanics.py:193-210 | The pool holds exactly the included ids the catalogue knows, each mapped to the catalogue's item |
| Selection.OfRarity | src/gacha/gacha_mechanics.py:28-38 | The rarity filter keeps exactly the items of that rarity |
| Selection.WithIds | src/gacha/gacha_mechanics.py:219-231 | The rate-up filter keeps exactly the items whose external id is listed |
| Selection.WithoutIds | src/gacha/gacha_mechanics.py:40-53 | `_filter_up_items` keeps exactly the items whose external id is NOT listed |
| Selection.UpSplit | src/gacha/gacha_mechanics.py:40-53 | The rate-up filter and `_filter_up_items` split any list between them: every occurrence lands in exactly one, so the lengths add up |
| Selection.OfType | src/gacha/gacha_mechanics.py:55-65 | The type filter keeps exactly the items of that type |
| Selection.Bucket | src/gacha/gacha_mechanics.py:212-231 | The plain bucket is every pool item of the rarity, rate-up items included; the rate-up bucket holds those of them listed as rate-up; 3-star has no rate-up bucket |
| Selection.TypeFilter | src/gacha/gacha_mechanics.py:366-372 | The type filter applies only when it leaves something; it never empties a candidate list |
| Selection.PriorityList | src/gacha/gacha_mechanics.py:339-356 | The priority order is (base, is_up), then (base, not is_up), then (r, False) and (r, True) for each fallback rarity |
| Selection.FirstOffer | src/gacha/gacha_mechanics.py:358-377 | The priority loop returns the choice among the first non-empty candidate list, and nothing exactly when every list is empty |
| Selection.Select | src/gacha/gacha_mechanics.py:312-398 | A selected item is one of the pool's items; the only failure is the `ValueError` for a pool with no item |
| Selection.SelectSucceedsIff | src/gacha/gacha_mechanics.py:379-398 | Selection succeeds exactly when the pool holds a 3-, 4- or 5-star item |
| Selection.UnionFallbackUnreachable | src/gacha/gacha_mechanics.py:379-394 | Every priority list covers the plain bucket of all three rarities, so the union fallback is never reached |
| Selection.PriorityCoversPlainBuckets | src/gacha/gacha_mechanics.py:339-356 | Each base rarity's priority list contains the plain bucket of every rarity |
| Selection.SelectFromFirstBucket | src/gacha/gacha_mechanics.py:358-377 | The item comes from the first non-empty bucket in priority order, has that bucket's rarity, and has the requested type whenever that bucket offers one |
| Selection.PoolOf | src/gacha/gacha_mechanics.py:193-210 | Every pool item is the catalogue's item for one of the included ids; absent rate-up lists are empty |
| Draw.Decide | src/gacha/gacha_mechanics.py:233-289 | The tier roll fails only with the soft-pity `KeyError` or the 4-star overflow `ValueError` |
| Draw.DecideTier | src/gacha/gacha_mechanics.py:233-289 | The roll is 5-star iff rate5(pity_5star+1) beats the sample, and 4-star iff it does not and rate4(pity_4star+1) does |
| Draw.Pull | src/gacha/gacha_mechanics.py:151-310 | A drawn item is one of the pool's items; a draw fails only for an empty pool, a missing soft-pity list or a 4-star overflow |
| Draw.PullState | src/gacha/gacha_mechanics.py:235-292 | 5-star: pity_5star becomes 0, pity_4star becomes 0 only when it equals the 4-star hard pity (default 10), and the 5-star guarantee is set iff the item is not rate-up. 4-star: pity_4star becomes 0 and pity_5star goes up by one. 3-star: both go up by one. Each flag is touched only by its own tier |
| Draw.PullTier | src/gacha/gacha_mechanics.py:233-289 | A successful draw's tier is its roll's |
| Draw.ExecutePull | src/gacha/gacha_mechanics.py:151-310 | The drawn item is the catalogue's item for an included id; a pool whose rules cannot be read fails with that error |
| Draw.HardPityFive | src/gacha/gacha_mechanics.py:81-91 | At 5-star hard pity, a sample below the hard-pity rate always gives a 5-star draw when the pool has an item |
| Draw.NoFourStarHardPity | src/gacha/gacha_mechanics.py:135-148 | Without a 4-star hard pity every draw that misses 5-star is the overflow `ValueError` |
| Draw.DecideBounded4 | src/gacha/gacha_mechanics.py:135-148 | With a whole 4-star hard pity H, a 4-star counter with counter + 2 <= H and a 4-star hard-pity rate that beats the sample, `calculate_rate_4star` never raises: the roll fails only with the missing-`soft_pity` `KeyError`, and a 3-star roll leaves room below H. Nothing is assumed about the 5-star rules |
| Draw.PullKeepsBounded4 | src/gacha/gacha_mechanics.py:135-292 | The 4-star pity invariant on its own: from a state with counter + 2 <= H, no draw fails with the 4-star overflow, and every successful draw leaves counter + 2 <= H again. This holds for every 5-star setting, including an absent 5-star `hard_pity_pull` (default 95) |
| Draw.DecideBounded | src/gacha/gacha_mechanics.py:233-292 | The two-counter version: when both counters sit below explicit whole hard-pity counts and both hard-pity rates beat the sample, a pool with a `soft_pity` list never fails its roll, and a roll that is not 5-star (not 3-star) leaves room below the 5-star (4-star) hard pity |
| Draw.PullKeepsBounded | src/gacha/gacha_mechanics.py:135-292 | The two-counter invariant: under the same assumptions, a draw fails only for an empty pool and leaves both counters bounded |
| Draw.GuaranteeIgnoredAsWritten | src/gacha/gacha_mechanics.py:243-259 | As written, a user holding the 5-star guarantee can still receive the standard 5-star item |
| Draw.GuaranteeHonoured5 | src/gacha/gacha_mechanics.py:243-259 | Intended: with the guarantee held, a 5-star draw from a pool with a rate-up 5-star gives a rate-up item and clears the flag |
| Draw.FourStarFlagIgnoredAsWritten | src/gacha/gacha_mechanics.py:262-286 | As written, flipping the incoming 4-star guarantee changes neither the tier nor the item |
| Draw.GuaranteeHonoured4 | src/gacha/gacha_mechanics.py:262-286 | Intended: with the 4-star guarantee held, a 4-star draw from a pool with a rate-up 4-star gives a rate-up item and clears the flag |
| Flow.Init | src/gacha/gacha_flow.py:42-63 | A user with saved state resumes it; a new user starts with both counters and the pull count at 0 and both flags false |
| Flow.PullOnce | src/gacha/gacha_flow.py:85-121 | A successful pull stores exactly the draw's counters and flags and adds one to the pull count; a failed pull changes nothing and carries the draw's error |
| Flow.SinglePull | src/gacha/gacha_flow.py:123-163 | The result dictionary and the history row carry the drawn item's name and rarity, the pool id and the timestamp; draw errors propagate unchanged |
| Flow.InitBounded4 | src/gacha/gacha_flow.py:42-63 | `__init__` establishes the 4-star pity invariant: under a whole 4-star hard pity of at least 2 a new user is bounded, and a resumed user is bounded exactly when the saved state was |
| Flow.SinglePullKeepsBounded4 | src/gacha/gacha_flow.py:123-163 | `single_pull` preserves that invariant: from a bounded user, with a 4-star hard-pity rate above the sample, the call never fails with the 4-star overflow `ValueError` and leaves the user bounded |
| Flow.Append | src/gacha/gacha_flow.py:213-236 | An appended item and its row keep items and rows in step and count one more attempt |
| Flow.Collect | src/gacha/gacha_flow.py:186-242 | The retry loop stops with ten items or after twenty attempts; items only grow; the pull count rises by the number of items added; every row carries the pool id and the one batch time; an error other than `ValueError` ends it |
| Flow.CollectFailedAttempt | src/gacha/gacha_flow.py:239-242 | A `ValueError` attempt only counts as an attempt; any other error stops the loop with the state reached |
| Flow.CollectSuccessfulAttempt | src/gacha/gacha_flow.py:212-236 | A successful attempt appends the item and its row, adds one pull and carries the draw's state forward |
| Flow.AllFailuresGiveNothing | src/gacha/gacha_flow.py:186-194 | When every attempt is a `ValueError` the loop ends after twenty attempts with no item and the user untouched |
| Flow.EmptyPoolTenPull | src/gacha/gacha_flow.py:186-242 | A pool with no 3/4/5-star item, on rules whose rarity roll fails only with a `ValueError` if at all, gives an empty ten-pull after twenty failed attempts, with the user untouched |
| Flow.TenPull | src/gacha/gacha_flow.py:165-271 | At most ten items and twenty attempts, exactly ten whenever at most ten attempts fail, sorted by rarity descending then character first; the pull count rises by the number of items; every item comes from the pool |
| Flow.TenPullPermutes | src/gacha/gacha_flow.py:261-271 | The sorted result is a permutation of the drawn items, and items of equal rank keep their draw order |
| Flow.RankKeyIsPairOrder | src/gacha/gacha_flow.py:262-266 | The numeric rank orders items exactly as the key pair (-rarity, type) does |
| Items.NewItem | src/item_data/item_manager.py:15-45 | Construction fails with `ValueError` exactly when no external id is given, and otherwise stores every field as given |
| Items.IdentityByExternalId | src/item_data/item_manager.py:93-101 | Item equality is an equivalence on the external id alone, and equal items hash alike |
| Items.NormalizeRarity | src/item_data/item_manager.py:124-130 | An integer n becomes "nstar", "3"/"4"/"5" gain "star", any other text is kept; the result is never a bare star digit |
| Items.NormalizeRarityIdempotent | src/item_data/item_manager.py:124-130 | Normalising twice equals normalising once |
| Items.MissingFrom | src/item_data/item_manager.py:110-121 | The missing required fields are exactly those absent from the dictionary |
| Items.FromDict | src/item_data/item_manager.py:104-140 | An empty dictionary and a missing required field raise `ValueError`; a built item carries the stored external id and the normalised rarity |
| Items.ToDict | src/item_data/item_manager.py:80-91 | The external id appears under both "id" and "external_id", with every other field under its own name |
| Items.FromDictToDict | src/item_data/item_manager.py:80-140 | `from_dict(to_dict(i))` gives back `i` if and only if `i`'s rarity is not a bare star digit |
| Items.FromDictStable | src/item_data/item_manager.py:80-140 | A successfully built item survives the round trip through `to_dict` |
| Items.GetItemObjects | src/item_data/item_manager.py:223-236 | Every stored key is a catalogue key, and a failure is never the `ValueError` the loop catches |
| Items.GetItemObjectsSpec | src/item_data/item_manager.py:223-236 | After a successful run the item objects hold exactly what `from_dict` makes of each catalogue row. Only the rows it refuses with `ValueError` are dropped |
| Items.GetItemObjectsSucceedsIff | src/item_data/item_manager.py:230-236 | The run succeeds exactly when no row makes `from_dict` raise anything other than `ValueError`, in both directions |
| Items.GetItemObjectsFirstError | src/item_data/item_manager.py:230-236 | A failed run carries the error of the first row, in catalogue order, on which `from_dict` raises something other than `ValueError` |
| Items.GetItem | src/item_data/item_manager.py:187-212 | An unknown id gives `None`; a found item carries the stored external id and the rarity as stored, not normalised; a failure is only the uncaught `KeyError` (or a value the model does not carry) |
| Items.GetItemAgreesWithObjects | src/item_data/item_manager.py:187-236 | When `get_item_objects` succeeds, it agrees with `get_item` on every item whose rarity is already normalised |
| PoolConfigs.FromDict | src/gacha/cardpool_manager.py:99-118 | Only the eight declared fields are read; `config_group` defaults to "default" and `enable` to true; a missing required field is the constructor's error |
| PoolConfigs.FromDictReadsDeclaredFields | src/gacha/cardpool_manager.py:101-111 | Keys outside the eight declared fields never change what is built |
| PoolConfigs.FromDictAsDict | src/gacha/cardpool_manager.py:99-118 | `from_dict(asdict(c))` rebuilds `c` exactly |
| PoolConfigs.ParseIdListsRoundTrip | src/gacha/cardpool_manager.py:99-118 | Id lists survive the dictionary round trip |
| PoolConfigs.GenerateCpId | src/gacha/cardpool_manager.py:150-163 | The pool id is 12 lower-case hex digits, a prefix of the hash of "{file_path}:{pool_name}" |
| PoolConfigs.GenerateCpIdDeterministic | src/gacha/cardpool_manager.py:150-163 | The pool id depends only on the combined "{file_path}:{pool_name}" string |
| PoolConfigs.SetPath | src/gacha/cardpool_manager.py:485-503 | The dotted-path walk sets the value at the path, leaves every other top-level key alone, and fails only with the invalid-path `ValueError` |
| PoolConfigs.SetPathFrame | src/gacha/cardpool_manager.py:485-503 | Every path that branches off the updated one keeps its value |
| PoolConfigs.SetPathSucceedsIff | src/gacha/cardpool_manager.py:489-499 | The walk succeeds exactly when the path without its last key leads to a dictionary |
| Registry.GetConfig | src/gacha/cardpool_manager.py:245-267 | Lookup by pool id first, then by file path, otherwise `KeyError` |
| Registry.GetConfigValid | src/gacha/cardpool_manager.py:257-267 | On a consistent registry the lookup succeeds exactly for known ids and known paths |
| Registry.Resolve | src/gacha/cardpool_manager.py:378-392 | The exact path wins, otherwise the first stored path whose basename matches, otherwise `KeyError` |
| Registry.GetEnabledConfigs | src/gacha/cardpool_manager.py:735-743 | Exactly the configurations whose `enable` is true |
| Registry.WithCpId | src/gacha/cardpool_manager.py:323-330 | A supplied pool id is kept; otherwise a missing name fails, and the id is generated from the path and `str(name)`; nothing else changes |
| Registry.AddConfigAsWritten | src/gacha/cardpool_manager.py:303-355 | As written: a known path raises `ValueError` first; later failures become `RuntimeError`; success binds the id and the path `config_group/file_path`, leaving all else unchanged |
| Registry.AddConfig | src/gacha/cardpool_manager.py:303-355 | Corrected: a successful add never replaces an existing path or configuration |
| Registry.AddConfigValid | src/gacha/cardpool_manager.py:303-355 | Adding keeps the registry consistent (ids match keys, paths resolve and are one-to-one) |
| Registry.AddConfigRebindsPath | src/gacha/cardpool_manager.py:317-349 | As written, adding file "x" again rebinds `default/x` to the new pool |
| Registry.AddConfigRefusesKnownPath | src/gacha/cardpool_manager.py:317-349 | The corrected check refuses that call |
| Registry.UpdateConfig | src/gacha/cardpool_manager.py:357-434 | An unresolved path is a `KeyError`; the old pool id is kept when none is supplied; a changed group moves the path entry |
| Registry.UpdateConfigValid | src/gacha/cardpool_manager.py:397-431 | Updating keeps the registry consistent |
| Text.SplitJoin | src/gacha/cardpool_manager.py:485 | `property_path.split(".")` undoes joining: splitting a '.'-join of dot-free pieces gives exactly those pieces back, so the key path `update_config_property` walks is the one the caller spelled |
| Registry.UpdateConfigProperty | src/gacha/cardpool_manager.py:436-520 | `KeyError` and `ValueError` propagate; on success the rebuilt configuration is stored and the path map is untouched |
| Registry.SetPropertyFrame | src/gacha/cardpool_manager.py:482-506 | A property update changes only the field its path starts with |
| Registry.SetPropertyUnknownField | src/gacha/cardpool_manager.py:501-506 | A path starting outside the declared fields leaves the configuration unchanged |
| Registry.SetPropertyBadPath | src/gacha/cardpool_manager.py:485-499 | The update raises the invalid-path `ValueError` exactly when the path prefix does not lead to a dictionary |
| Registry.UpdateConfigPropertyValid | src/gacha/cardpool_manager.py:436-520 | The property update keeps the registry consistent |
| Registry.SetConfigEnable | src/gacha/cardpool_manager.py:667-733 | Only a missing configuration makes it fail; the stored configuration changes in `enable` alone |
| Registry.SetConfigEnableListed | src/gacha/cardpool_manager.py:667-743 | After enabling, the pool is listed among the enabled configurations; after disabling, it is not |
| Registry.DeleteConfig | src/gacha/cardpool_manager.py:522-574 | Both bindings are removed and nothing else changes |
| Registry.DeleteConfigValid | src/gacha/cardpool_manager.py:567-569 | Deleting keeps the registry consistent, and the pool can no longer be found by its id |
| ItemOps.CsvRarityVersusAdd | src/db/item_db_operations.py:116-125 | The CSV loader's rarity rule agrees with `add_item`'s except on "2"; both are idempotent |
| ItemOps.DefaultExternalId | src/db/item_db_operations.py:255-279 | The id is laid out as type[:3].lower(), "_", the name with spaces and dots as underscores cut to ten characters, "_", and the first four hex digits of the hash |
| ItemOps.DefaultIdShape | src/db/item_db_operations.py:268-279 | The name part has at most ten characters and no space or dot; the id ends in "_" and four hex digits and has length 6 to 19 |
| ItemOps.MissingRequired | src/db/item_db_operations.py:293-296 | The missing fields are exactly name, rarity and type where absent |
| ItemOps.AddItem | src/db/item_db_operations.py:281-337 | A missing required field raises `ValueError` with exactly those fields, before anything else; an id is generated only when the given one is absent or falsy; the bound rarity is normalised |
| ItemOps.AddItemsBatch | src/db/item_db_operations.py:339-406 | An empty batch succeeds; any incomplete item raises `ValueError` before anything is prepared; otherwise one row per item |
| ItemOps.BatchIsItemwise | src/db/item_db_operations.py:339-406 | A batch inserts exactly the rows `add_item` would insert for each item, and fails when any of them would |
| ItemOps.BatchChecksBeforePreparing | src/db/item_db_operations.py:356-362 | The first incomplete item rejects the whole batch, even when an earlier item would fail to prepare |
| ItemOps.KeyChanged | src/db/item_db_operations.py:440-446 | `key_changed` holds iff type, name or rarity is given, not `None`, with a different `str` |
| ItemOps.SetList | src/db/item_db_operations.py:449-474 | Only the six valid columns are written, the rarity normalised and every other value as given |
| ItemOps.ApplySets | src/db/item_db_operations.py:460-474 | The `SET` list changes only the columns it names and never the external id |
| ItemOps.NewExternalId | src/db/item_db_operations.py:476-493 | The new id is the default id of the stored row overlaid with the update, rarity normalised |
| ItemOps.Rewrite | src/db/item_db_operations.py:440-505 | The rewritten row keeps its id unless a key field changed, takes the regenerated id if one did, and keeps every column the update does not name |
| ItemOps.PlanUpdate | src/db/item_db_operations.py:429-505 | An empty update returns True with no change; an unknown id returns False; a rename onto an existing id is refused |
| ItemOps.Commit | src/db/item_db_operations.py:502-505 | After the update the row is stored under its new id and the old id is gone |
| ItemOps.UpdateItem | src/db/item_db_operations.py:408-530 | A failed update changes nothing; a successful one commits the planned row; configurations change only by the rename of the old id to the new one |
| ItemOps.UpdateNeverPropagates | src/db/item_db_operations.py:508-525 | As written, configurations are never updated, even when the item was renamed |
| ItemOps.UpdatePropagatesRename | src/db/item_db_operations.py:508-525 | Corrected read-back: a rename hands the registry exactly the rename of the old id to the new one |
| ItemOps.UpdateLeavesNoStaleId | src/db/item_db_operations.py:508-525 | After the corrected rename no configuration mentions the old id, and the registry stays consistent |
| ItemOps.DeleteItem | src/db/item_db_operations.py:651-693 | The row is removed; the call succeeds iff it existed; configurations change only by removal of its id |
| ItemOps.DeleteForgets | src/db/item_db_operations.py:670-690 | After deleting a stored item no configuration mentions its id, and the registry stays consistent |
| Propagation.RenameIds | src/db/item_db_operations.py:561-569 | Every occurrence of the old id becomes the new one; length and every other id are kept |
| Propagation.RenameIdsInverse | src/db/item_db_operations.py:561-580 | After a real rename the old id is gone; renaming back restores the list when the new id was absent; the list is unchanged iff it lacked the old id |
| Propagation.RenameIdsCounts | src/db/item_db_operations.py:561-569 | The new id gains one occurrence per occurrence of the old id |
| Propagation.RemoveIds | src/db/item_db_operations.py:621-622 | Removal drops every occurrence of the id and keeps every other occurrence |
| Propagation.RemoveIdsAppend | src/db/item_db_operations.py:621-622 | Removal keeps order: it distributes over concatenation |
| Propagation.RemoveIdsLength | src/db/item_db_operations.py:621-625 | A list gets shorter exactly when it held the id, and is otherwise unchanged |
| Propagation.RenameInLists | src/db/item_db_operations.py:561-580 | Every list is renamed, keys kept in order, and the changed flag holds iff some list held the old id |
| Propagation.RemoveInLists | src/db/item_db_operations.py:621-632 | Every list loses the id, keys kept in order, and the changed flag holds iff some list held the id |
| Propagation.RenameForgets | src/db/item_db_operations.py:561-580 | After renaming to a different id no list of the configuration mentions the old id |
| Propagation.RemoveForgets | src/db/item_db_operations.py:621-632 | After removal no list of the configuration mentions the id |
| Propagation.FirstPathFor | src/db/item_db_operations.py:585-589 | The file a changed configuration is saved to is the first path registered for its id |
| Propagation.Sweep | src/db/item_db_operations.py:556-593 | Every configuration is edited in place, and exactly the changed configurations with a registered path are saved |
| Propagation.PropagateRenameComplete | src/db/item_db_operations.py:532-597 | After the rename every configuration is still under its own id, none mentions the old id, and the registry stays consistent |
| Propagation.PropagateRemoveComplete | src/db/item_db_operations.py:599-649 | After the removal no configuration mentions the id, and the registry stays consistent |
| Proxy.NormaliseUrl | src/render/proxy_config.py:42-46 | The stripped URL keeps an http://, https:// or socks prefix and otherwise gets "http://" in front |
| Proxy.NormaliseIdempotent | src/render/proxy_config.py:42-46 | Normalising a normalised URL changes nothing |
| Proxy.SetProxy | src/render/proxy_config.py:25-56 | Setting enables the proxy; the URL is normalised, and credentials are folded in only when both are given; the stored user name and password are not touched |
| Proxy.CredentialsEmbedded | src/render/proxy_config.py:49-54 | Credentials with a bare host h give `http://user:pass@h`, which the client then uses |
| Proxy.HttpHostCredentials | src/render/proxy_config.py:50-54 | Rewriting `http://h` with credentials keeps the whole host part |
| Proxy.Init | src/render/proxy_config.py:15-23 | The constructor configures the proxy only for a non-empty URL |
| Proxy.DisableProxy | src/render/proxy_config.py:58-63 | Disabling clears the flag, the URL and both credentials |
| Proxy.DisabledIsUnused | src/render/proxy_config.py:58-80 | After disabling, the client gets no proxy |
| Proxy.GetProxyDict | src/render/proxy_config.py:66-80 | No mapping when disabled or the URL is empty; `all://` for socks URLs; otherwise `http://` and `https://`, all pointing at the URL |
| Proxy.SetProxyIsUsed | src/render/proxy_config.py:39-80 | Once set, the proxy is always handed to the client |
| Proxy.GetConfig | src/render/proxy_config.py:82-94 | The configuration dictionary has four keys and reports the flag and the URL |
| Proxy.CredentialsNeverReported | src/render/proxy_config.py:17-20 | After construction and any sequence of calls, the reported user name and password are `None` |

## Left out

- File and database I/O is not modelled. This covers the SQLite layer, the item and history tables, config-file saving and deletion, and `load_all_configs`. The configuration files a propagation would write are returned as paths.
- `CommonDatabase` is not part of this model. Statement results follow SQL semantics over a map keyed by the `UNIQUE` external id.
- Logging, the clock (a timestamp parameter) and the statistics of `random` (samples are parameters) are not modelled.
- IEEE floating point is not modelled: rates are `real`.
- The LRU cache of `Item.create_item` is not modelled, since instance identity is irrelevant. Neither is the table switch of `ItemManager.set_config_group`.
- Rendering, networking, web servers, the local file cache and the legacy modules are outside the core.
- `CardPoolConfig.to_dict` is not modelled, because it re-parses JSON text. Pool configurations use `dataclasses.asdict` instead.
- `reload_config`, `exists`, `get_config_ids`, `get_config_by_name` and `get_config_by_cp_id` are not modelled; they are I/O or trivial lookups outside the core.
- `delete_items_batch`, the item query helpers (`get_items_by_*`, `search_items_by_name`, counts, clearing) and `_add_default_items` are not modelled beyond its rarity rule. They are SQL bodies.
- Rates.RulesOf: the rules are parsed eagerly, and a field of the wrong shape is `Malformed` up front. The source raises only when it reads that field.
- Rates.RulesOf: every `soft_pity` interval must carry `start_pull`, `end_pull` and `increment`, or every draw is a `KeyError`. The source never reads `soft_pity` at or past the 5-star hard pity. Below it, the sort by `start_pull` reads that key from every interval, so a missing `start_pull` is a `KeyError` in the source too. But `end_pull` and `increment` are read only from the intervals the walk reaches. So a list whose later intervals lack `end_pull` or `increment` fails in the model but gives a rate in the source whenever the walk stops before them, for example an interval starting at 80 that lacks `end_pull`, behind one starting at 70, at count 1. A list that is not well formed likewise fails in the model even at hard pity.
- Rates.RulesOf: the unused 5-star hard-pity default of 80 in `execute_pull` is not represented, since nothing reads it.
- Draw.Pull: the up and role samples are parameters even on branches where the source draws no random number. A model that ignores an unused sample behaves the same.
- Draw.Pull: the "unknown item" fallbacks of `single_pull` and of the ten-pull history never occur, because a successful draw always yields an item.
- PoolConfigs.FromDict: scalar fields are typed, so a non-text `cp_id`, `name` or `config_group` or a non-boolean `enable` is `Unsupported`, where the Python dataclass would accept it.
- PoolConfigs.FromDict: `rate_up_item_ids` and `included_item_ids` must be objects whose values are lists of strings, or the result is `Unsupported`. The dataclass declares them `dict[str, Any]` and accepts any value, including the text and `None` values that `to_dict` handles.
- Items.FromDict: item fields that are not text are `Unsupported`, because the item type carries strings.
- Items.GetItemObjects: a row with a `None`, numeric or boolean value in a text field makes `from_dict` `Unsupported`, so `get_item_objects` fails with that error. The source keeps such a row, because Python does not enforce the `str` annotations of `Item`: for a NULL `affiliated_type` or `portrait_path` it builds an item holding `None`. The model's item type carries strings only, so it cannot represent such an item. A list or dict value fails in both, matching the `TypeError` that the cached `create_item` raises on an unhashable argument.
- Items.NormalizeRarity: `str` of a float, list or dict is not produced, so those rarities give `None`.
- ItemOps.AddItem: `Unspelled` marks a rarity or affiliation whose `str` (float, list, dict) the model does not produce.
- ItemOps.AddItem: the in-place write of the generated id back into the caller's dictionary is not modelled.
- ItemOps.UpdateItem: `NotText` marks values a text column cannot hold as text, such as a float, a list, or `None` in an optional column. SQLite type affinity is not modelled.
- ItemOps.UpdateItem: an error while saving a configuration file is not modelled. In the source one `try` wraps the whole sweep over the configurations, and `_save_config` re-raises as `OSError` or `RuntimeError`, so the first failed save is logged and abandons the rest of the sweep. Later configurations keep the old id, and `update_item` still returns its result.
- ItemOps.DeleteItem: an error while saving a configuration file is not modelled. As in the rename, the first failed save is logged and abandons the rest of the removal sweep, so later configurations keep the deleted id, and `delete_item` still returns its result.
- Text.Lower: lower-casing covers ASCII letters only.
- Proxy.SplitScheme: `urlsplit`'s removal of tab and newline characters, its stripping of leading C0 control characters, and its IPv6 bracket validation are not modelled.
- Flow.TenPull: the user state and history rows are returned rather than saved, so errors while saving are not modelled.

## Findings

| source | as written | input that shows it | evidently intended | confidence | as-written member | corrected member |
|---|---|---|---|---|---|---|
| src/gacha/gacha_mechanics.py:246 | A 5-star draw asks for the rate-up bucket only when `_5star_guaranteed` is false, so holding the guarantee switches the rate-up request off | A pool with one rate-up and one standard 5-star item, guarantee held, choice index 1: the standard item is drawn again | Holding the guarantee forces a rate-up 5-star | not executed | Draw.GuaranteeIgnoredAsWritten | Draw.GuaranteeHonoured5 |
| src/gacha/gacha_mechanics.py:272 | The incoming `_4star_guaranteed` is never read; the flag only records whether a rate-up was requested | Any state: flipping the incoming 4-star flag changes neither the tier nor the item | Holding the 4-star guarantee gives a rate-up 4-star on the next 4-star draw | not executed | Draw.FourStarFlagIgnoredAsWritten | Draw.GuaranteeHonoured4 |
| src/db/item_db_operations.py:515 | After a key change, the item is read back by the OLD id, which no longer exists, so configuration propagation never runs | Update the name of a stored item with propagation requested: the table row is renamed, but every pool still lists the old id | Read the item back by its new id, so the rename reaches every configuration | not executed | ItemOps.UpdateNeverPropagates | ItemOps.UpdatePropagatesRename |
| src/gacha/cardpool_manager.py:318 | The already-exists check looks up `file_path`, but the entry is stored under `config_group/file_path` | Registry holding `default/x`; add file "x" again with another pool: `default/x` is silently rebound to the new pool | Check the key the entry will be stored under, and refuse a known path | not executed | Registry.AddConfigRebindsPath | Registry.AddConfigRefusesKnownPath |

=== FILE: dict.dfy ===
/** Python's insertion-ordered `dict`, modelled as a sequence of key/value
    pairs. Order matters to the source (first match on iteration, position of
    `random.choice`), so a Dafny `map` would lose behaviour.

    `Get` returns the first binding of a key, `Put` overwrites that binding in
    place or appends a new one, and `Remove` drops every binding of the key; on
    a dictionary without duplicate keys these are exactly Python's `d[k]`,
    `d[k] = v` and `del d[k]`. */
module Dict {
  import opened Wrappers

  type Dict<K, V> = seq<(K, V)>

  /** The keys in iteration order. */
  function Keys<K, V>(d: Dict<K, V>): (ks: seq<K>)
    ensures |ks| == |d|
    ensures forall i :: 0 <= i < |d| ==> ks[i] == d[i].0
  {
    if |d| == 0 then [] else [d[0].0] + Keys(d[1..])
  }

  /** The values in iteration order. */
  function Values<K, V>(d: Dict<K, V>): (vs: seq<V>)
    ensures |vs| == |d|
    ensures forall i :: 0 <= i < |d| ==> vs[i] == d[i].1
  {
    if |d| == 0 then [] else [d[0].1] + Values(d[1..])
  }

  /** `k in d`. */
  predicate HasKey<K(==), V>(d: Dict<K, V>, k: K) {
    |d| > 0 && (d[0].0 == k || HasKey(d[1..], k))
  }

  /** Membership is the same as occurring among the keys. */
  lemma {:induction false} HasKeyIff<K, V>(d: Dict<K, V>, k: K)
    ensures HasKey(d, k) <==> k in Keys(d)
    ensures HasKey(d, k) <==> exists i :: 0 <= i < |d| && d[i].0 == k
  {
    if |d| > 0 {
      HasKeyIff(d[1..], k);
      assert Keys(d) == [d[0].0] + Keys(d[1..]);
      if HasKey(d[1..], k) {
        var i :| 0 <= i < |d[1..]| && d[1..][i].0 == k;
        assert d[i + 1].0 == k;
      }
      if d[0].0 != k && (exists i :: 0 <= i < |d| && d[i].0 == k) {
        var i :| 0 <= i < |d| && d[i].0 == k;
        assert d[1..][i - 1].0 == k;
      }
    }
  }

  /** Python's `dict` invariant: no key is bound twice. */
  ghost predicate NoDupKeys<K, V>(d: Dict<K, V>) {
    forall i, j :: 0 <= i < j < |d| ==> d[i].0 != d[j].0
  }

  /** Lookup: the first binding of `k`, if any. */
  function Get<K(==), V>(d: Dict<K, V>, k: K): (r: Option<V>)
    ensures r.None? <==> !HasKey(d, k)
  {
    if |d| == 0 then None
    else if d[0].0 == k then Some(d[0].1)
    else Get(d[1..], k)
  }

  /** What lookup finds is stored in the dictionary. */
  lemma {:induction false} GetFound<K, V>(d: Dict<K, V>, k: K)
    requires HasKey(d, k)
    ensures (k, Get(d, k).value) in d
  {
    if d[0].0 != k {
      GetFound(d[1..], k);
      assert (k, Get(d, k).value) in d[1..];
    }
  }

  /** Assignment `d[k] = v`: the first binding of `k` is overwritten where it
      stands, otherwise the pair is appended. */
  function Put<K(==,!new), V>(d: Dict<K, V>, k: K, v: V): (r: Dict<K, V>)
    ensures Get(r, k) == Some(v)
    ensures forall k' :: k' != k ==> Get(r, k') == Get(d, k')
  {
    if |d| == 0 then [(k, v)]
    else if d[0].0 == k then
      var r := [(k, v)] + d[1..];
      assert r[1..] == d[1..];
      r
    else
      var rest := Put(d[1..], k, v);
      var r := [d[0]] + rest;
      assert r[1..] == rest;
      r
  }

  /** Assignment to a present key keeps every key where it was; assignment
      to a new key appends the pair at the end. */
  lemma {:induction false} PutShape<K(!new), V>(d: Dict<K, V>, k: K, v: V)
    ensures HasKey(d, k) ==> Keys(Put(d, k, v)) == Keys(d)
    ensures !HasKey(d, k) ==> Put(d, k, v) == d + [(k, v)]
  {
    if |d| > 0 && d[0].0 != k {
      PutShape(d[1..], k, v);
      var r := Put(d, k, v);
      assert r == [d[0]] + Put(d[1..], k, v);
      if HasKey(d, k) {
        assert Keys(r) == [d[0].0] + Keys(Put(d[1..], k, v));
        assert Keys(d) == [d[0].0] + Keys(d[1..]);
      } else {
        assert d == [d[0]] + d[1..];
      }
    } else if |d| > 0 {
      var r := Put(d, k, v);
      assert Keys(r) == [k] + Keys(d[1..]);
      assert Keys(d) == [k] + Keys(d[1..]);
    }
  }

  /** Deletion `del d[k]` (all bindings of `k`; a duplicate-free dictionary
      has at most one). */
  function Remove<K(==,!new), V(!new)>(d: Dict<K, V>, k: K): (r: Dict<K, V>)
    ensures !HasKey(r, k)
    ensures forall k' :: k' != k ==> Get(r, k') == Get(d, k')
    ensures forall p :: p in r <==> p in d && p.0 != k
    ensures |r| <= |d|
  {
    if |d| == 0 then []
    else if d[0].0 == k then Remove(d[1..], k)
    else
      var rest := Remove(d[1..], k);
      var r := [d[0]] + rest;
      assert r[1..] == rest;
      r
  }

  /** Dropping the first entry keeps a dictionary duplicate-free, and no later
      entry shares its key. */
  lemma NoDupKeysTail<K, V>(d: Dict<K, V>)
    requires NoDupKeys(d) && |d| > 0
    ensures NoDupKeys(d[1..])
    ensures !HasKey(d[1..], d[0].0)
  {
    forall i, j | 0 <= i < j < |d[1..]| ensures d[1..][i].0 != d[1..][j].0 {
      assert d[1..][i] == d[i + 1] && d[1..][j] == d[j + 1];
    }
    HasKeyIff(d[1..], d[0].0);
    forall i | 0 <= i < |d[1..]| ensures d[1..][i].0 != d[0].0 {
      assert d[1..][i] == d[i + 1];
    }
  }

  /** In a duplicate-free dictionary every stored pair is what lookup finds. */
  lemma {:induction false} GetStored<K, V>(d: Dict<K, V>, k: K, v: V)
    requires NoDupKeys(d)
    requires (k, v) in d
    ensures Get(d, k) == Some(v)
  {
    if d[0] != (k, v) {
      var i :| 0 <= i < |d| && d[i] == (k, v);
      assert i != 0;
      assert d[0].0 != k;
      assert d[1..][i - 1] == (k, v);
      NoDupKeysTail(d);
      GetStored(d[1..], k, v);
    }
  }

  /** Assignment keeps a dictionary duplicate-free. */
  lemma PutKeepsNoDup<K(!new), V>(d: Dict<K, V>, k: K, v: V)
    requires NoDupKeys(d)
    ensures NoDupKeys(Put(d, k, v))
  {
    var r := Put(d, k, v);
    PutShape(d, k, v);
    if HasKey(d, k) {
      forall i, j | 0 <= i < j < |r| ensures r[i].0 != r[j].0 {
        assert Keys(r)[i] == Keys(d)[i] && Keys(r)[j] == Keys(d)[j];
      }
    } else {
      HasKeyIff(d, k);
      forall i, j | 0 <= i < j < |r| ensures r[i].0 != r[j].0 {
        if j == |d| {
          assert r[i] == d[i];
        }
      }
    }
  }

  /** Deletion keeps a dictionary duplicate-free. */
  lemma {:induction false} RemoveKeepsNoDup<K(!new), V(!new)>(d: Dict<K, V>, k: K)
    requires NoDupKeys(d)
    ensures NoDupKeys(Remove(d, k))
  {
    if |d| > 0 {
      NoDupKeysTail(d);
      RemoveKeepsNoDup(d[1..], k);
      if d[0].0 != k {
        var rest := Remove(d[1..], k);
        var r := [d[0]] + rest;
        assert r == Remove(d, k);
        forall i, j | 0 <= i < j < |r| ensures r[i].0 != r[j].0 {
          if i == 0 {
            assert r[j] == rest[j - 1];
            assert rest[j - 1] in d[1..];
            var m :| 0 <= m < |d[1..]| && d[1..][m] == rest[j - 1];
            assert d[m + 1] == rest[j - 1];
          } else {
            assert r[i] == rest[i - 1] && r[j] == rest[j - 1];
          }
        }
      }
    }
  }

  /** Lookup after appending a pair: an earlier binding still wins. */
  lemma {:induction false} GetAppend<K, V>(d: Dict<K, V>, k: K, v: V, q: K)
    ensures HasKey(d + [(k, v)], q) <==> HasKey(d, q) || k == q
    ensures Get(d + [(k, v)], q)
         == if HasKey(d, q) then Get(d, q) else if k == q then Some(v) else None
  {
    if |d| > 0 {
      assert (d + [(k, v)])[1..] == d[1..] + [(k, v)];
      GetAppend(d[1..], k, v, q);
    } else {
      assert (d + [(k, v)])[1..] == [];
    }
  }

  /** A key of a prefix is a key of the whole dictionary. */
  lemma HasKeyPrefix<K, V>(d: Dict<K, V>, n: nat, q: K)
    requires n <= |d|
    ensures HasKey(d[..n], q) ==> HasKey(d, q)
  {
    HasKeyIff(d[..n], q);
    HasKeyIff(d, q);
    if HasKey(d[..n], q) {
      var i :| 0 <= i < n && d[..n][i].0 == q;
      assert d[i].0 == q;
    }
  }

  /** A slice of a duplicate-free dictionary is duplicate-free. */
  lemma NoDupKeysSlice<K, V>(d: Dict<K, V>, lo: nat, hi: nat)
    requires NoDupKeys(d)
    requires lo <= hi <= |d|
    ensures NoDupKeys(d[lo..hi])
  {
    forall i, j | 0 <= i < j < hi - lo ensures d[lo..hi][i].0 != d[lo..hi][j].0 {
      assert d[lo..hi][i] == d[lo + i] && d[lo..hi][j] == d[lo + j];
    }
  }

  /** In a duplicate-free dictionary the last key occurs nowhere before. */
  lemma NoDupKeysLast<K, V>(d: Dict<K, V>)
    requires NoDupKeys(d) && |d| > 0
    ensures !HasKey(d[..|d| - 1], d[|d| - 1].0)
  {
    var n := |d| - 1;
    HasKeyIff(d[..n], d[n].0);
    forall i | 0 <= i < n ensures d[..n][i].0 != d[n].0 {
      assert d[..n][i] == d[i];
    }
  }

  /** Lookup in a dictionary seen as its prefix plus its last pair: an
      earlier binding wins, otherwise the last pair answers for its key. */
  lemma GetLast<K, V>(d: Dict<K, V>, q: K)
    requires |d| > 0
    ensures var n := |d| - 1;
            Get(d, q) == if HasKey(d[..n], q) then Get(d[..n], q) else if d[n].0 == q then Some(d[n].1) else None
  {
    var n := |d| - 1;
    assert d == d[..n] + [(d[n].0, d[n].1)];
    GetAppend(d[..n], d[n].0, d[n].1, q);
  }

  /** On a duplicate-free dictionary, assignment replaces the binding of `k`
      and keeps every other pair. */
  lemma {:induction false} PutMembers<K(!new), V>(d: Dict<K, V>, k: K, v: V)
    requires NoDupKeys(d)
    ensures forall p :: p in Put(d, k, v) <==> p == (k, v) || (p in d && p.0 != k)
  {
    if |d| > 0 {
      NoDupKeysTail(d);
      HasKeyIff(d[1..], d[0].0);
      if d[0].0 == k {
        assert Put(d, k, v) == [(k, v)] + d[1..];
        assert d == [d[0]] + d[1..];
        forall p | p in d[1..] ensures p.0 != k {
          var i :| 0 <= i < |d[1..]| && d[1..][i] == p;
        }
      } else {
        PutMembers(d[1..], k, v);
        assert Put(d, k, v) == [d[0]] + Put(d[1..], k, v);
        assert d == [d[0]] + d[1..];
      }
    }
  }
}

=== FILE: digest.dfy ===
/** MD5 is not modelled: callers receive the hash function as a parameter
    mapping a string to its 32-character lower-case hexadecimal digest
    (`hashlib.md5(s.encode("utf-8")).hexdigest()`). */
module Digest {

  predicate IsHexLower(c: char) {
    '0' <= c <= '9' || 'a' <= c <= 'f'
  }

  /** A hexadecimal MD5 digest. */
  type Digest = s: string | |s| == 32 && forall i :: 0 <= i < |s| ==> IsHexLower(s[i])
    witness "00000000000000000000000000000000"

  /** The hash function the source calls, supplied from outside. */
  type Hasher = string -> Digest

  /** `hexdigest()[:n]` for `n` at most the digest length. */
  function HexPrefix(h: Hasher, s: string, n: nat): (r: string)
    requires n <= 32
    ensures |r| == n && r == h(s)[..n]
    ensures forall i :: 0 <= i < n ==> IsHexLower(r[i])
  {
    h(s)[..n]
  }
}

=== FILE: draw.dfy ===
/** One draw: `execute_pull` of `gacha_mechanics.py`.

    The random numbers the source draws are passed in as `Samples`: `tier`
    decides the rarity, `up` the rate-up request, `role` the 4-star item
    type, and `choice` the pick among the candidates. The source draws `up`
    and `role` only on the branches that use them; a model that ignores an
    unused sample behaves the same.

    The handling of the two guarantee flags is parameterised by a `Policy`:
    `AsWritten` is the source, `Intended` the behaviour its names and state
    promise (README, Findings). */
module Draw {
  import opened Wrappers
  import opened Dict
  import opened Items
  import opened PoolConfigs
  import opened Rates
  import opened Selection

  datatype Samples = Samples(tier: real, up: real, role: real, choice: nat)

  /** The pity counters and guarantee flags a user carries between draws. */
  datatype PityState = PityState(pity5: int, pity4: int, guaranteed5: bool, guaranteed4: bool)

  datatype Policy = AsWritten | Intended

  datatype DrawResult = DrawResult(item: Item, state: PityState, tier: Tier)

  /** Whether a 5-star draw asks for the rate-up bucket first. As written the
      guarantee flag switches the request off; intended, it forces it. */
  function UpRequested5(policy: Policy, guaranteed: bool, up: real, upRate: real): bool {
    match policy
    case AsWritten => !guaranteed && up < upRate
    case Intended => guaranteed || up < upRate
  }

  /** Whether a 4-star draw asks for the rate-up bucket first. A pool without
      4-star rate-up ids never asks; as written the guarantee flag is not
      consulted. */
  function UpRequested4(policy: Policy, guaranteed: bool, hasUp: bool, up: real, upRate: real): bool {
    match policy
    case AsWritten => hasUp && up < upRate
    case Intended => hasUp && (guaranteed || up < upRate)
  }

  /** The 4-star guarantee after a 4-star draw: as written it records the
      request, intended it records whether the item was not rate-up. */
  function Guarantee4After(policy: Policy, isUp: bool, it: Item, upIds: seq<string>): bool {
    match policy
    case AsWritten => !isUp
    case Intended => it.externalId !in upIds
  }

  /** The 4-star type request: a character unless the role sample falls at
      or below `_4star_role_rate`. */
  function FourStarType(rules: Rules, role: real): string {
    if role > rules.roleRate4 then "character" else "weapon"
  }

  /** The rarity roll: 5-star when the 5-star rate beats the sample,
      otherwise 4-star when the 4-star rate does, otherwise 3-star. The 4-star
      rate is only computed when the 5-star roll misses. */
  function Decide(rules: Rules, s: PityState, tier: real): (r: Result<Tier, DrawError>)
    ensures r.Failure? ==> r.error == DrawError.KeyError("soft_pity") || r.error.PityOverflow?
  {
    var r5 :- Rate5(rules, s.pity5 + 1);
    if r5 > tier then Success(Five)
    else
      var r4 :- Rate4(rules, s.pity4 + 1);
      if r4 > tier then Success(Four) else Success(Three)
  }

  /** Whether the draw asks for the rate-up bucket of its tier first. */
  function UpRequest(rules: Rules, pool: Pool, t: Tier, s: PityState, smp: Samples, policy: Policy): bool {
    match t
    case Five => UpRequested5(policy, s.guaranteed5, smp.up, rules.up5)
    case Four => UpRequested4(policy, s.guaranteed4, |pool.upIds4| > 0, smp.up, rules.up4)
    case Three => false
  }

  /** The item search of a tier; only a 4-star draw asks for an item type. */
  function Pick(rules: Rules, pool: Pool, t: Tier, s: PityState, smp: Samples, policy: Policy)
    : (r: Result<Item, DrawError>)
    ensures r.Success? ==> r.value in pool.items
    ensures r.Failure? ==> r.error == NoItems
  {
    var itemType := if t == Four then Some(FourStarType(rules, smp.role)) else None;
    Select(pool, t, UpRequest(rules, pool, t, s, smp, policy), itemType, smp.choice)
  }

  /** The counters and flags after a draw of tier `t` that gave `it`. */
  function Next(rules: Rules, pool: Pool, t: Tier, s: PityState, it: Item, smp: Samples, policy: Policy): PityState {
    match t
    case Five =>
      var p4 := if s.pity4 as real == rules.hardPity4.GetOr(10.0) then 0 else s.pity4;
      PityState(0, p4, it.externalId !in pool.upIds5, s.guaranteed4)
    case Four =>
      var g4 := Guarantee4After(policy, UpRequest(rules, pool, t, s, smp, policy), it, pool.upIds4);
      PityState(s.pity5 + 1, 0, s.guaranteed5, g4)
    case Three =>
      s.(pity5 := s.pity5 + 1, pity4 := s.pity4 + 1)
  }

  /** The draw on parsed rules and a built pool. */
  function Pull(rules: Rules, pool: Pool, s: PityState, smp: Samples, policy: Policy)
    : (r: Result<DrawResult, DrawError>)
    ensures r.Success? ==> r.value.item in pool.items
    ensures r.Failure? ==>
              r.error == NoItems || r.error == DrawError.KeyError("soft_pity") || r.error.PityOverflow?
  {
    var t :- Decide(rules, s, smp.tier);
    var it :- Pick(rules, pool, t, s, smp, policy);
    Success(DrawResult(it, Next(rules, pool, t, s, it, smp, policy), t))
  }

  /** What a successful draw does to the counters and flags: a 5-star draw
      resets the 5-star counter (and the 4-star one only when it sits exactly
      at the 4-star hard pity, default 10) and sets the 5-star guarantee
      exactly when the item is not rate-up; a 4-star draw resets the 4-star
      counter and counts one more towards 5-star; a 3-star draw counts one
      more towards both. Only a 4-star draw touches the 4-star guarantee,
      only a 5-star one the 5-star guarantee. */
  lemma PullState(rules: Rules, pool: Pool, s: PityState, smp: Samples, policy: Policy)
    requires Pull(rules, pool, s, smp, policy).Success?
    ensures var d := Pull(rules, pool, s, smp, policy).value;
            && (d.tier != Four ==> d.state.guaranteed4 == s.guaranteed4)
            && (d.tier != Five ==> d.state.guaranteed5 == s.guaranteed5)
            && (d.tier == Five ==>
                  && d.state.pity5 == 0
                  && d.state.pity4 == (if s.pity4 as real == rules.hardPity4.GetOr(10.0) then 0 else s.pity4)
                  && (d.state.guaranteed5 <==> d.item.externalId !in pool.upIds5))
            && (d.tier == Four ==> d.state.pity5 == s.pity5 + 1 && d.state.pity4 == 0)
            && (d.tier == Three ==> d.state.pity5 == s.pity5 + 1 && d.state.pity4 == s.pity4 + 1)
  {
    var d := Pull(rules, pool, s, smp, policy).value;
    assert d.state == Next(rules, pool, d.tier, s, d.item, smp, policy);
  }

  /** `execute_pull`: the pool's rules, the pool's items out of the
      catalogue's item objects, then the draw. */
  function ExecutePull(cfg: PoolConfig, objects: Dict<string, Item>, s: PityState, smp: Samples, policy: Policy)
    : (r: Result<DrawResult, DrawError>)
    ensures r.Success? ==> Included(r.value.item, cfg.includedItemIds, objects)
    ensures RulesOf(cfg).Failure? ==> r == Failure(RulesOf(cfg).error)
  {
    var rules :- RulesOf(cfg);
    Pull(rules, PoolOf(cfg.includedItemIds, cfg.rateUpItemIds, objects), s, smp, policy)
  }

  // ----- rarity decision -----

  /** The roll is 5-star exactly when the 5-star rate beats the sample, and
      4-star exactly when it does not and the 4-star rate does. */
  lemma DecideTier(rules: Rules, s: PityState, tier: real)
    requires Decide(rules, s, tier).Success?
    ensures var t := Decide(rules, s, tier).value;
            && Rate5(rules, s.pity5 + 1).Success?
            && (t == Five <==> Rate5(rules, s.pity5 + 1).value > tier)
            && (t == Four <==> Rate5(rules, s.pity5 + 1).value <= tier
                               && Rate4(rules, s.pity4 + 1).Success?
                               && Rate4(rules, s.pity4 + 1).value > tier)
  {
  }

  /** A draw's tier is its roll's. */
  lemma PullTier(rules: Rules, pool: Pool, s: PityState, smp: Samples, policy: Policy)
    requires Pull(rules, pool, s, smp, policy).Success?
    ensures Decide(rules, s, smp.tier) == Success(Pull(rules, pool, s, smp, policy).value.tier)
  {
  }

  /** At 5-star hard pity a sample below the hard-pity rate always yields a
      5-star draw (when the pool holds a starred item). */
  lemma HardPityFive(rules: Rules, pool: Pool, s: PityState, smp: Samples, policy: Policy)
    requires (s.pity5 + 2) as real >= rules.hardPity5.GetOr(95.0)
    requires rules.hardPityRate5 > smp.tier
    requires exists x :: x in pool.items && Starred(x)
    ensures Pull(rules, pool, s, smp, policy).Success?
    ensures Pull(rules, pool, s, smp, policy).value.tier == Five
  {
    assert Decide(rules, s, smp.tier) == Success(Five);
    SelectSucceedsIff(pool, Five, UpRequest(rules, pool, Five, s, smp, policy), None, smp.choice);
  }

  /** Without a 4-star `hard_pity_pull`, every draw that misses 5-star is a
      `ValueError`. */
  lemma NoFourStarHardPity(rules: Rules, pool: Pool, s: PityState, smp: Samples, policy: Policy)
    requires rules.hardPity4.None? && s.pity4 >= 0
    requires Rate5(rules, s.pity5 + 1).Success? && Rate5(rules, s.pity5 + 1).value <= smp.tier
    ensures Pull(rules, pool, s, smp, policy) == Failure(PityOverflow(s.pity4 + 2))
  {
    Rate4WithoutHardPity(rules, s.pity4 + 1);
    assert Decide(rules, s, smp.tier) == Failure(PityOverflow(s.pity4 + 2));
  }

  // ----- the pity invariant -----

  /** A whole number. */
  predicate Whole(x: real) {
    x.Floor as real == x
  }

  /** The counters stay below the hard-pity counts, as the configured pity
      promises: the next count evaluated (counter + 2) never passes it. */
  predicate Bounded(rules: Rules, s: PityState) {
    && Bounded4(rules, s)
    && rules.hardPity5.Some? && Whole(rules.hardPity5.value)
    && 0 <= s.pity5 && (s.pity5 + 2) as real <= rules.hardPity5.value
  }

  /** The 4-star half of `Bounded`: a whole 4-star hard pity that the next
      4-star count evaluated never passes. Nothing about the 5-star rules. */
  predicate Bounded4(rules: Rules, s: PityState) {
    && rules.hardPity4.Some? && Whole(rules.hardPity4.value)
    && 0 <= s.pity4 && (s.pity4 + 2) as real <= rules.hardPity4.value
  }

  /** With the 4-star counter bounded and a 4-star hard-pity rate that beats
      the sample, `calculate_rate_4star` never raises: the roll can only fail
      with the missing-`soft_pity` `KeyError`, and a 3-star roll happens only
      below the 4-star hard pity. */
  lemma DecideBounded4(rules: Rules, s: PityState, tier: real)
    requires Bounded4(rules, s)
    requires rules.hardPityRate4 > tier
    ensures Decide(rules, s, tier).Failure? ==> Decide(rules, s, tier).error == DrawError.KeyError("soft_pity")
    ensures Decide(rules, s, tier) == Success(Three) ==> (s.pity4 + 3) as real <= rules.hardPity4.value
  {
    var r5 := Rate5(rules, s.pity5 + 1);
    if r5.Success? && r5.value <= tier {
      var r4 := Rate4(rules, s.pity4 + 1);
      assert r4.Success?;
      if r4.value <= tier {
        assert (s.pity4 + 2) as real < rules.hardPity4.value;
        WholeGap(s.pity4 + 2, rules.hardPity4.value);
      }
    }
  }

  /** The 4-star pity invariant on its own: whatever the 5-star rules (an
      absent `hard_pity_pull` takes the default of 95), a draw from a state
      whose 4-star counter is bounded never overflows it, and leaves it
      bounded again. */
  lemma PullKeepsBounded4(rules: Rules, pool: Pool, s: PityState, smp: Samples, policy: Policy)
    requires Bounded4(rules, s)
    requires rules.hardPityRate4 > smp.tier
    ensures Pull(rules, pool, s, smp, policy).Failure? ==> !Pull(rules, pool, s, smp, policy).error.PityOverflow?
    ensures Pull(rules, pool, s, smp, policy).Success? ==> Bounded4(rules, Pull(rules, pool, s, smp, policy).value.state)
  {
    DecideBounded4(rules, s, smp.tier);
    var p := Pull(rules, pool, s, smp, policy);
    if p.Success? {
      PullTier(rules, pool, s, smp, policy);
      PullState(rules, pool, s, smp, policy);
      var n := p.value.state;
      match p.value.tier
      case Five =>
        assert 0 <= n.pity4 <= s.pity4;
      case Four =>
        assert n.pity4 == 0;
      case Three =>
        assert n.pity4 == s.pity4 + 1;
    }
  }

  /** From a bounded state, with hard-pity rates that beat the sample, the
      roll never overflows, and a 5-star or 3-star roll happens only below
      the respective hard pity. */
  lemma DecideBounded(rules: Rules, s: PityState, tier: real)
    requires Bounded(rules, s)
    requires rules.hardPityRate5 > tier && rules.hardPityRate4 > tier
    requires rules.softPity5.Some?
    ensures Decide(rules, s, tier).Success?
    ensures Decide(rules, s, tier).value != Five ==> (s.pity5 + 3) as real <= rules.hardPity5.value
    ensures Decide(rules, s, tier).value == Three ==> (s.pity4 + 3) as real <= rules.hardPity4.value
  {
    var r5 := Rate5(rules, s.pity5 + 1);
    assert r5.Success?;
    if r5.value <= tier {
      assert (s.pity5 + 2) as real < rules.hardPity5.value;
      WholeGap(s.pity5 + 2, rules.hardPity5.value);
      var r4 := Rate4(rules, s.pity4 + 1);
      assert r4.Success?;
      if r4.value <= tier {
        assert (s.pity4 + 2) as real < rules.hardPity4.value;
        WholeGap(s.pity4 + 2, rules.hardPity4.value);
      }
    }
  }

  /** A draw from a bounded state never overflows the 4-star counter, and
      the state it leaves is bounded again. */
  lemma PullKeepsBounded(rules: Rules, pool: Pool, s: PityState, smp: Samples, policy: Policy)
    requires Bounded(rules, s)
    requires rules.hardPityRate5 > smp.tier && rules.hardPityRate4 > smp.tier
    requires rules.softPity5.Some?
    ensures Pull(rules, pool, s, smp, policy).Failure? ==> Pull(rules, pool, s, smp, policy).error == NoItems
    ensures Pull(rules, pool, s, smp, policy).Success? ==> Bounded(rules, Pull(rules, pool, s, smp, policy).value.state)
  {
    DecideBounded(rules, s, smp.tier);
    var p := Pull(rules, pool, s, smp, policy);
    if p.Success? {
      PullTier(rules, pool, s, smp, policy);
      PullState(rules, pool, s, smp, policy);
      var n := p.value.state;
      match p.value.tier
      case Five =>
        assert n.pity5 == 0 && 0 <= n.pity4 <= s.pity4;
      case Four =>
        assert n.pity5 == s.pity5 + 1 && n.pity4 == 0;
      case Three =>
        assert n.pity5 == s.pity5 + 1 && n.pity4 == s.pity4 + 1;
    }
  }

  /** Between whole numbers a strict gap is at least one. */
  lemma WholeGap(n: int, h: real)
    requires Whole(h) && (n as real) < h
    ensures (n + 1) as real <= h
  {
    assert n < h.Floor;
  }

  // ----- the guarantee flags (Findings) -----

  /** A pool with one rate-up and one standard 5-star item. */
  const UpFive := Item("u5", "Up", "5star", "character", "", "", "")
  const StdFive := Item("s5", "Std", "5star", "character", "", "", "")
  const TwoFives := Pool([UpFive, StdFive], ["u5"], [])

  /** Rules at 5-star hard pity from the first draw on. */
  const AtHardPity := Rules(Some(1.0), 1.0, 0.008, Some([]), Some(10.0), 1.0, 0.06, 0.5, 0.5, 0.06)

  /** As written, a user holding the 5-star guarantee can still get the
      standard item: the flag switches the rate-up request off, and the plain
      5-star bucket holds both items. */
  lemma GuaranteeIgnoredAsWritten()
    ensures var d := Pull(AtHardPity, TwoFives, PityState(0, 0, true, false), Samples(0.0, 0.0, 0.0, 1), AsWritten);
            && d.Success? && d.value.tier == Five
            && d.value.item == StdFive && d.value.item.externalId !in TwoFives.upIds5
  {
    assert Bucket(TwoFives, Five, false) == [UpFive, StdFive];
    SelectFromFirstBucket(TwoFives, Five, false, None, 1, 0);
  }

  /** Intended, the 5-star guarantee always delivers a rate-up item when the
      pool has one, and clears itself. */
  lemma GuaranteeHonoured5(rules: Rules, pool: Pool, s: PityState, smp: Samples)
    requires s.guaranteed5
    requires exists x :: x in pool.items && x.rarity == "5star" && x.externalId in pool.upIds5
    requires Pull(rules, pool, s, smp, Intended).Success?
    requires Pull(rules, pool, s, smp, Intended).value.tier == Five
    ensures Pull(rules, pool, s, smp, Intended).value.item.externalId in pool.upIds5
    ensures !Pull(rules, pool, s, smp, Intended).value.state.guaranteed5
  {
    var x :| x in pool.items && x.rarity == "5star" && x.externalId in pool.upIds5;
    assert x in Bucket(pool, Five, true);
    SelectFromFirstBucket(pool, Five, true, None, smp.choice, 0);
  }

  /** As written, the incoming 4-star guarantee has no effect on the draw:
      flipping it changes neither the item nor the tier. */
  lemma FourStarFlagIgnoredAsWritten(rules: Rules, pool: Pool, s: PityState, smp: Samples)
    ensures var a := Pull(rules, pool, s.(guaranteed4 := true), smp, AsWritten);
            var b := Pull(rules, pool, s.(guaranteed4 := false), smp, AsWritten);
            && a.Success? == b.Success?
            && (a.Success? ==> a.value.item == b.value.item && a.value.tier == b.value.tier)
  {
    var s1 := s.(guaranteed4 := true);
    var s2 := s.(guaranteed4 := false);
    assert Decide(rules, s1, smp.tier) == Decide(rules, s2, smp.tier);
    if Decide(rules, s1, smp.tier).Success? {
      var t := Decide(rules, s1, smp.tier).value;
      assert UpRequest(rules, pool, t, s1, smp, AsWritten) == UpRequest(rules, pool, t, s2, smp, AsWritten);
      assert Pick(rules, pool, t, s1, smp, AsWritten) == Pick(rules, pool, t, s2, smp, AsWritten);
    }
  }

  /** Intended, a user holding the 4-star guarantee gets a rate-up item on
      their next 4-star draw when the pool has one. */
  lemma GuaranteeHonoured4(rules: Rules, pool: Pool, s: PityState, smp: Samples)
    requires s.guaranteed4
    requires exists x :: x in pool.items && x.rarity == "4star" && x.externalId in pool.upIds4
    requires Pull(rules, pool, s, smp, Intended).Success?
    requires Pull(rules, pool, s, smp, Intended).value.tier == Four
    ensures Pull(rules, pool, s, smp, Intended).value.item.externalId in pool.upIds4
    ensures !Pull(rules, pool, s, smp, Intended).value.state.guaranteed4
  {
    var x :| x in pool.items && x.rarity == "4star" && x.externalId in pool.upIds4;
    assert x in Bucket(pool, Four, true);
    assert |pool.upIds4| > 0;
    SelectFromFirstBucket(pool, Four, true, Some(FourStarType(rules, smp.role)), smp.choice, 0);
  }
}

=== FILE: flow.dfy ===
/** A user's draw session: `GachaFlow` of `gacha_flow.py`.

    The user state is what the source keeps on the flow object and saves
    after every draw. Loading and saving it, the pull history table and the
    clock are outside the model: the saved state is an argument, the
    timestamp is a string argument, and the records a draw would save are
    returned. The random numbers of the k-th draw attempt are `sample(k)`. */
module Flow {
  import opened Wrappers
  import opened Dict
  import opened Items
  import opened PoolConfigs
  import opened Rates
  import opened Selection
  import opened Draw
  import Sorting

  datatype UserState = UserState(pity: PityState, pullCount: int)

  /** One pull-history row. */
  datatype Record = Record(item: string, rarity: string, poolId: string, pullTime: string)

  /** `single_pull`'s result dictionary. */
  datatype PullResult = PullResult(item: string, rarity: string, itemObj: Item)

  /** `_reset`: no pity, no guarantee, no pulls. */
  const Fresh := UserState(PityState(0, 0, false, false), 0)

  /** `GachaFlow.__init__`: the saved state when there is one, otherwise a
      fresh one. */
  function Init(saved: Option<UserState>): (u: UserState)
    ensures saved.Some? ==> u == saved.value
    ensures saved.None? ==> u.pullCount == 0 && u.pity.pity5 == 0 && u.pity.pity4 == 0
                            && !u.pity.guaranteed5 && !u.pity.guaranteed4
  {
    saved.GetOr(Fresh)
  }

  /** A draw on a fixed pool: the pity state and samples in, a drawn item or
      an error out. */
  type Drawer = (PityState, Samples) -> Result<DrawResult, DrawError>

  /** `execute_pull` on one pool, catalogue and policy. */
  function DrawerOf(cfg: PoolConfig, objects: Dict<string, Item>, policy: Policy): Drawer {
    (p: PityState, smp: Samples) => ExecutePull(cfg, objects, p, smp, policy)
  }

  /** `GachaFlow.pull`: one draw; on success the draw's counters and flags
      replace the user's and the pull count goes up by one; a failed draw
      leaves the user as they were (the failure carries no state). */
  function PullOnce(draw: Drawer, u: UserState, smp: Samples): (r: Result<(UserState, Item), DrawError>)
    ensures r.Success? <==> draw(u.pity, smp).Success?
    ensures r.Failure? ==> r.error == draw(u.pity, smp).error
    ensures r.Success? ==>
              var d := draw(u.pity, smp).value;
              r.value.0 == UserState(d.state, u.pullCount + 1) && r.value.1 == d.item
  {
    var d :- draw(u.pity, smp);
    Success((UserState(d.state, u.pullCount + 1), d.item))
  }

  /** The history row of one drawn item. */
  function RecordOf(it: Item, poolId: string, now: string): Record {
    Record(it.name, it.rarity, poolId, now)
  }

  /** `single_pull`: the pull, its result dictionary and the row it saves.
      The draw always yields an item, so the source's placeholders for a
      missing one never show. */
  function SinglePull(cfg: PoolConfig, objects: Dict<string, Item>, u: UserState, smp: Samples,
                      policy: Policy, now: string)
    : (r: Result<(UserState, PullResult, Record), DrawError>)
    ensures r.Success? <==> ExecutePull(cfg, objects, u.pity, smp, policy).Success?
    ensures r.Failure? ==> r.error == ExecutePull(cfg, objects, u.pity, smp, policy).error
    ensures r.Success? ==>
              var d := ExecutePull(cfg, objects, u.pity, smp, policy).value;
              var (u', res, rec) := r.value;
              && u' == UserState(d.state, u.pullCount + 1)
              && res == PullResult(d.item.name, d.item.rarity, d.item)
              && rec == Record(d.item.name, d.item.rarity, cfg.cpId, now)
  {
    var (u', it) :- PullOnce(DrawerOf(cfg, objects, policy), u, smp);
    var res := PullResult(it.name, it.rarity, it);
    Success((u', res, Record(res.item, res.rarity, cfg.cpId, now)))
  }

  /** `__init__` establishes the 4-star pity invariant: a fresh user is
      bounded under every whole 4-star hard pity of at least 2, and a resumed
      user is bounded exactly when the saved state was. */
  lemma InitBounded4(rules: Rules, saved: Option<UserState>)
    requires rules.hardPity4.Some? && Whole(rules.hardPity4.value) && rules.hardPity4.value >= 2.0
    ensures saved.None? ==> Bounded4(rules, Init(saved).pity)
    ensures saved.Some? ==> (Bounded4(rules, Init(saved).pity) <==> Bounded4(rules, saved.value.pity))
  {
  }

  /** `single_pull` preserves the 4-star pity invariant: from a bounded user,
      with a 4-star hard-pity rate that beats the sample, the call never
      fails with the 4-star overflow and leaves the user bounded again. */
  lemma SinglePullKeepsBounded4(cfg: PoolConfig, objects: Dict<string, Item>, u: UserState, smp: Samples,
                                policy: Policy, now: string)
    requires RulesOf(cfg).Success?
    requires Bounded4(RulesOf(cfg).value, u.pity)
    requires RulesOf(cfg).value.hardPityRate4 > smp.tier
    ensures SinglePull(cfg, objects, u, smp, policy, now).Failure? ==>
              !SinglePull(cfg, objects, u, smp, policy, now).error.PityOverflow?
    ensures SinglePull(cfg, objects, u, smp, policy, now).Success? ==>
              Bounded4(RulesOf(cfg).value, SinglePull(cfg, objects, u, smp, policy, now).value.0.pity)
  {
    var rules := RulesOf(cfg).value;
    var pool := PoolOf(cfg.includedItemIds, cfg.rateUpItemIds, objects);
    PullKeepsBounded4(rules, pool, u.pity, smp, policy);
    assert ExecutePull(cfg, objects, u.pity, smp, policy) == Pull(rules, pool, u.pity, smp, policy);
  }

  // ----- the ten-pull loop -----

  /** The loop's running values: the user state, the items and rows so far,
      the attempts made (`retry_count`) and the attempts a `ValueError`
      cost. */
  datatype Batch = Batch(state: UserState, items: seq<Item>, records: seq<Record>, attempts: nat, failures: nat)

  /** How the loop ended: normally, or by an exception other than
      `ValueError`, which leaves the user state as far as it got. */
  datatype Collected = Finished(batch: Batch) | Raised(error: DrawError, state: UserState)

  const MaxItems := 10
  const MaxRetries := 20

  /** What the loop keeps true: one row per item, in step, no more items
      than asked for, and every attempt either drew an item or failed. */
  ghost predicate BatchOk(b: Batch, poolId: string, now: string) {
    && |b.items| == |b.records| <= MaxItems
    && b.attempts <= MaxRetries
    && |b.items| + b.failures == b.attempts
    && forall i :: 0 <= i < |b.items| ==> b.records[i] == RecordOf(b.items[i], poolId, now)
  }

  /** One successful attempt: the item and its row are appended and the
      draw's user state taken over. */
  function Append(b: Batch, u': UserState, it: Item, poolId: string, now: string): (b': Batch)
    requires BatchOk(b, poolId, now) && |b.items| < MaxItems && b.attempts < MaxRetries
    ensures BatchOk(b', poolId, now)
    ensures b'.items == b.items + [it] && b'.state == u'
    ensures b'.attempts == b.attempts + 1 && b'.failures == b.failures
  {
    var b' := Batch(u', b.items + [it], b.records + [RecordOf(it, poolId, now)], b.attempts + 1, b.failures);
    assert forall i :: 0 <= i < |b'.items| ==> b'.records[i] == RecordOf(b'.items[i], poolId, now) by {
      forall i | 0 <= i < |b'.items| ensures b'.records[i] == RecordOf(b'.items[i], poolId, now) {
        if i < |b.items| {
          assert b'.items[i] == b.items[i] && b'.records[i] == b.records[i];
        }
      }
    }
    b'
  }

  /** `x` is an item some call of the draw can yield. */
  ghost predicate Drawable(draw: Drawer, x: Item) {
    exists p: PityState, smp: Samples :: draw(p, smp).Success? && draw(p, smp).value.item == x
  }

  /** The `while len(items) < 10` loop from a given point. A `ValueError`
      costs an attempt and changes nothing else; any other error ends the
      loop. A successful attempt updates the user as `pull` does. */
  function Collect(draw: Drawer, poolId: string, sample: nat -> Samples, now: string, b: Batch): (r: Collected)
    requires BatchOk(b, poolId, now)
    ensures r.Finished? ==>
              && BatchOk(r.batch, poolId, now)
              && (|r.batch.items| == MaxItems || r.batch.attempts == MaxRetries)
              && b.items <= r.batch.items
              && r.batch.state.pullCount == b.state.pullCount + |r.batch.items| - |b.items|
              && r.batch.failures >= b.failures
    ensures r.Raised? ==> !r.error.IsValueError()
    ensures forall x :: (r.Finished? && x in r.batch.items) ==> x in b.items || Drawable(draw, x)
    decreases MaxRetries - b.attempts
  {
    if |b.items| >= MaxItems || b.attempts + 1 > MaxRetries then Finished(b)
    else
      var attempt := PullOnce(draw, b.state, sample(b.attempts));
      if attempt.Failure? then
        if attempt.error.IsValueError() then
          Collect(draw, poolId, sample, now, b.(attempts := b.attempts + 1, failures := b.failures + 1))
        else Raised(attempt.error, b.state)
      else
        var (u', it) := attempt.value;
        assert Drawable(draw, it);
        Collect(draw, poolId, sample, now, Append(b, u', it, poolId, now))
  }

  /** The rank `sort_key` gives an item's rarity: 5, 4, 3, otherwise 0. */
  function RarityValue(it: Item): int {
    if it.rarity == "5star" then 5
    else if it.rarity == "4star" then 4
    else if it.rarity == "3star" then 3
    else 0
  }

  /** 0 for a character, 1 for anything else. */
  function TypeValue(it: Item): int {
    if it.itemType == "character" then 0 else 1
  }

  /** `sort_key` folded into one number: rarity descending, then characters
      before the rest. */
  function RankKey(it: Item): real {
    (-2 * RarityValue(it) + TypeValue(it)) as real
  }

  /** The number key orders items exactly as the source's key pair
      `(-rarity, type)` does, lexicographically. */
  lemma RankKeyIsPairOrder(a: Item, b: Item)
    ensures RankKey(a) <= RankKey(b) <==>
              (-RarityValue(a) < -RarityValue(b)
               || (-RarityValue(a) == -RarityValue(b) && TypeValue(a) <= TypeValue(b)))
  {
  }

  /** The loop from its start, as `ten_consecutive_pulls` runs it. */
  function CollectTen(cfg: PoolConfig, objects: Dict<string, Item>, u: UserState, sample: nat -> Samples,
                      policy: Policy, now: string): Collected
  {
    Collect(DrawerOf(cfg, objects, policy), cfg.cpId, sample, now, Batch(u, [], [], 0, 0))
  }

  /** `ten_consecutive_pulls`: up to ten items, sorted by rank with equal
      ranks in draw order, with the rows to save and the state reached. */
  function TenPull(cfg: PoolConfig, objects: Dict<string, Item>, u: UserState, sample: nat -> Samples,
                   policy: Policy, now: string): (r: Collected)
    ensures r.Finished? ==>
              && |r.batch.items| == |r.batch.records| <= MaxItems
              && Sorting.SortedBy(r.batch.items, RankKey)
              && r.batch.attempts <= MaxRetries
              && |r.batch.items| + r.batch.failures == r.batch.attempts
              && r.batch.state.pullCount == u.pullCount + |r.batch.items|
              && (r.batch.failures <= MaxRetries - MaxItems ==> |r.batch.items| == MaxItems)
    ensures r.Finished? ==> forall x :: x in r.batch.items ==> Included(x, cfg.includedItemIds, objects)
    ensures r.Raised? ==> !r.error.IsValueError()
  {
    match CollectTen(cfg, objects, u, sample, policy, now)
    case Raised(e, s) => Raised(e, s)
    case Finished(b) =>
      var sorted := Sorting.SortBy(b.items, RankKey);
      assert forall x :: x in sorted ==> Included(x, cfg.includedItemIds, objects) by {
        forall x | x in sorted ensures Included(x, cfg.includedItemIds, objects) {
          assert x in multiset(sorted);
          assert Drawable(DrawerOf(cfg, objects, policy), x);
          var p: PityState, smp: Samples :| ExecutePull(cfg, objects, p, smp, policy).Success?
                                            && ExecutePull(cfg, objects, p, smp, policy).value.item == x;
        }
      }
      Finished(b.(items := sorted))
  }

  /** The sorted items are the drawn items, each as often as drawn, and items
      of equal rank keep their draw order. */
  lemma TenPullPermutes(cfg: PoolConfig, objects: Dict<string, Item>, u: UserState, sample: nat -> Samples,
                        policy: Policy, now: string, k: real)
    requires CollectTen(cfg, objects, u, sample, policy, now).Finished?
    ensures var drawn := CollectTen(cfg, objects, u, sample, policy, now).batch;
            var r := TenPull(cfg, objects, u, sample, policy, now);
            && r.Finished?
            && multiset(r.batch.items) == multiset(drawn.items)
            && Sorting.WithKey(r.batch.items, RankKey, k) == Sorting.WithKey(drawn.items, RankKey, k)
            && r.batch.records == drawn.records
  {
    var drawn := CollectTen(cfg, objects, u, sample, policy, now).batch;
    Sorting.SortByStable(drawn.items, RankKey, k);
  }

  /** A `ValueError` attempt is skipped: the loop goes on as if the attempt
      had only been counted. Any other error ends the loop at once with the
      user state reached so far. */
  lemma CollectFailedAttempt(draw: Drawer, poolId: string, sample: nat -> Samples, now: string, b: Batch)
    requires BatchOk(b, poolId, now) && |b.items| < MaxItems && b.attempts < MaxRetries
    requires draw(b.state.pity, sample(b.attempts)).Failure?
    ensures var e := draw(b.state.pity, sample(b.attempts)).error;
            Collect(draw, poolId, sample, now, b)
              == if e.IsValueError()
                 then Collect(draw, poolId, sample, now, b.(attempts := b.attempts + 1, failures := b.failures + 1))
                 else Raised(e, b.state)
  {
  }

  /** A successful attempt appends the drawn item and its row, counts one
      more pull and carries the draw's pity state into the next attempt. */
  lemma CollectSuccessfulAttempt(draw: Drawer, poolId: string, sample: nat -> Samples, now: string, b: Batch)
    requires BatchOk(b, poolId, now) && |b.items| < MaxItems && b.attempts < MaxRetries
    requires draw(b.state.pity, sample(b.attempts)).Success?
    ensures var d := draw(b.state.pity, sample(b.attempts)).value;
            var b' := Batch(UserState(d.state, b.state.pullCount + 1), b.items + [d.item],
                            b.records + [RecordOf(d.item, poolId, now)], b.attempts + 1, b.failures);
            BatchOk(b', poolId, now) && Collect(draw, poolId, sample, now, b) == Collect(draw, poolId, sample, now, b')
  {
  }

  /** When every attempt fails with a `ValueError` from the user's state (an
      empty pool, say), the loop gives up after twenty attempts with no item
      and the user state untouched. */
  lemma {:induction false} AllFailuresGiveNothing(draw: Drawer, poolId: string, sample: nat -> Samples,
                                                   now: string, b: Batch)
    requires BatchOk(b, poolId, now) && |b.items| < MaxItems
    requires forall k: nat :: draw(b.state.pity, sample(k)).Failure? && draw(b.state.pity, sample(k)).error.IsValueError()
    ensures Collect(draw, poolId, sample, now, b)
         == Finished(b.(attempts := MaxRetries, failures := b.failures + MaxRetries - b.attempts))
    decreases MaxRetries - b.attempts
  {
    if b.attempts < MaxRetries {
      AllFailuresGiveNothing(draw, poolId, sample, now, b.(attempts := b.attempts + 1, failures := b.failures + 1));
    }
  }

  /** A pool with no starred item, on rules whose rarity roll fails, if at
      all, only with a `ValueError` (the 4-star overflow), yields an empty
      ten-pull: twenty failed attempts and the user untouched. */
  lemma EmptyPoolTenPull(cfg: PoolConfig, objects: Dict<string, Item>, u: UserState, sample: nat -> Samples,
                         policy: Policy, now: string)
    requires RulesOf(cfg).Success?
    requires forall x :: x in PoolOf(cfg.includedItemIds, cfg.rateUpItemIds, objects).items ==> !Starred(x)
    requires forall k: nat :: Decide(RulesOf(cfg).value, u.pity, sample(k).tier).Failure? ==>
                                Decide(RulesOf(cfg).value, u.pity, sample(k).tier).error.IsValueError()
    ensures TenPull(cfg, objects, u, sample, policy, now) == Finished(Batch(u, [], [], MaxRetries, MaxRetries))
  {
    var rules := RulesOf(cfg).value;
    var pool := PoolOf(cfg.includedItemIds, cfg.rateUpItemIds, objects);
    var draw := DrawerOf(cfg, objects, policy);
    forall k: nat ensures draw(u.pity, sample(k)).Failure? && draw(u.pity, sample(k)).error.IsValueError() {
      var dt := Decide(rules, u.pity, sample(k).tier);
      if dt.Success? {
        var t := dt.value;
        SelectSucceedsIff(pool, t, UpRequest(rules, pool, t, u.pity, sample(k), policy),
                          if t == Four then Some(FourStarType(rules, sample(k).role)) else None, sample(k).choice);
      }
    }
    AllFailuresGiveNothing(draw, cfg.cpId, sample, now, Batch(u, [], [], 0, 0));
    assert Sorting.SortBy([], RankKey) == [];
  }
}

=== FILE: item_ops.dfy ===
/** Item-catalogue bookkeeping of `ItemDBOperations`: rarity normalisation,
    the generated default external id, the checks `add_item` and
    `add_items_batch` make before writing, `update_item` and `delete_item`
    with the propagation of a changed or removed id into the pool
    configurations.

    The database layer is not part of the model. An insert is returned as
    the parameter row the source binds. The item table is a map from
    external id to item; an `UPDATE` or `DELETE` touches the row stored under
    the given id (the column is `UNIQUE`, so there is at most one), and a
    statement that would break a column constraint fails and is reported as
    `False`. MD5 is the hash parameter `h`. */
module ItemOps {
  import opened Wrappers
  import opened Dict
  import opened Json
  import Text
  import Digest
  import Items
  import Registry
  import Propagation

  // ----- rarity -----

  /** The default CSV loader's rule: "2" to "5" gain the suffix "star",
      anything else is kept. */
  function CsvRarity(s: string): string {
    if s == "2" || Items.StarDigit(s) then s + "star" else s
  }

  /** The CSV rule agrees with the rule of `add_item` and `update_item` on
      every text except "2", which only the CSV loader rewrites; both rules
      are idempotent. */
  lemma CsvRarityVersusAdd(s: string)
    ensures s != "2" ==> Items.NormalizeRarity(JStr(s)) == Some(CsvRarity(s))
    ensures CsvRarity("2") == "2star" && Items.NormalizeRarity(JStr("2")) == Some("2")
    ensures CsvRarity(CsvRarity(s)) == CsvRarity(s)
  {
    if s == "2" || Items.StarDigit(s) {
      var t := s + "star";
      assert |t| == 5;
    }
  }

  // ----- the default external id -----

  /** `type[:3].lower()` (ASCII letters only). */
  function TypePrefix(itemType: string): string {
    Text.Lower(Text.Take(itemType, 3))
  }

  /** The name with spaces and dots turned into underscores, cut to ten
      characters. */
  function NamePart(name: string): string {
    Text.Take(Text.ReplaceChar(Text.ReplaceChar(name, ' ', '_'), '.', '_'), 10)
  }

  /** The string that is hashed. */
  function IdBase(name: string, rarity: string, itemType: string, affiliatedType: string): string {
    name + "_" + rarity + "_" + itemType + "_" + affiliatedType
  }

  function Min(a: nat, b: nat): nat {
    if a < b then a else b
  }

  /** `r` is laid out as `{type prefix}_{name part}_{hash prefix}`: the
      first three characters of the type lower-cased, the first ten of the
      name with spaces and dots made underscores, and the first four
      characters of the digest. */
  ghost predicate IdLayout(r: string, digest: Digest.Digest, name: string, itemType: string) {
    var p := Min(|itemType|, 3);
    var q := Min(|name|, 10);
    && |r| == p + q + 6
    && (forall i :: 0 <= i < p ==> r[i] == Text.LowerChar(itemType[i]))
    && r[p] == '_'
    && (forall i :: 0 <= i < q ==> r[p + 1 + i] == (if name[i] == ' ' || name[i] == '.' then '_' else name[i]))
    && r[p + 1 + q] == '_'
    && r[p + 2 + q..] == digest[..4]
  }

  /** `_generate_default_external_id`:
      `{type prefix}_{name part}_{first four hex digits of the hash}`. */
  function DefaultExternalId(h: Digest.Hasher, name: string, rarity: string, itemType: string,
                             affiliatedType: string): (r: string)
    ensures IdLayout(r, h(IdBase(name, rarity, itemType, affiliatedType)), name, itemType)
  {
    var tp := TypePrefix(itemType);
    var np := NamePart(name);
    var hx := Digest.HexPrefix(h, IdBase(name, rarity, itemType, affiliatedType), 4);
    Layout(tp, np, hx);
    tp + "_" + np + "_" + hx
  }

  /** Where the three parts sit in `a_b_c`. */
  lemma Layout(a: string, b: string, c: string)
    ensures var r := a + "_" + b + "_" + c;
            && |r| == |a| + |b| + |c| + 2
            && (forall i :: 0 <= i < |a| ==> r[i] == a[i])
            && r[|a|] == '_'
            && (forall i :: 0 <= i < |b| ==> r[|a| + 1 + i] == b[i])
            && r[|a| + 1 + |b|] == '_'
            && r[|a| + 2 + |b|..] == c
  {
    var r := a + "_" + b + "_" + c;
    assert r == (a + "_") + (b + "_" + c);
    assert r[|a| + 1..] == b + "_" + c;
  }

  /** The name part holds at most ten characters and never a space or a
      dot; the id ends in an underscore and four hexadecimal digits, and is
      at most 19 characters long. */
  lemma DefaultIdShape(h: Digest.Hasher, name: string, rarity: string, itemType: string, affiliatedType: string)
    ensures var r := DefaultExternalId(h, name, rarity, itemType, affiliatedType);
            && 6 <= |r| <= 19
            && r[|r| - 5] == '_'
            && (forall i :: |r| - 4 <= i < |r| ==> Digest.IsHexLower(r[i]))
    ensures |NamePart(name)| <= 10
    ensures ' ' !in NamePart(name) && '.' !in NamePart(name)
  {
    var r := DefaultExternalId(h, name, rarity, itemType, affiliatedType);
    var d := h(IdBase(name, rarity, itemType, affiliatedType));
    forall i | |r| - 4 <= i < |r| ensures Digest.IsHexLower(r[i]) {
      assert r[i] == d[..4][i - (|r| - 4)];
    }
    var np := NamePart(name);
    forall i | 0 <= i < |np| ensures np[i] != ' ' && np[i] != '.' {
    }
  }

  // ----- add_item and add_items_batch -----

  /** The fields `add_item` insists on. */
  const AddRequired: set<string> := {"name", "rarity", "type"}

  /** `required_fields - set(item_data.keys())`. */
  function MissingRequired(data: Items.Row): (r: set<string>)
    ensures forall f :: f in r <==> f in AddRequired && !HasKey(data, f)
  {
    set f | f in AddRequired && !HasKey(data, f)
  }

  /** Why an insert does not happen. `MissingFields` is the `ValueError` the
      source raises before it writes anything; `Failed` is an exception inside
      the guarded block, reported as `False`; `Unspelled` marks a value whose
      text (`str` of a float, list or dict) the model does not produce. */
  datatype AddError = MissingFields(fields: set<string>) | Failed | Unspelled(field: string)

  /** The parameter row of the `INSERT`: the values as bound, with the
      rarity normalised. */
  datatype InsertRow = InsertRow(externalId: Json, name: Json, rarity: string, itemType: Json,
                                 affiliatedType: Json, portraitPath: Json, portraitUrl: Json)

  /** The caller's external id when it is present and truthy. */
  function GivenId(data: Items.Row): (r: Option<Json>)
    ensures r.Some? <==> HasKey(data, "external_id") && Truthy(Get(data, "external_id").value)
    ensures r.Some? ==> Get(data, "external_id") == r
  {
    var v := Get(data, "external_id");
    if v.Some? && Truthy(v.value) then v else None
  }

  /** The id generated from the raw dictionary: the name and the type must be
      text (`replace` and `lower` are called on them); the rarity and
      affiliation only go through `str`. */
  function GeneratedId(data: Items.Row, h: Digest.Hasher): (r: Result<string, AddError>)
    requires HasKey(data, "name") && HasKey(data, "rarity") && HasKey(data, "type")
    ensures r.Failure? ==> r.error == Failed || r.error.Unspelled?
    ensures r.Failure? && r.error == Failed <==> !Get(data, "name").value.JStr? || !Get(data, "type").value.JStr?
    ensures r.Success? ==>
              var aff := FieldOr(JObj(data), "affiliated_type", JStr(""));
              && PyStr(Get(data, "rarity").value).Some? && PyStr(aff).Some?
              && r.value == DefaultExternalId(h, Get(data, "name").value.s, PyStr(Get(data, "rarity").value).value,
                                              Get(data, "type").value.s, PyStr(aff).value)
  {
    var name := Get(data, "name").value;
    var ty := Get(data, "type").value;
    var aff := FieldOr(JObj(data), "affiliated_type", JStr(""));
    if !ty.JStr? || !name.JStr? then Failure(Failed)
    else
      var rarity := PyStr(Get(data, "rarity").value);
      var affText := PyStr(aff);
      if rarity.None? then Failure(Unspelled("rarity"))
      else if affText.None? then Failure(Unspelled("affiliated_type"))
      else Success(DefaultExternalId(h, name.s, rarity.value, ty.s, affText.value))
  }

  /** The body of the guarded block for one item: the id (given or
      generated), then the normalised rarity, then the parameter row. */
  function PrepareRow(data: Items.Row, h: Digest.Hasher): (r: Result<InsertRow, AddError>)
    requires MissingRequired(data) == {}
    ensures r.Failure? ==> !r.error.MissingFields?
  {
    assert "name" in AddRequired && "rarity" in AddRequired && "type" in AddRequired;
    var eid :- match GivenId(data)
               case Some(v) => Success(v)
               case None => (var g :- GeneratedId(data, h); Success(JStr(g)));
    var rarity := Items.NormalizeRarity(Get(data, "rarity").value);
    if rarity.None? then Failure(Unspelled("rarity"))
    else
      var obj := JObj(data);
      Success(InsertRow(eid, Get(data, "name").value, rarity.value, Get(data, "type").value,
                        FieldOr(obj, "affiliated_type", JStr("")), FieldOr(obj, "portrait_path", JStr("")),
                        FieldOr(obj, "portrait_url", JStr(""))))
  }

  /** `add_item`: the row it inserts, or why it inserts nothing. */
  function AddItem(data: Items.Row, h: Digest.Hasher): (r: Result<InsertRow, AddError>)
    ensures MissingRequired(data) != {} <==> r.Failure? && r.error.MissingFields?
    ensures r.Failure? && r.error.MissingFields? ==> r.error.fields == MissingRequired(data)
    ensures r.Success? ==>
              && HasKey(data, "name") && HasKey(data, "rarity") && HasKey(data, "type")
              && Some(r.value.name) == Get(data, "name")
              && Some(r.value.itemType) == Get(data, "type")
              && Some(r.value.rarity) == Items.NormalizeRarity(Get(data, "rarity").value)
              && !Items.StarDigit(r.value.rarity)
    ensures r.Success? && GivenId(data).Some? ==> r.value.externalId == GivenId(data).value
    ensures r.Success? && GivenId(data).None? ==>
              GeneratedId(data, h).Success? && r.value.externalId == JStr(GeneratedId(data, h).value)
  {
    var missing := MissingRequired(data);
    if missing != {} then Failure(MissingFields(missing))
    else
      assert "name" in AddRequired && "rarity" in AddRequired && "type" in AddRequired;
      PrepareRow(data, h)
  }

  /** The first item of the batch that lacks a required field. */
  function FirstIncomplete(items: seq<Items.Row>): (r: Option<nat>)
    ensures r.Some? ==> r.value < |items| && MissingRequired(items[r.value]) != {}
                        && forall j :: 0 <= j < r.value ==> MissingRequired(items[j]) == {}
    ensures r.None? <==> forall j :: 0 <= j < |items| ==> MissingRequired(items[j]) == {}
  {
    if |items| == 0 then None
    else if MissingRequired(items[0]) != {} then Some(0)
    else
      match FirstIncomplete(items[1..])
      case None => None
      case Some(k) => Some(k + 1)
  }

  /** The parameter rows of the whole batch, or the first failure. */
  function PrepareAll(items: seq<Items.Row>, h: Digest.Hasher): (r: Result<seq<InsertRow>, AddError>)
    requires forall j :: 0 <= j < |items| ==> MissingRequired(items[j]) == {}
    ensures r.Success? <==> forall j :: 0 <= j < |items| ==> PrepareRow(items[j], h).Success?
    ensures r.Success? ==> |r.value| == |items|
                           && forall j :: 0 <= j < |items| ==> PrepareRow(items[j], h) == Success(r.value[j])
    ensures r.Failure? ==> !r.error.MissingFields?
  {
    if |items| == 0 then Success([])
    else
      var first :- PrepareRow(items[0], h);
      var rest :- PrepareAll(items[1..], h);
      assert forall j :: 1 <= j < |items| ==> items[j] == items[1..][j - 1];
      Success([first] + rest)
  }

  /** `add_items_batch`: an empty batch writes nothing and succeeds; every
      item is checked for the required fields before anything is prepared;
      then the rows are prepared in order and inserted together. */
  function AddItemsBatch(items: seq<Items.Row>, h: Digest.Hasher): (r: Result<seq<InsertRow>, AddError>)
    ensures |items| == 0 ==> r == Success([])
    ensures (exists j :: 0 <= j < |items| && MissingRequired(items[j]) != {}) <==> r.Failure? && r.error.MissingFields?
    ensures r.Success? ==> |r.value| == |items|
  {
    if |items| == 0 then Success([])
    else
      match FirstIncomplete(items)
      case Some(j) => Failure(MissingFields(MissingRequired(items[j])))
      case None => PrepareAll(items, h)
  }

  /** A batch inserts exactly the rows the single-item `add_item` would
      insert for each of its items, and it fails as soon as one of them
      would. */
  lemma BatchIsItemwise(items: seq<Items.Row>, h: Digest.Hasher)
    ensures AddItemsBatch(items, h).Success? <==> forall j :: 0 <= j < |items| ==> AddItem(items[j], h).Success?
    ensures AddItemsBatch(items, h).Success? ==>
              forall j :: 0 <= j < |items| ==> AddItem(items[j], h) == Success(AddItemsBatch(items, h).value[j])
  {
    if FirstIncomplete(items).Some? {
      var j := FirstIncomplete(items).value;
      assert AddItem(items[j], h).Failure?;
    }
  }

  /** An incomplete item anywhere in a batch rejects the whole batch with
      that item's missing fields, even when an earlier item would fail to
      prepare. */
  lemma BatchChecksBeforePreparing(items: seq<Items.Row>, h: Digest.Hasher, j: nat)
    requires j < |items| && MissingRequired(items[j]) != {}
    requires forall i :: 0 <= i < j ==> MissingRequired(items[i]) == {}
    ensures AddItemsBatch(items, h) == Failure(MissingFields(MissingRequired(items[j])))
  {
    var k := FirstIncomplete(items).value;
    assert k == j;
  }

  // ----- update_item -----

  /** The item table: external id -> item. */
  type Table = Dict<string, Items.Item>

  /** Each item is stored under its own external id, once. */
  ghost predicate WellKeyed(t: Table) {
    NoDupKeys(t) && forall p :: p in t ==> p.0 == p.1.externalId
  }

  /** The columns `update_item` writes, in its order. */
  const ValidFields: seq<string> := ["name", "rarity", "type", "affiliated_type", "portrait_path", "portrait_url"]

  /** The columns whose change gives the item a new external id. */
  const KeyFields: seq<string> := ["type", "name", "rarity"]

  /** A column of an item by name. */
  function Column(it: Items.Item, f: string): string {
    match f
    case "name" => it.name
    case "rarity" => it.rarity
    case "type" => it.itemType
    case "affiliated_type" => it.affiliatedType
    case "portrait_path" => it.portraitPath
    case "portrait_url" => it.portraitUrl
    case _ => it.externalId
  }

  /** A column set by name; an unknown name changes nothing. */
  function WithColumn(it: Items.Item, f: string, v: string): (r: Items.Item)
    ensures f in ValidFields ==> Column(r, f) == v
    ensures forall g :: g in ValidFields && g != f ==> Column(r, g) == Column(it, g)
    ensures r.externalId == it.externalId
  {
    match f
    case "name" => it.(name := v)
    case "rarity" => it.(rarity := v)
    case "type" => it.(itemType := v)
    case "affiliated_type" => it.(affiliatedType := v)
    case "portrait_path" => it.(portraitPath := v)
    case "portrait_url" => it.(portraitUrl := v)
    case _ => it
  }

  /** Outside the model: a value whose text the model does not produce, or
      that a text column cannot hold as text (`None` in an optional column,
      a float, a list). */
  datatype UpdateError = NotText(field: string)

  /** `update_data.get(f) is not None`. */
  predicate Given(update: Items.Row, f: string) {
    HasKey(update, f) && !Get(update, f).value.JNull?
  }

  /** A given value whose text differs from the stored column. */
  predicate Differs(update: Items.Row, cur: Items.Item, f: string) {
    Given(update, f) && PyStr(Get(update, f).value).Some? && PyStr(Get(update, f).value).value != Column(cur, f)
  }

  /** `key_changed`, short-circuiting over `fields` in order. */
  function KeyChangedIn(update: Items.Row, cur: Items.Item, fields: seq<string>): (r: Result<bool, UpdateError>)
    ensures r.Success? ==> (r.value <==> exists f :: f in fields && Differs(update, cur, f))
    ensures (forall f :: f in fields && Given(update, f) ==> PyStr(Get(update, f).value).Some?) ==> r.Success?
  {
    if |fields| == 0 then Success(false)
    else
      var f := fields[0];
      assert forall g :: g in fields <==> g == f || g in fields[1..];
      if !Given(update, f) then KeyChangedIn(update, cur, fields[1..])
      else
        match PyStr(Get(update, f).value)
        case None => Failure(NotText(f))
        case Some(text) =>
          if text != Column(cur, f) then
            assert Differs(update, cur, f);
            Success(true)
          else KeyChangedIn(update, cur, fields[1..])
  }

  /** `key_changed` of `update_item`: some of type, name and rarity is given,
      not `None`, with a different text. */
  function KeyChanged(update: Items.Row, cur: Items.Item): (r: Result<bool, UpdateError>)
    ensures r.Success? ==> (r.value <==> Differs(update, cur, "type") || Differs(update, cur, "name")
                                         || Differs(update, cur, "rarity"))
  {
    KeyChangedIn(update, cur, KeyFields)
  }

  /** Every key of `a` is a key of `b`. */
  ghost predicate KeysWithin(a: Items.Row, b: Items.Row) {
    forall k :: HasKey(a, k) ==> HasKey(b, k)
  }

  lemma HasKeyCons(p: (string, Json), rest: Items.Row)
    ensures forall g :: HasKey([p] + rest, g) <==> g == p.0 || HasKey(rest, g)
  {
    assert ([p] + rest)[1..] == rest;
  }

  /** `b` has the columns of `a` wherever `keys` names no valid column. */
  ghost predicate Untouched(a: Items.Item, b: Items.Item, keys: Items.Row) {
    forall f :: f in ValidFields && !HasKey(keys, f) ==> Column(b, f) == Column(a, f)
  }

  /** The `SET` list: the entries of `update` naming a valid column, in
      order, the rarity normalised and every other value as given. */
  function SetList(update: Items.Row): (r: Result<Items.Row, UpdateError>)
    ensures r.Success? ==> forall p :: p in r.value ==> p.0 in ValidFields
    ensures r.Success? ==> forall p :: p in update && p.0 in ValidFields ==> HasKey(r.value, p.0)
    ensures r.Success? ==> forall p :: p in r.value && p.0 != "rarity" ==> p in update
    ensures r.Success? ==> forall p :: p in r.value && p.0 == "rarity" ==>
              exists v :: (p.0, v) in update && Items.NormalizeRarity(v).Some? && p.1 == JStr(Items.NormalizeRarity(v).value)
    ensures r.Success? ==> KeysWithin(r.value, update)
  {
    if |update| == 0 then Success([])
    else
      var (k, v) := update[0];
      var rest :- SetList(update[1..]);
      assert forall p :: p in update <==> p == update[0] || p in update[1..];
      assert forall g :: HasKey(update, g) <==> g == k || HasKey(update[1..], g);
      if k !in ValidFields then Success(rest)
      else if k == "rarity" then
        match Items.NormalizeRarity(v)
        case None => Failure(NotText(k))
        case Some(rarity) =>
          HasKeyCons((k, JStr(rarity)), rest);
          Success([(k, JStr(rarity))] + rest)
      else
        HasKeyCons((k, v), rest);
        Success([(k, v)] + rest)
  }

  /** The item after the `SET` list, the rightmost assignment to a column
      winning; `None` when a `NOT NULL` column would get `None`. */
  function ApplySets(it: Items.Item, sets: Items.Row): (r: Result<Option<Items.Item>, UpdateError>)
    requires forall p :: p in sets ==> p.0 in ValidFields
    ensures r.Success? && r.value.Some? ==>
              && r.value.value.externalId == it.externalId
              && Untouched(it, r.value.value, sets)
    decreases |sets|
  {
    if |sets| == 0 then Success(Some(it))
    else
      var (f, v) := sets[0];
      assert sets[0] in sets;
      assert forall p :: p in sets[1..] ==> p in sets;
      if v.JNull? && (f == "name" || f == "type") then Success(None)
      else if !v.JStr? then Failure(NotText(f))
      else
        var next := WithColumn(it, f, v.s);
        var r :- ApplySets(next, sets[1..]);
        if r.None? then Success(None)
        else
          assert forall g :: g in ValidFields && !HasKey(sets, g) ==> g != f && !HasKey(sets[1..], g);
          assert Untouched(it, r.value, sets);
          Success(r)
  }

  /** The dictionary the new external id is generated from: the stored item
      overlaid with the update, the rarity normalised. `None` when `replace`
      or `lower` would be called on a name or type that is not text. */
  function NewExternalId(h: Digest.Hasher, cur: Items.Item, update: Items.Row): (r: Result<Option<string>, UpdateError>)
    ensures r.Success? && r.value.Some? ==>
              var name := Get(update, "name").GetOr(JStr(cur.name));
              var ty := Get(update, "type").GetOr(JStr(cur.itemType));
              && name.JStr? && ty.JStr?
              && Items.NormalizeRarity(Get(update, "rarity").GetOr(JStr(cur.rarity))).Some?
              && PyStr(Get(update, "affiliated_type").GetOr(JStr(cur.affiliatedType))).Some?
              && r.value.value == DefaultExternalId(h, name.s,
                   Items.NormalizeRarity(Get(update, "rarity").GetOr(JStr(cur.rarity))).value, ty.s,
                   PyStr(Get(update, "affiliated_type").GetOr(JStr(cur.affiliatedType))).value)
  {
    var name := Get(update, "name").GetOr(JStr(cur.name));
    var ty := Get(update, "type").GetOr(JStr(cur.itemType));
    var rarity := Items.NormalizeRarity(Get(update, "rarity").GetOr(JStr(cur.rarity)));
    var aff := PyStr(Get(update, "affiliated_type").GetOr(JStr(cur.affiliatedType)));
    if rarity.None? then Failure(NotText("rarity"))
    else if !ty.JStr? || !name.JStr? then Success(None)
    else if aff.None? then Failure(NotText("affiliated_type"))
    else Success(Some(DefaultExternalId(h, name.s, rarity.value, ty.s, aff.value)))
  }

  /** The row as `update_item` rewrites it, before the database checks the
      `UNIQUE` external id: `None` when the source returns `False` first (an
      exception while generating the id, nothing to set, a `NOT NULL` column
      set to `None`). */
  function Rewrite(cur: Items.Item, update: Items.Row, h: Digest.Hasher): (r: Result<Option<Items.Item>, UpdateError>)
    requires |update| > 0
    ensures r.Success? ==> KeyChanged(update, cur).Success?
    ensures r.Success? && r.value.Some? ==>
              && (KeyChanged(update, cur).value ==> NewExternalId(h, cur, update) == Success(Some(r.value.value.externalId)))
              && (!KeyChanged(update, cur).value ==> r.value.value.externalId == cur.externalId)
              && Untouched(cur, r.value.value, update)
  {
    var changed :- KeyChanged(update, cur);
    var sets :- SetList(update);
    var newId :- if changed then NewExternalId(h, cur, update) else Success(Some(cur.externalId));
    if newId.None? then Success(None)
    else if sets == [] && !changed then Success(None)
    else
      var applied :- ApplySets(cur, sets);
      if applied.None? then Success(None)
      else
        var row := applied.value.(externalId := newId.value);
        UntouchedWithin(cur, applied.value, sets, update);
        UntouchedRekey(cur, applied.value, update, newId.value);
        Success(Some(row))
  }

  /** A new external id leaves every valid column as it was. */
  lemma UntouchedRekey(a: Items.Item, b: Items.Item, keys: Items.Row, id: string)
    requires Untouched(a, b, keys)
    ensures Untouched(a, b.(externalId := id), keys)
  {
    forall f | f in ValidFields
      ensures Column(b.(externalId := id), f) == Column(b, f)
    {
      assert f == "name" || f == "rarity" || f == "type" || f == "affiliated_type"
          || f == "portrait_path" || f == "portrait_url";
    }
  }

  lemma UntouchedWithin(a: Items.Item, b: Items.Item, sets: Items.Row, update: Items.Row)
    requires Untouched(a, b, sets) && KeysWithin(sets, update)
    ensures Untouched(a, b, update)
  {
  }

  /** What `update_item` does to the table, before any propagation:
      nothing (with the value it returns), or the item as rewritten. */
  datatype Plan = Keep(ok: bool) | Write(row: Items.Item)

  function PlanUpdate(t: Table, itemId: string, update: Items.Row, h: Digest.Hasher): (r: Result<Plan, UpdateError>)
    ensures |update| == 0 ==> r == Success(Keep(true))
    ensures |update| > 0 && !HasKey(t, itemId) ==> r == Success(Keep(false))
    ensures r.Success? && r.value.Write? ==>
              && HasKey(t, itemId) && |update| > 0
              && Rewrite(Get(t, itemId).value, update, h) == Success(Some(r.value.row))
              && (r.value.row.externalId != Get(t, itemId).value.externalId ==> !HasKey(t, r.value.row.externalId))
  {
    if |update| == 0 then Success(Keep(true))
    else if !HasKey(t, itemId) then Success(Keep(false))
    else
      var cur := Get(t, itemId).value;
      var row :- Rewrite(cur, update, h);
      if row.None? then Success(Keep(false))
      else if row.value.externalId != cur.externalId && HasKey(t, row.value.externalId) then Success(Keep(false))
      else Success(Write(row.value))
  }

  /** The table after the `UPDATE`: the row leaves its old key and is stored
      under its (possibly new) external id. */
  function Commit(t: Table, itemId: string, row: Items.Item): (r: Table)
    ensures Get(r, row.externalId) == Some(row)
    ensures row.externalId != itemId ==> !HasKey(r, itemId)
    ensures forall k :: k != itemId && k != row.externalId ==> Get(r, k) == Get(t, k)
  {
    var removed := Remove(t, itemId);
    assert Get(removed, itemId) == None;
    Put(removed, row.externalId, row)
  }

  /** Which id `update_item` reads the item back by after the write: the
      source uses the id it was called with; the evident intent is the id
      the row now has. */
  datatype ReadBack = ByCallId | ByNewId

  /** The outcome of `update_item`: the value it returns, the table, the
      configuration manager (`None` when no propagation was asked for) and
      the configuration files it writes. */
  datatype Updated = Updated(ok: bool, table: Table, configs: Option<Registry.Registry>, saves: seq<string>)

  /** `update_item`. */
  function UpdateItem(t: Table, itemId: string, update: Items.Row, h: Digest.Hasher,
                      configs: Option<Registry.Registry>, readBack: ReadBack): (r: Result<Updated, UpdateError>)
    ensures |update| == 0 ==> r == Success(Updated(true, t, configs, []))
    ensures |update| > 0 && !HasKey(t, itemId) ==> r == Success(Updated(false, t, configs, []))
    ensures r.Success? && !r.value.ok ==> r.value.table == t && r.value.configs == configs && r.value.saves == []
    ensures r.Success? && r.value.ok && |update| > 0 ==>
              && HasKey(t, itemId)
              && PlanUpdate(t, itemId, update, h).Success?
              && PlanUpdate(t, itemId, update, h).value.Write?
              && r.value.table == Commit(t, itemId, PlanUpdate(t, itemId, update, h).value.row)
    ensures r.Success? && r.value.configs != configs ==>
              && configs.Some? && r.value.ok
              && r.value.configs == Some(Propagation.PropagateRename(configs.value, Get(t, itemId).value.externalId,
                                                                     PlanUpdate(t, itemId, update, h).value.row.externalId).0)
  {
    var plan :- PlanUpdate(t, itemId, update, h);
    match plan
    case Keep(ok) => Success(Updated(ok, t, configs, []))
    case Write(row) =>
      var t' := Commit(t, itemId, row);
      var before := Get(t, itemId).value.externalId;
      var after := Get(t', if readBack == ByCallId then itemId else row.externalId);
      if configs.Some? && after.Some? && |after.value.externalId| > 0 && after.value.externalId != before then
        assert after.value == row;
        var (reg, saves) := Propagation.PropagateRename(configs.value, before, after.value.externalId);
        Success(Updated(true, t', Some(reg), saves))
      else Success(Updated(true, t', configs, []))
  }

  /** The stored item of a well-keyed table carries the id it is stored
      under. */
  lemma StoredUnderOwnId(t: Table, k: string)
    requires WellKeyed(t) && HasKey(t, k)
    ensures Get(t, k).value.externalId == k
  {
    GetFound(t, k);
  }

  /** As written, `update_item` never updates the pool configurations: when
      the external id changes the read-back by the old id finds nothing, and
      when it does not change there is nothing to rename. A renamed item
      therefore leaves its old id behind in every configuration. */
  lemma UpdateNeverPropagates(t: Table, itemId: string, update: Items.Row, h: Digest.Hasher,
                              configs: Option<Registry.Registry>)
    requires WellKeyed(t)
    ensures var r := UpdateItem(t, itemId, update, h, configs, ByCallId);
            r.Success? ==> r.value.configs == configs && r.value.saves == []
    ensures var r := UpdateItem(t, itemId, update, h, configs, ByCallId);
            r.Success? && r.value.ok && HasKey(t, itemId) && !HasKey(r.value.table, itemId) ==>
              && r.value.configs == configs
              && HasKey(r.value.table, PlanUpdate(t, itemId, update, h).value.row.externalId)
  {
    var plan := PlanUpdate(t, itemId, update, h);
    if plan.Success? && plan.value.Write? {
      StoredUnderOwnId(t, itemId);
    }
  }

  /** A changed external id is never empty: it is a generated id. */
  lemma NewIdNonEmpty(t: Table, itemId: string, update: Items.Row, h: Digest.Hasher)
    requires PlanUpdate(t, itemId, update, h).Success? && PlanUpdate(t, itemId, update, h).value.Write?
    requires PlanUpdate(t, itemId, update, h).value.row.externalId != Get(t, itemId).value.externalId
    ensures |PlanUpdate(t, itemId, update, h).value.row.externalId| >= 6
  {
    var cur := Get(t, itemId).value;
    var row := PlanUpdate(t, itemId, update, h).value.row;
    assert Rewrite(cur, update, h) == Success(Some(row));
    var name := Get(update, "name").GetOr(JStr(cur.name));
    var ty := Get(update, "type").GetOr(JStr(cur.itemType));
    var rarity := Items.NormalizeRarity(Get(update, "rarity").GetOr(JStr(cur.rarity))).value;
    var aff := PyStr(Get(update, "affiliated_type").GetOr(JStr(cur.affiliatedType))).value;
    assert row.externalId == DefaultExternalId(h, name.s, rarity, ty.s, aff);
  }

  /** Reading the item back by its new id, a rename reaches every
      configuration: the manager gets exactly the rename of the old id to
      the new one. */
  lemma UpdatePropagatesRename(t: Table, itemId: string, update: Items.Row, h: Digest.Hasher,
                               reg: Registry.Registry)
    requires WellKeyed(t)
    requires PlanUpdate(t, itemId, update, h).Success? && PlanUpdate(t, itemId, update, h).value.Write?
    requires PlanUpdate(t, itemId, update, h).value.row.externalId != itemId
    ensures var row := PlanUpdate(t, itemId, update, h).value.row;
            var (reg', saves) := Propagation.PropagateRename(reg, itemId, row.externalId);
            UpdateItem(t, itemId, update, h, Some(reg), ByNewId) == Success(Updated(true, Commit(t, itemId, row), Some(reg'), saves))
  {
    var row := PlanUpdate(t, itemId, update, h).value.row;
    StoredUnderOwnId(t, itemId);
    NewIdNonEmpty(t, itemId, update, h);
    var t' := Commit(t, itemId, row);
    assert Get(t', row.externalId) == Some(row);
  }

  /** After such an update the table has no row under the old id and no
      configuration mentions it; the manager's bookkeeping is intact. */
  lemma UpdateLeavesNoStaleId(t: Table, itemId: string, update: Items.Row, h: Digest.Hasher,
                              reg: Registry.Registry)
    requires WellKeyed(t) && Registry.Valid(reg)
    requires PlanUpdate(t, itemId, update, h).Success? && PlanUpdate(t, itemId, update, h).value.Write?
    requires PlanUpdate(t, itemId, update, h).value.row.externalId != itemId
    ensures var r := UpdateItem(t, itemId, update, h, Some(reg), ByNewId);
            && r.Success? && r.value.configs.Some? && Registry.Valid(r.value.configs.value)
            && !HasKey(r.value.table, itemId)
            && forall p :: p in r.value.configs.value.configs ==>
                 !Propagation.Mentions(p.1.includedItemIds, itemId) && !Propagation.Mentions(p.1.rateUpItemIds, itemId)
  {
    var row := PlanUpdate(t, itemId, update, h).value.row;
    UpdatePropagatesRename(t, itemId, update, h, reg);
    Propagation.PropagateRenameComplete(reg, itemId, row.externalId);
  }

  // ----- delete_item -----

  /** `delete_item`: the row stored under `itemId` is deleted; the call
      succeeds when there was one. With a configuration manager, its
      external id is then removed from every configuration. */
  function DeleteItem(t: Table, itemId: string, configs: Option<Registry.Registry>): (r: Updated)
    ensures !HasKey(r.table, itemId)
    ensures r.ok <==> HasKey(t, itemId)
    ensures forall k :: k != itemId ==> Get(r.table, k) == Get(t, k)
    ensures r.configs != configs ==>
              configs.Some? && HasKey(t, itemId)
              && r.configs == Some(Propagation.PropagateRemove(configs.value, Get(t, itemId).value.externalId).0)
  {
    var ok := HasKey(t, itemId);
    var t' := Remove(t, itemId);
    if ok && configs.Some? && |Get(t, itemId).value.externalId| > 0 then
      var (reg, saves) := Propagation.PropagateRemove(configs.value, Get(t, itemId).value.externalId);
      Updated(true, t', Some(reg), saves)
    else Updated(ok, t', configs, [])
  }

  /** Deleting a stored item removes its id from every configuration and
      keeps the manager's bookkeeping intact. */
  lemma DeleteForgets(t: Table, itemId: string, reg: Registry.Registry)
    requires WellKeyed(t) && Registry.Valid(reg)
    requires HasKey(t, itemId) && |itemId| > 0
    ensures var r := DeleteItem(t, itemId, Some(reg));
            && r.configs.Some? && Registry.Valid(r.configs.value)
            && forall p :: p in r.configs.value.configs ==>
                 !Propagation.Mentions(p.1.includedItemIds, itemId) && !Propagation.Mentions(p.1.rateUpItemIds, itemId)
  {
    StoredUnderOwnId(t, itemId);
    Propagation.PropagateRemoveComplete(reg, itemId);
  }
}

=== FILE: items.dfy ===
/** The item value type and the in-memory catalogue of `item_manager.py`.

    An item is identified by its external id alone: two items with the same
    external id are equal and hash alike, whatever their other fields say. The
    catalogue is the content of one item table, keyed by external id, as
    `ItemManager` loads it. */
module Items {
  import opened Wrappers
  import opened Dict
  import opened Json
  import Text

  datatype Item = Item(
    externalId: string,
    name: string,
    rarity: string,
    itemType: string,
    affiliatedType: string,
    portraitPath: string,
    portraitUrl: string)

  /** Why building an item failed. `ValueError` and `KeyError` are the
      exceptions the source raises; `Unsupported` marks a field whose value is
      not text, which the model does not carry (see README). */
  datatype Reason = EmptyData | MissingFields(fields: seq<string>) | MissingExternalId

  datatype ItemError =
    | ValueError(reason: Reason)
    | KeyError(key: string)
    | Unsupported(field: string)

  /** The catalogue: rows of one item table, keyed by external id. */
  type Row = Dict<string, Json>
  type Catalog = Dict<string, Row>

  /** `Item.__init__`: every argument is stored as given, and a missing
      external id is refused. */
  function NewItem(name: string, rarity: string, itemType: string, affiliatedType: string,
                   portraitPath: string, portraitUrl: string, externalId: Option<string>)
    : (r: Result<Item, ItemError>)
    ensures r.Failure? <==> externalId.None?
    ensures r.Failure? ==> r.error == ValueError(MissingExternalId)
    ensures r.Success? ==> r.value.externalId == externalId.value && r.value.name == name
                           && r.value.rarity == rarity && r.value.itemType == itemType
                           && r.value.affiliatedType == affiliatedType
                           && r.value.portraitPath == portraitPath
                           && r.value.portraitUrl == portraitUrl
  {
    match externalId
    case None => Failure(ValueError(MissingExternalId))
    case Some(id) => Success(Item(id, name, rarity, itemType, affiliatedType, portraitPath, portraitUrl))
  }

  /** `Item.__eq__` between two items. */
  predicate SameItem(a: Item, b: Item) {
    a.externalId == b.externalId
  }

  /** `Item.__hash__`, given the hash of strings. */
  function ItemHash(i: Item, hash: string -> int): int {
    hash(i.externalId)
  }

  /** Equality is an equivalence that ignores every field but the external id,
      and equal items hash alike. */
  lemma IdentityByExternalId(a: Item, b: Item, c: Item, hash: string -> int)
    ensures SameItem(a, a)
    ensures SameItem(a, b) ==> SameItem(b, a)
    ensures SameItem(a, b) && SameItem(b, c) ==> SameItem(a, c)
    ensures SameItem(a, b) ==> ItemHash(a, hash) == ItemHash(b, hash)
    ensures SameItem(a, a.(name := b.name, rarity := b.rarity, itemType := b.itemType,
                           affiliatedType := b.affiliatedType, portraitPath := b.portraitPath,
                           portraitUrl := b.portraitUrl))
  {
  }

  /** A rarity written as a bare star count, which normalisation rewrites. */
  predicate StarDigit(s: string) {
    s == "3" || s == "4" || s == "5"
  }

  /** Rarity normalisation: an integer `n` (a `bool` counts as one, as in
      Python) becomes `"{n}star"`, the strings "3", "4", "5" gain the suffix
      "star", and anything else becomes `str(x)`. `None` is returned for
      values whose `str` the model does not spell out. */
  function NormalizeRarity(v: Json): (r: Option<string>)
    ensures r.Some? ==> !StarDigit(r.value)
    ensures v.JStr? && StarDigit(v.s) ==> r == Some(v.s + "star")
    ensures v.JStr? && !StarDigit(v.s) ==> r == Some(v.s)
    ensures v.JInt? ==> r == Some(Text.IntToString(v.i) + "star")
    ensures r.None? <==> (v.JReal? || v.JList? || v.JObj?)
  {
    match v
    case JBool(b) => Some((if b then "True" else "False") + "star")
    case JInt(n) => Some(Text.IntToString(n) + "star")
    case JStr(s) => if StarDigit(s) then Some(s + "star") else Some(s)
    case _ => PyStr(v)
  }

  /** Normalising an already normalised rarity changes nothing. */
  lemma NormalizeRarityIdempotent(v: Json)
    requires NormalizeRarity(v).Some?
    ensures NormalizeRarity(JStr(NormalizeRarity(v).value)) == NormalizeRarity(v)
  {
  }

  /** The fields `from_dict` insists on. */
  const RequiredFields: seq<string> :=
    ["external_id", "name", "rarity", "type", "affiliated_type", "portrait_path"]

  /** Every field of `fields` is present in `data`. */
  ghost predicate HasFields(data: Row, fields: seq<string>) {
    forall f :: f in fields ==> HasKey(data, f)
  }

  /** The required fields absent from `data`, in declaration order. */
  function MissingFrom(data: Row, required: seq<string>): (r: seq<string>)
    ensures forall f :: f in r <==> f in required && !HasKey(data, f)
    ensures HasFields(data, required) <==> r == []
  {
    if |required| == 0 then []
    else
      var rest := MissingFrom(data, required[1..]);
      assert forall f :: f in required <==> f == required[0] || f in required[1..];
      if HasKey(data, required[0]) then rest else [required[0]] + rest
  }

  /** The string held by a text value. */
  function TextOf(j: Json): (r: Option<string>)
    ensures r.Some? <==> j.JStr?
    ensures r.Some? ==> j == JStr(r.value)
  {
    if j.JStr? then Some(j.s) else None
  }

  /** Builds an item from the row's fields once they are known to be present:
      the constructor's own check on the external id comes first, then the
      model's restriction to text fields. */
  function Build(data: Row, rarity: string): (r: Result<Item, ItemError>)
    requires HasKey(data, "external_id") && HasKey(data, "name") && HasKey(data, "type")
    requires HasKey(data, "affiliated_type") && HasKey(data, "portrait_path")
    ensures r.Success? ==> Get(data, "external_id") == Some(JStr(r.value.externalId))
                           && r.value.rarity == rarity
  {
    var eid := Get(data, "external_id").value;
    if eid.JNull? then Failure(ValueError(MissingExternalId))
    else if !eid.JStr? then Failure(Unsupported("external_id"))
    else
      var name := TextOf(Get(data, "name").value);
      var ty := TextOf(Get(data, "type").value);
      var aff := TextOf(Get(data, "affiliated_type").value);
      var path := TextOf(Get(data, "portrait_path").value);
      var url := TextOf(FieldOr(JObj(data), "portrait_url", JStr("")));
      if name.None? then Failure(Unsupported("name"))
      else if ty.None? then Failure(Unsupported("type"))
      else if aff.None? then Failure(Unsupported("affiliated_type"))
      else if path.None? then Failure(Unsupported("portrait_path"))
      else if url.None? then Failure(Unsupported("portrait_url"))
      else Success(Item(eid.s, name.value, rarity, ty.value, aff.value, path.value, url.value))
  }

  /** `Item.from_dict`: an empty dictionary and a missing required field raise
      `ValueError`; the rarity is normalised; `portrait_url` defaults to "". */
  function FromDict(data: Row): (r: Result<Item, ItemError>)
    ensures |data| == 0 ==> r == Failure(ValueError(EmptyData))
    ensures |data| > 0 && (exists f :: f in RequiredFields && !HasKey(data, f))
            ==> r.Failure? && r.error.ValueError? && r.error.reason.MissingFields?
    ensures r.Success? ==> HasFields(data, RequiredFields)
                           && Get(data, "external_id") == Some(JStr(r.value.externalId))
                           && Some(r.value.rarity) == NormalizeRarity(Get(data, "rarity").value)
                           && !StarDigit(r.value.rarity)
  {
    if |data| == 0 then Failure(ValueError(EmptyData))
    else
      var missing := MissingFrom(data, RequiredFields);
      if |missing| > 0 then Failure(ValueError(MissingFields(missing)))
      else
        assert missing == [];
        match NormalizeRarity(Get(data, "rarity").value)
        case None => Failure(Unsupported("rarity"))
        case Some(rarity) => Build(data, rarity)
  }

  /** `Item.to_dict`: the external id appears under both "id" and
      "external_id". */
  function ToDict(i: Item): (r: Row)
    ensures Get(r, "id") == Some(JStr(i.externalId))
    ensures Get(r, "external_id") == Some(JStr(i.externalId))
    ensures Get(r, "name") == Some(JStr(i.name))
    ensures Get(r, "rarity") == Some(JStr(i.rarity))
    ensures Get(r, "type") == Some(JStr(i.itemType))
    ensures Get(r, "affiliated_type") == Some(JStr(i.affiliatedType))
    ensures Get(r, "portrait_path") == Some(JStr(i.portraitPath))
    ensures Get(r, "portrait_url") == Some(JStr(i.portraitUrl))
  {
    var d: Row := [("id", JStr(i.externalId)), ("external_id", JStr(i.externalId)), ("name", JStr(i.name)),
                   ("rarity", JStr(i.rarity)), ("type", JStr(i.itemType)),
                   ("affiliated_type", JStr(i.affiliatedType)), ("portrait_path", JStr(i.portraitPath)),
                   ("portrait_url", JStr(i.portraitUrl))];
    assert NoDupKeys(d);
    GetStored(d, "id", JStr(i.externalId));
    GetStored(d, "external_id", JStr(i.externalId));
    GetStored(d, "name", JStr(i.name));
    GetStored(d, "rarity", JStr(i.rarity));
    GetStored(d, "type", JStr(i.itemType));
    GetStored(d, "affiliated_type", JStr(i.affiliatedType));
    GetStored(d, "portrait_path", JStr(i.portraitPath));
    GetStored(d, "portrait_url", JStr(i.portraitUrl));
    d
  }

  /** `from_dict(to_dict(i))` gives back exactly `i` if and only if `i`'s
      rarity is not a bare star count. */
  lemma FromDictToDict(i: Item)
    ensures FromDict(ToDict(i)) == Success(i) <==> !StarDigit(i.rarity)
  {
    var d := ToDict(i);
    assert |d| > 0;
    assert forall f :: f in RequiredFields ==> HasKey(d, f);
    var rarity := NormalizeRarity(JStr(i.rarity)).value;
    assert FromDict(d) == Build(d, rarity);
    assert FieldOr(JObj(d), "portrait_url", JStr("")) == JStr(i.portraitUrl);
    assert Build(d, rarity) == Success(i.(rarity := rarity));
  }

  /** A successful `from_dict` is a fixed point of the round trip through
      `to_dict`. */
  lemma FromDictStable(data: Row)
    requires FromDict(data).Success?
    ensures FromDict(ToDict(FromDict(data).value)) == FromDict(data)
  {
    FromDictToDict(FromDict(data).value);
  }

  /** Whether `from_dict` refuses a row with something other than the
      `ValueError` that `get_item_objects` catches. */
  predicate Raises(row: Row) {
    FromDict(row).Failure? && !FromDict(row).error.ValueError?
  }

  /** `ItemManager.get_item_objects`: every catalogue row that `from_dict`
      accepts, under the row's catalogue key, in catalogue order. A row it
      refuses with `ValueError` is skipped; any other error is not caught. */
  function GetItemObjects(c: Catalog): (r: Result<Dict<string, Item>, ItemError>)
    ensures r.Success? ==> forall k :: HasKey(r.value, k) ==> HasKey(c, k)
    ensures r.Failure? ==> !r.error.ValueError?
    decreases |c|
  {
    if |c| == 0 then Success([])
    else
      var n := |c| - 1;
      var prev :- GetItemObjects(c[..n]);
      forall k | HasKey(prev, k) ensures HasKey(c, k) {
        HasKeyPrefix(c, n, k);
      }
      match FromDict(c[n].1)
      case Success(it) =>
        assert HasKey(c, c[n].0) by { HasKeyIff(c, c[n].0); }
        var r := Put(prev, c[n].0, it);
        assert forall k :: HasKey(r, k) ==> k == c[n].0 || HasKey(prev, k) by {
          forall k | HasKey(r, k) && k != c[n].0 ensures HasKey(prev, k) {
            assert Get(r, k) == Get(prev, k);
          }
        }
        Success(r)
      case Failure(ValueError(_)) => Success(prev)
      case Failure(e) => Failure(e)
  }

  /** `get_item_objects` succeeds exactly when no row makes `from_dict` raise
      an error other than `ValueError`. */
  lemma GetItemObjectsSucceedsIff(c: Catalog)
    ensures GetItemObjects(c).Success? <==> forall i :: 0 <= i < |c| ==> !Raises(c[i].1)
  {
    if GetItemObjects(c).Success? {
      GetItemObjectsClean(c);
    } else {
      GetItemObjectsFirstError(c);
    }
  }

  /** After a successful `get_item_objects` no row raises. */
  lemma {:induction false} GetItemObjectsClean(c: Catalog)
    requires GetItemObjects(c).Success?
    ensures forall i :: 0 <= i < |c| ==> !Raises(c[i].1)
    decreases |c|
  {
    if |c| > 0 {
      var n := |c| - 1;
      GetItemObjectsUnfold(c);
      GetItemObjectsClean(c[..n]);
      NoneBadExtends(c, c[..n], Raises);
    }
  }

  /** A property no row of the earlier rows has, and the last row lacks too,
      holds of no row. */
  lemma NoneBadExtends(c: Catalog, p: Catalog, bad: Row -> bool)
    requires |c| > 0 && p == c[..|c| - 1]
    requires forall i :: 0 <= i < |p| ==> !bad(p[i].1)
    requires !bad(c[|c| - 1].1)
    ensures forall i :: 0 <= i < |c| ==> !bad(c[i].1)
  {
    forall i | 0 <= i < |p| ensures !bad(c[i].1) {
      assert c[i] == p[i];
    }
  }


  /** A failing `get_item_objects` carries the error of the first row on
      which `from_dict` raises something other than `ValueError`. */
  lemma {:induction false} GetItemObjectsFirstError(c: Catalog)
    requires GetItemObjects(c).Failure?
    ensures exists i :: 0 <= i < |c| && Raises(c[i].1) && FromDict(c[i].1).error == GetItemObjects(c).error
                        && forall j :: 0 <= j < i ==> !Raises(c[j].1)
    decreases |c|
  {
    var n := |c| - 1;
    var p := c[..n];
    GetItemObjectsUnfold(c);
    PrefixRows(c, n);
    if GetItemObjects(p).Failure? {
      GetItemObjectsFirstError(p);
      var i :| 0 <= i < |p| && Raises(p[i].1) && FromDict(p[i].1).error == GetItemObjects(p).error
               && forall j :: 0 <= j < i ==> !Raises(p[j].1);
      assert Raises(c[i].1);
    } else {
      GetItemObjectsClean(p);
    }
  }

  /** The rows of a prefix are the catalogue's first rows. */
  lemma PrefixRows(c: Catalog, n: nat)
    requires n <= |c|
    ensures forall i :: 0 <= i < n ==> c[..n][i] == c[i]
  {
  }

  /** One step of `get_item_objects`: an error over the earlier rows is kept,
      otherwise the last row decides. */
  lemma GetItemObjectsUnfold(c: Catalog)
    requires |c| > 0
    ensures var p := GetItemObjects(c[..|c| - 1]);
            && (p.Failure? ==> GetItemObjects(c) == Failure(p.error))
            && (p.Success? ==> (GetItemObjects(c).Failure? <==> Raises(c[|c| - 1].1)))
            && (p.Success? && Raises(c[|c| - 1].1) ==> GetItemObjects(c).error == FromDict(c[|c| - 1].1).error)
  {
  }

  /** On a duplicate-free catalogue a successful `get_item_objects` holds,
      under `k`, exactly what `from_dict` makes of `k`'s row, with the rows it
      refuses with `ValueError` dropped. */
  lemma {:induction false} GetItemObjectsSpec(c: Catalog, k: string)
    requires NoDupKeys(c)
    ensures GetItemObjects(c).Success? ==>
              Get(GetItemObjects(c).value, k)
              == match Get(c, k)
                 case None => None
                 case Some(row) => FromDict(row).ToOption()
  {
    if |c| > 0 && GetItemObjects(c).Success? {
      var n := |c| - 1;
      NoDupKeysSlice(c, 0, n);
      GetItemObjectsStep(c, k);
      GetItemObjectsSpec(c[..n], k);
      GetLast(c, k);
      NoDupKeysLast(c);
    }
  }

  /** One step of the loop: after a successful run the last row, when
      `from_dict` accepts it, is stored under its key; every other key reads
      as in the run over the earlier rows. */
  lemma GetItemObjectsStep(c: Catalog, k: string)
    requires |c| > 0 && GetItemObjects(c).Success?
    ensures var n := |c| - 1;
            && GetItemObjects(c[..n]).Success?
            && Get(GetItemObjects(c).value, k)
               == if k == c[n].0 && FromDict(c[n].1).Success? then Some(FromDict(c[n].1).value)
                  else Get(GetItemObjects(c[..n]).value, k)
  {
  }

  /** The fields `get_item` reads, in the order it reads them. */
  const GetItemFields: seq<string> :=
    ["name", "rarity", "type", "affiliated_type", "portrait_path", "external_id"]

  /** `ItemManager.get_item`: an unknown id or an empty row gives `None`, as
      does a `None` external id (the constructor's `ValueError` is caught);
      a missing field raises `KeyError`, which is not caught. The rarity is
      taken as stored, without normalisation. */
  function GetItem(c: Catalog, id: string): (r: Result<Option<Item>, ItemError>)
    ensures !HasKey(c, id) ==> r == Success(None)
    ensures r.Success? && r.value.Some? ==>
              exists row :: Get(c, id) == Some(row)
                && Get(row, "external_id") == Some(JStr(r.value.value.externalId))
                && Get(row, "rarity") == Some(JStr(r.value.value.rarity))
    ensures r.Failure? ==> r.error.KeyError? || r.error.Unsupported?
  {
    match Get(c, id)
    case None => Success(None)
    case Some(row) =>
      if |row| == 0 then Success(None)
      else
        var missing := MissingFrom(row, GetItemFields);
        if |missing| > 0 then Failure(KeyError(missing[0]))
        else
          assert HasKey(row, "external_id") && HasKey(row, "rarity") && HasKey(row, "name")
              && HasKey(row, "type") && HasKey(row, "affiliated_type") && HasKey(row, "portrait_path") by {
            assert HasFields(row, GetItemFields);
            assert "external_id" in GetItemFields && "rarity" in GetItemFields && "name" in GetItemFields;
            assert "type" in GetItemFields && "affiliated_type" in GetItemFields && "portrait_path" in GetItemFields;
          }
          var rarity := TextOf(Get(row, "rarity").value);
          if rarity.None? then Failure(Unsupported("rarity"))
          else
            match Build(row, rarity.value)
            case Success(it) => Success(Some(it))
            case Failure(ValueError(_)) => Success(None)
            case Failure(e) => Failure(e)
  }

  /** `get_item` and `get_item_objects` agree on every item whose stored
      rarity is already normalised. */
  lemma GetItemAgreesWithObjects(c: Catalog, id: string, it: Item)
    requires NoDupKeys(c)
    requires GetItem(c, id) == Success(Some(it))
    requires !StarDigit(it.rarity)
    ensures GetItemObjects(c).Success? ==> Get(GetItemObjects(c).value, id) == Some(it)
  {
    GetItemObjectsSpec(c, id);
    var row := GetItemRow(c, id, it);
    assert HasFields(row, RequiredFields) by {
      assert forall f :: f in RequiredFields ==> f in GetItemFields;
    }
    assert FromDict(row) == Build(row, it.rarity);
  }

  /** What a successful `get_item` read from the catalogue. */
  lemma GetItemRow(c: Catalog, id: string, it: Item) returns (row: Row)
    requires GetItem(c, id) == Success(Some(it))
    ensures Get(c, id) == Some(row) && |row| > 0
    ensures HasFields(row, GetItemFields)
    ensures HasKey(row, "external_id") && HasKey(row, "name") && HasKey(row, "type")
    ensures HasKey(row, "affiliated_type") && HasKey(row, "portrait_path")
    ensures Get(row, "rarity") == Some(JStr(it.rarity))
    ensures Build(row, it.rarity) == Success(it)
  {
    row := Get(c, id).value;
    assert |row| > 0;
    var missing := MissingFrom(row, GetItemFields);
    assert missing == [];
    assert HasFields(row, GetItemFields);
    assert "external_id" in GetItemFields && "rarity" in GetItemFields && "name" in GetItemFields;
    assert "type" in GetItemFields && "affiliated_type" in GetItemFields && "portrait_path" in GetItemFields;
    var rarity := TextOf(Get(row, "rarity").value);
    assert rarity.Some?;
    assert Build(row, rarity.value) == Success(it);
  }
}

=== FILE: json.dfy ===
/** Dynamic values as the source handles them: the contents of pool-config
    files, catalogue rows and caller-supplied dictionaries. Objects keep their
    insertion order, as Python's `dict` does. */
module Json {
  import opened Wrappers
  import opened Dict
  import Text

  datatype Json =
    | JNull
    | JBool(b: bool)
    | JInt(i: int)
    | JReal(r: real)
    | JStr(s: string)
    | JList(items: seq<Json>)
    | JObj(fields: Dict<string, Json>)

  /** Python truthiness (`if x:`): `None`, `False`, zero and empty containers
      are false. */
  predicate Truthy(j: Json) {
    match j
    case JNull => false
    case JBool(b) => b
    case JInt(i) => i != 0
    case JReal(r) => r != 0.0
    case JStr(s) => |s| > 0
    case JList(xs) => |xs| > 0
    case JObj(fs) => |fs| > 0
  }

  /** `str(x)` for the values whose text the model can spell out: `None`,
      booleans, integers and strings. Floats, lists and dicts have a `repr`
      the model does not reproduce, so they give `None`. */
  function PyStr(j: Json): (r: Option<string>)
    ensures j.JStr? ==> r == Some(j.s)
    ensures r.Some? <==> (j.JNull? || j.JBool? || j.JInt? || j.JStr?)
  {
    match j
    case JNull => Some("None")
    case JBool(b) => Some(if b then "True" else "False")
    case JInt(i) => Some(Text.IntToString(i))
    case JStr(s) => Some(s)
    case _ => None
  }

  /** A number as `real` (Python compares `int`, `bool` and `float` freely). */
  function AsNumber(j: Json): (r: Option<real>)
    ensures r.Some? <==> (j.JInt? || j.JReal? || j.JBool?)
    ensures j.JInt? ==> r == Some(j.i as real)
    ensures j.JReal? ==> r == Some(j.r)
  {
    match j
    case JInt(i) => Some(i as real)
    case JReal(x) => Some(x)
    case JBool(b) => Some(if b then 1.0 else 0.0)
    case _ => None
  }

  /** `d.keys()` membership for an object; nothing else has keys. */
  predicate HasField(j: Json, k: string) {
    j.JObj? && HasKey(j.fields, k)
  }

  /** `d[k]` for an object; `None` when `j` is not an object or lacks `k`. */
  function Field(j: Json, k: string): (r: Option<Json>)
    ensures r.Some? <==> HasField(j, k)
  {
    if j.JObj? then Get(j.fields, k) else None
  }

  /** `d.get(k, default)` on an object. */
  function FieldOr(j: Json, k: string, default: Json): (r: Json)
    ensures HasField(j, k) ==> Field(j, k) == Some(r)
    ensures !HasField(j, k) ==> r == default
  {
    Field(j, k).GetOr(default)
  }
}

=== FILE: pool_config.dfy ===
/** The pool-configuration record of `cardpool_manager.py` (`CardPoolConfig`):
    its construction from a dictionary, its dictionary form, the generated pool
    id, and the dotted-path property update performed on the dictionary form.

    The scalar fields are typed (`cp_id`, `name` and `config_group` are text,
    `enable` is a boolean) and the two id-list fields map a rarity to a list of
    item ids; the two probability fields stay dynamic and are read by the draw
    engine when it needs them. */
module PoolConfigs {
  import opened Wrappers
  import opened Dict
  import opened Json
  import Text
  import Digest

  /** Rarity -> list of item external ids. */
  type IdLists = Dict<string, seq<string>>

  datatype PoolConfig = PoolConfig(
    cpId: string,
    name: string,
    probabilitySettings: Json,
    rateUpItemIds: IdLists,
    includedItemIds: IdLists,
    probabilityProgression: Json,
    configGroup: string,
    enable: bool)

  /** Errors of the configuration layer. `MissingField` is the `TypeError`
      the dataclass constructor raises; `NotFound` is a `KeyError`;
      `PathExists`, `MissingName`, `DuplicateCpId` and `BadPropertyPath` are
      `ValueError`s; `Runtime` is the `RuntimeError` the manager wraps other
      failures in; `Unsupported` marks a value the typed model does not carry. */
  datatype ConfigError =
    | MissingField(field: string)
    | Unsupported(field: string)
    | NotFound(identifier: string)
    | PathExists(path: string)
    | MissingName
    | DuplicateCpId(cpId: string)
    | BadPropertyPath(path: string, key: string)
    | Runtime(cause: ConfigError)
  {
    predicate IsKeyError() { NotFound? }
    predicate IsValueError() { PathExists? || MissingName? || DuplicateCpId? || BadPropertyPath? }
  }

  /** The dataclass fields without a default. */
  const RequiredFields: seq<string> :=
    ["cp_id", "name", "probability_settings", "rate_up_item_ids", "included_item_ids",
     "probability_progression"]

  /** All eight dataclass fields, in declaration order. */
  const ValidFields: seq<string> := RequiredFields + ["config_group", "enable"]

  /** The first required field absent from `data`. */
  function FirstMissing(data: Dict<string, Json>, fields: seq<string>): (r: Option<string>)
    ensures r.None? <==> forall f :: f in fields ==> HasKey(data, f)
    ensures r.Some? ==> r.value in fields && !HasKey(data, r.value)
  {
    if |fields| == 0 then None
    else if !HasKey(data, fields[0]) then assert fields[0] in fields; Some(fields[0])
    else
      var rest := FirstMissing(data, fields[1..]);
      assert forall f :: f in fields <==> f == fields[0] || f in fields[1..];
      rest
  }

  /** The elements of a JSON list of strings. */
  function ParseIds(xs: seq<Json>): (r: Option<seq<string>>)
    ensures r.Some? ==> |r.value| == |xs| && forall i :: 0 <= i < |xs| ==> xs[i] == JStr(r.value[i])
    ensures r.None? <==> exists i :: 0 <= i < |xs| && !xs[i].JStr?
  {
    if |xs| == 0 then Some([])
    else if !xs[0].JStr? then None
    else
      match ParseIds(xs[1..])
      case None => None
      case Some(rest) => Some([xs[0].s] + rest)
  }

  function IdsToJson(ids: seq<string>): (r: seq<Json>)
    ensures |r| == |ids|
    ensures forall i :: 0 <= i < |ids| ==> r[i] == JStr(ids[i])
  {
    if |ids| == 0 then [] else [JStr(ids[0])] + IdsToJson(ids[1..])
  }

  lemma ParseIdsRoundTrip(ids: seq<string>)
    ensures ParseIds(IdsToJson(ids)) == Some(ids)
  {
    var r := ParseIds(IdsToJson(ids));
    assert r.Some?;
    assert r.value == ids;
  }

  /** A JSON object whose values are lists of strings, in field order. */
  function ParseIdLists(fs: Dict<string, Json>): (r: Option<IdLists>)
    ensures r.Some? ==> |r.value| == |fs|
  {
    if |fs| == 0 then Some([])
    else if !fs[0].1.JList? then None
    else
      match (ParseIds(fs[0].1.items), ParseIdLists(fs[1..]))
      case (Some(ids), Some(rest)) => Some([(fs[0].0, ids)] + rest)
      case _ => None
  }

  function IdListsToJson(l: IdLists): (r: Dict<string, Json>)
    ensures |r| == |l|
    ensures forall i :: 0 <= i < |l| ==> r[i] == (l[i].0, JList(IdsToJson(l[i].1)))
  {
    if |l| == 0 then []
    else [(l[0].0, JList(IdsToJson(l[0].1)))] + IdListsToJson(l[1..])
  }

  lemma {:induction false} ParseIdListsRoundTrip(l: IdLists)
    ensures ParseIdLists(IdListsToJson(l)) == Some(l)
  {
    if |l| > 0 {
      ParseIdsRoundTrip(l[0].1);
      ParseIdListsRoundTrip(l[1..]);
      var fs := IdListsToJson(l);
      assert fs[1..] == IdListsToJson(l[1..]);
      assert fs[0] == (l[0].0, JList(IdsToJson(l[0].1)));
      assert ParseIdLists(fs) == Some([(l[0].0, l[0].1)] + l[1..]);
      assert [(l[0].0, l[0].1)] + l[1..] == l;
    }
  }

  /** An id-list field read from a dictionary. */
  function IdListsField(j: Json): Option<IdLists> {
    if j.JObj? then ParseIdLists(j.fields) else None
  }

  /** `CardPoolConfig.from_dict`: only the eight declared fields are read,
      `config_group` defaults to "default" and `enable` to true, and a missing
      required field is the constructor's `TypeError`. */
  function FromDict(data: Dict<string, Json>): (r: Result<PoolConfig, ConfigError>)
    ensures FirstMissing(data, RequiredFields).Some? <==> r.Failure? && r.error.MissingField?
    ensures r.Success? ==>
              Get(data, "cp_id") == Some(JStr(r.value.cpId))
              && Get(data, "name") == Some(JStr(r.value.name))
              && Get(data, "probability_settings") == Some(r.value.probabilitySettings)
              && Get(data, "probability_progression") == Some(r.value.probabilityProgression)
              && (HasKey(data, "config_group") ==> Get(data, "config_group") == Some(JStr(r.value.configGroup)))
              && (!HasKey(data, "config_group") ==> r.value.configGroup == "default")
              && (HasKey(data, "enable") ==> Get(data, "enable") == Some(JBool(r.value.enable)))
              && (!HasKey(data, "enable") ==> r.value.enable)
              && IdListsField(Get(data, "rate_up_item_ids").value) == Some(r.value.rateUpItemIds)
              && IdListsField(Get(data, "included_item_ids").value) == Some(r.value.includedItemIds)
  {
    match FirstMissing(data, RequiredFields)
    case Some(f) => Failure(MissingField(f))
    case None =>
      FromFields(Get(data, "cp_id").value, Get(data, "name").value,
                 Get(data, "probability_settings").value,
                 Get(data, "rate_up_item_ids").value, Get(data, "included_item_ids").value,
                 Get(data, "probability_progression").value,
                 FieldOr(JObj(data), "config_group", JStr("default")),
                 FieldOr(JObj(data), "enable", JBool(true)))
  }

  /** The constructor call once the fields have been looked up. */
  function FromFields(cpId: Json, name: Json, settings: Json, rateUp: Json, included: Json,
                      progression: Json, group: Json, enable: Json): (r: Result<PoolConfig, ConfigError>)
    ensures r.Success? ==>
              cpId == JStr(r.value.cpId) && name == JStr(r.value.name)
              && settings == r.value.probabilitySettings
              && progression == r.value.probabilityProgression
              && group == JStr(r.value.configGroup) && enable == JBool(r.value.enable)
              && IdListsField(rateUp) == Some(r.value.rateUpItemIds)
              && IdListsField(included) == Some(r.value.includedItemIds)
    ensures r.Failure? ==> !r.error.MissingField?
  {
    var ru := IdListsField(rateUp);
    var inc := IdListsField(included);
    if !cpId.JStr? then Failure(Unsupported("cp_id"))
    else if !name.JStr? then Failure(Unsupported("name"))
    else if ru.None? then Failure(Unsupported("rate_up_item_ids"))
    else if inc.None? then Failure(Unsupported("included_item_ids"))
    else if !group.JStr? then Failure(Unsupported("config_group"))
    else if !enable.JBool? then Failure(Unsupported("enable"))
    else Success(PoolConfig(cpId.s, name.s, settings, ru.value, inc.value, progression, group.s, enable.b))
  }

  /** Reads of the eight declared fields. */
  ghost predicate SameDeclaredFields(a: Dict<string, Json>, b: Dict<string, Json>) {
    forall f :: f in ValidFields ==> Get(a, f) == Get(b, f)
  }

  /** Keys outside the eight declared fields are filtered out: they never
      change what `from_dict` builds. */
  lemma FromDictReadsDeclaredFields(a: Dict<string, Json>, b: Dict<string, Json>)
    requires SameDeclaredFields(a, b)
    ensures FromDict(a) == FromDict(b)
  {
    assert forall f :: f in RequiredFields ==> HasKey(a, f) == HasKey(b, f) by {
      forall f | f in RequiredFields ensures HasKey(a, f) == HasKey(b, f) {
        assert f in ValidFields;
        assert Get(a, f) == Get(b, f);
      }
    }
    assert FirstMissing(a, RequiredFields) == FirstMissing(b, RequiredFields) by {
      FirstMissingSame(a, b, RequiredFields);
    }
    forall f | f in ValidFields ensures Get(a, f) == Get(b, f) { }
    assert Get(a, "config_group") == Get(b, "config_group") by { assert "config_group" in ValidFields; }
    assert Get(a, "enable") == Get(b, "enable") by { assert "enable" in ValidFields; }
    assert Get(a, "cp_id") == Get(b, "cp_id") by { assert "cp_id" in ValidFields; }
    assert Get(a, "name") == Get(b, "name") by { assert "name" in ValidFields; }
    assert Get(a, "probability_settings") == Get(b, "probability_settings")
      by { assert "probability_settings" in ValidFields; }
    assert Get(a, "rate_up_item_ids") == Get(b, "rate_up_item_ids")
      by { assert "rate_up_item_ids" in ValidFields; }
    assert Get(a, "included_item_ids") == Get(b, "included_item_ids")
      by { assert "included_item_ids" in ValidFields; }
    assert Get(a, "probability_progression") == Get(b, "probability_progression")
      by { assert "probability_progression" in ValidFields; }
  }

  lemma {:induction false} FirstMissingSame(a: Dict<string, Json>, b: Dict<string, Json>, fields: seq<string>)
    requires forall f :: f in fields ==> HasKey(a, f) == HasKey(b, f)
    ensures FirstMissing(a, fields) == FirstMissing(b, fields)
  {
    if |fields| > 0 {
      assert fields[0] in fields;
      assert forall f :: f in fields[1..] ==> f in fields;
      FirstMissingSame(a, b, fields[1..]);
    }
  }

  /** `dataclasses.asdict`: the eight fields in declaration order. */
  function AsDict(c: PoolConfig): (r: Dict<string, Json>)
    ensures |r| == 8 && Keys(r) == ValidFields
  {
    [("cp_id", JStr(c.cpId)),
     ("name", JStr(c.name)),
     ("probability_settings", c.probabilitySettings),
     ("rate_up_item_ids", JObj(IdListsToJson(c.rateUpItemIds))),
     ("included_item_ids", JObj(IdListsToJson(c.includedItemIds))),
     ("probability_progression", c.probabilityProgression),
     ("config_group", JStr(c.configGroup)),
     ("enable", JBool(c.enable))]
  }

  /** `asdict` binds each field once. */
  lemma AsDictNoDup(c: PoolConfig)
    ensures NoDupKeys(AsDict(c))
  {
    var d := AsDict(c);
    forall i, j | 0 <= i < j < |d| ensures d[i].0 != d[j].0 {
      assert Keys(d)[i] == ValidFields[i] && Keys(d)[j] == ValidFields[j];
    }
  }

  lemma AsDictScalars(c: PoolConfig)
    ensures Get(AsDict(c), "cp_id") == Some(JStr(c.cpId))
    ensures Get(AsDict(c), "name") == Some(JStr(c.name))
    ensures Get(AsDict(c), "config_group") == Some(JStr(c.configGroup))
    ensures Get(AsDict(c), "enable") == Some(JBool(c.enable))
  {
    var d := AsDict(c);
    AsDictNoDup(c);
    GetStored(d, "cp_id", d[0].1);
    GetStored(d, "name", d[1].1);
    GetStored(d, "config_group", d[6].1);
    GetStored(d, "enable", d[7].1);
  }

  lemma AsDictTables(c: PoolConfig)
    ensures Get(AsDict(c), "probability_settings") == Some(c.probabilitySettings)
    ensures Get(AsDict(c), "rate_up_item_ids") == Some(JObj(IdListsToJson(c.rateUpItemIds)))
    ensures Get(AsDict(c), "included_item_ids") == Some(JObj(IdListsToJson(c.includedItemIds)))
    ensures Get(AsDict(c), "probability_progression") == Some(c.probabilityProgression)
  {
    var d := AsDict(c);
    AsDictNoDup(c);
    GetStored(d, "probability_settings", d[2].1);
    GetStored(d, "rate_up_item_ids", d[3].1);
    GetStored(d, "included_item_ids", d[4].1);
    GetStored(d, "probability_progression", d[5].1);
  }

  /** Each declared field of `asdict(c)` holds the corresponding field of `c`. */
  lemma AsDictFields(c: PoolConfig)
    ensures NoDupKeys(AsDict(c))
    ensures Get(AsDict(c), "cp_id") == Some(JStr(c.cpId))
    ensures Get(AsDict(c), "name") == Some(JStr(c.name))
    ensures Get(AsDict(c), "probability_settings") == Some(c.probabilitySettings)
    ensures Get(AsDict(c), "rate_up_item_ids") == Some(JObj(IdListsToJson(c.rateUpItemIds)))
    ensures Get(AsDict(c), "included_item_ids") == Some(JObj(IdListsToJson(c.includedItemIds)))
    ensures Get(AsDict(c), "probability_progression") == Some(c.probabilityProgression)
    ensures Get(AsDict(c), "config_group") == Some(JStr(c.configGroup))
    ensures Get(AsDict(c), "enable") == Some(JBool(c.enable))
  {
    AsDictNoDup(c);
    AsDictScalars(c);
    AsDictTables(c);
  }

  /** `from_dict(asdict(c))` rebuilds `c` exactly. */
  lemma FromDictAsDict(c: PoolConfig)
    ensures FromDict(AsDict(c)) == Success(c)
  {
    var d := AsDict(c);
    AsDictFields(c);
    ParseIdListsRoundTrip(c.rateUpItemIds);
    ParseIdListsRoundTrip(c.includedItemIds);
    assert FirstMissing(d, RequiredFields) == None;
  }

  /** `CardPoolManager._generate_cp_id`: the first 12 hexadecimal digits of
      the MD5 of "{file_path}:{pool_name}". */
  function GenerateCpId(md5: Digest.Hasher, filePath: string, poolName: string): (r: string)
    ensures |r| == 12
    ensures forall i :: 0 <= i < 12 ==> Digest.IsHexLower(r[i])
    ensures r <= md5(filePath + ":" + poolName)
  {
    Digest.HexPrefix(md5, filePath + ":" + poolName, 12)
  }

  /** Two pool files produce the same id whenever the hash agrees on the
      combined key; in particular the id depends on nothing else. */
  lemma GenerateCpIdDeterministic(md5: Digest.Hasher, p1: string, n1: string, p2: string, n2: string)
    requires p1 + ":" + n1 == p2 + ":" + n2
    ensures GenerateCpId(md5, p1, n1) == GenerateCpId(md5, p2, n2)
  {
  }

  /** The value at a dotted path, if every step is an object holding the key. */
  function GetPath(j: Json, keys: seq<string>): Option<Json>
    decreases |keys|
  {
    if |keys| == 0 then Some(j)
    else if !j.JObj? || !HasKey(j.fields, keys[0]) then None
    else GetPath(Get(j.fields, keys[0]).value, keys[1..])
  }

  /** The walk of `update_config_property` over a dictionary: every key but the
      last must name an existing dictionary, otherwise `ValueError`; the last
      key is assigned (added if new). */
  function SetPath(d: Dict<string, Json>, keys: seq<string>, value: Json, path: string)
    : (r: Result<Dict<string, Json>, ConfigError>)
    requires |keys| >= 1
    ensures r.Success? ==> GetPath(JObj(r.value), keys) == Some(value)
    ensures r.Success? ==> forall k :: k != keys[0] ==> Get(r.value, k) == Get(d, k)
    ensures r.Failure? ==> r.error.BadPropertyPath?
    decreases |keys|
  {
    if |keys| == 1 then Success(Put(d, keys[0], value))
    else if !HasKey(d, keys[0]) then Failure(BadPropertyPath(path, keys[0]))
    else
      var child := Get(d, keys[0]).value;
      if !child.JObj? then Failure(BadPropertyPath(path, keys[0]))
      else
        match SetPath(child.fields, keys[1..], value, path)
        case Failure(e) => Failure(e)
        case Success(c) => Success(Put(d, keys[0], JObj(c)))
  }

  /** A successful walk leaves every path that branches off the updated one
      as it was. */
  lemma {:induction false} SetPathFrame(d: Dict<string, Json>, keys: seq<string>, value: Json,
                                        path: string, other: seq<string>)
    requires |keys| >= 1
    requires SetPath(d, keys, value, path).Success?
    requires |other| >= 1
    requires exists i :: (0 <= i < |keys| && i < |other| && keys[i] != other[i]
                          && keys[..i] == other[..i])
    ensures GetPath(JObj(SetPath(d, keys, value, path).value), other) == GetPath(JObj(d), other)
    decreases |keys|
  {
    var i :| 0 <= i < |keys| && i < |other| && keys[i] != other[i] && keys[..i] == other[..i];
    var r := SetPath(d, keys, value, path).value;
    if i == 0 {
      assert Get(r, other[0]) == Get(d, other[0]);
      assert HasKey(r, other[0]) == HasKey(d, other[0]);
    } else {
      assert keys[0] == other[0] by { assert keys[..i][0] == other[..i][0]; }
      var child := Get(d, keys[0]).value;
      var c := SetPath(child.fields, keys[1..], value, path).value;
      assert r == Put(d, keys[0], JObj(c));
      assert keys[1..][i - 1] != other[1..][i - 1];
      assert keys[1..][..i - 1] == other[1..][..i - 1];
      SetPathFrame(child.fields, keys[1..], value, path, other[1..]);
    }
  }

  /** The walk succeeds exactly when the path without its last key leads to
      an object. */
  lemma {:induction false} SetPathSucceedsIff(d: Dict<string, Json>, keys: seq<string>, value: Json,
                                              path: string)
    requires |keys| >= 1
    ensures SetPath(d, keys, value, path).Success?
        <==> (var p := GetPath(JObj(d), keys[..|keys| - 1]); p.Some? && p.value.JObj?)
    decreases |keys|
  {
    var n := |keys|;
    if n > 1 {
      assert keys[..n - 1][0] == keys[0];
      assert keys[..n - 1][1..] == keys[1..][..n - 2];
      if HasKey(d, keys[0]) {
        var child := Get(d, keys[0]).value;
        if child.JObj? {
          SetPathSucceedsIff(child.fields, keys[1..], value, path);
        }
      }
    }
  }
}

=== FILE: propagate.dfy ===
/** Keeping pool configurations in step with the item catalogue: when an
    item's external id changes, or the item is removed, every id list of
    every registered configuration is rewritten, and each configuration that
    changed is saved to the file it was loaded from (`ItemDBOperations.
    _update_configs_for_item_change` and `_remove_item_from_configs`).
    Writing the files is not modelled: the paths that would be written are
    returned. */
module Propagation {
  import opened Wrappers
  import opened Dict
  import opened PoolConfigs
  import Registry

  // ----- one id list -----

  /** Every occurrence of `a` replaced by `b`; nothing else moves. */
  function RenameIds(ids: seq<string>, a: string, b: string): (r: seq<string>)
    ensures |r| == |ids|
    ensures forall i :: 0 <= i < |ids| ==> r[i] == (if ids[i] == a then b else ids[i])
  {
    if |ids| == 0 then [] else [if ids[0] == a then b else ids[0]] + RenameIds(ids[1..], a, b)
  }

  /** After a real rename the old id is gone, and renaming back restores the
      list when the new id was not in it before. */
  lemma RenameIdsInverse(ids: seq<string>, a: string, b: string)
    requires a != b
    ensures a !in RenameIds(ids, a, b)
    ensures b !in ids ==> RenameIds(RenameIds(ids, a, b), b, a) == ids
    ensures RenameIds(ids, a, b) == ids <==> a !in ids
  {
    var r := RenameIds(ids, a, b);
    forall i | 0 <= i < |r| ensures r[i] != a {
    }
    if b !in ids {
      var back := RenameIds(r, b, a);
      forall i | 0 <= i < |ids| ensures back[i] == ids[i] {
        assert ids[i] != b;
      }
    }
    if a in ids {
      var i :| 0 <= i < |ids| && ids[i] == a;
      assert r[i] != ids[i];
    } else {
      forall i | 0 <= i < |ids| ensures r[i] == ids[i] {
      }
    }
  }

  /** Occurrences of `c` in a list with `x` in front. */
  lemma CountCons(x: string, t: seq<string>, c: string)
    ensures multiset([x] + t)[c] == multiset(t)[c] + (if x == c then 1 else 0)
  {
    assert multiset([x] + t) == multiset{x} + multiset(t);
  }

  /** The new id appears once more for every occurrence of the old one. */
  lemma {:induction false} RenameIdsCounts(ids: seq<string>, a: string, b: string)
    requires a != b
    ensures multiset(RenameIds(ids, a, b))[b] == multiset(ids)[b] + multiset(ids)[a]
  {
    if |ids| > 0 {
      var x := ids[0];
      var y := if x == a then b else x;
      var rest := RenameIds(ids[1..], a, b);
      RenameIdsCounts(ids[1..], a, b);
      assert ids == [x] + ids[1..];
      assert RenameIds(ids, a, b) == [y] + rest;
      CountCons(y, rest, b);
      CountCons(x, ids[1..], a);
      CountCons(x, ids[1..], b);
    }
  }

  /** Every occurrence of `a` dropped, the rest in order. */
  function RemoveIds(ids: seq<string>, a: string): (r: seq<string>)
    ensures a !in r
    ensures multiset(r) == multiset(ids)[a := 0]
  {
    if |ids| == 0 then []
    else
      assert ids == [ids[0]] + ids[1..];
      if ids[0] == a then RemoveIds(ids[1..], a) else [ids[0]] + RemoveIds(ids[1..], a)
  }

  /** Removal keeps the order of what is left: it distributes over
      concatenation. */
  lemma {:induction false} RemoveIdsAppend(s: seq<string>, t: seq<string>, a: string)
    ensures RemoveIds(s + t, a) == RemoveIds(s, a) + RemoveIds(t, a)
  {
    if |s| == 0 {
      assert s + t == t;
    } else {
      var st := s + t;
      assert st[0] == s[0];
      assert st[1..] == s[1..] + t;
      RemoveIdsAppend(s[1..], t, a);
    }
  }

  /** The list gets shorter exactly when it held `a`; otherwise it is left as
      it was. */
  lemma RemoveIdsLength(ids: seq<string>, a: string)
    ensures |RemoveIds(ids, a)| == |ids| - multiset(ids)[a]
    ensures |RemoveIds(ids, a)| != |ids| <==> a in ids
    ensures a !in ids ==> RemoveIds(ids, a) == ids
  {
    assert |RemoveIds(ids, a)| == |multiset(RemoveIds(ids, a))|;
    assert |multiset(ids)| == |multiset(ids)[a := 0]| + multiset(ids)[a];
    if a !in ids {
      RemoveIdsAbsent(ids, a);
    }
  }

  lemma {:induction false} RemoveIdsAbsent(ids: seq<string>, a: string)
    requires a !in ids
    ensures RemoveIds(ids, a) == ids
  {
    if |ids| > 0 {
      assert a !in ids[1..];
      RemoveIdsAbsent(ids[1..], a);
      assert ids == [ids[0]] + ids[1..];
    }
  }

  // ----- the rarity -> ids tables -----

  /** Some list of the table holds `a`. */
  predicate Mentions(l: IdLists, a: string) {
    exists i :: 0 <= i < |l| && a in l[i].1
  }

  /** Every list rewritten with `RenameIds`; the flag says whether any list
      held the old id. */
  function RenameInLists(l: IdLists, a: string, b: string): (r: (IdLists, bool))
    ensures Keys(r.0) == Keys(l)
    ensures forall i :: 0 <= i < |l| ==> r.0[i].1 == RenameIds(l[i].1, a, b)
    ensures r.1 <==> Mentions(l, a)
  {
    if |l| == 0 then ([], false)
    else
      var rest := RenameInLists(l[1..], a, b);
      assert Mentions(l, a) <==> a in l[0].1 || Mentions(l[1..], a) by {
        if Mentions(l[1..], a) {
          var i :| 0 <= i < |l[1..]| && a in l[1..][i].1;
          assert l[i + 1] == l[1..][i];
        }
        if Mentions(l, a) && a !in l[0].1 {
          var i :| 0 <= i < |l| && a in l[i].1;
          assert l[1..][i - 1] == l[i];
        }
      }
      ([(l[0].0, RenameIds(l[0].1, a, b))] + rest.0, a in l[0].1 || rest.1)
  }

  /** Every list that held `a` replaced by the list without it, the others
      kept; the flag says whether any list got shorter. */
  function RemoveInLists(l: IdLists, a: string): (r: (IdLists, bool))
    ensures Keys(r.0) == Keys(l)
    ensures forall i :: 0 <= i < |l| ==> r.0[i].1 == RemoveIds(l[i].1, a)
    ensures r.1 <==> Mentions(l, a)
  {
    if |l| == 0 then ([], false)
    else
      var rest := RemoveInLists(l[1..], a);
      var ids := l[0].1;
      var kept := RemoveIds(ids, a);
      RemoveIdsLength(ids, a);
      assert Mentions(l, a) <==> a in ids || Mentions(l[1..], a) by {
        if Mentions(l[1..], a) {
          var i :| 0 <= i < |l[1..]| && a in l[1..][i].1;
          assert l[i + 1] == l[1..][i];
        }
        if Mentions(l, a) && a !in ids {
          var i :| 0 <= i < |l| && a in l[i].1;
          assert l[1..][i - 1] == l[i];
        }
      }
      if |kept| != |ids| then ([(l[0].0, kept)] + rest.0, true)
      else ([l[0]] + rest.0, rest.1)
  }

  // ----- one configuration -----

  /** Both id tables of a configuration, the included ids first. */
  function RenameInConfig(c: PoolConfig, a: string, b: string): (r: (PoolConfig, bool))
    ensures r.0 == c.(includedItemIds := RenameInLists(c.includedItemIds, a, b).0,
                      rateUpItemIds := RenameInLists(c.rateUpItemIds, a, b).0)
    ensures r.1 <==> Mentions(c.includedItemIds, a) || Mentions(c.rateUpItemIds, a)
  {
    var (inc, u1) := RenameInLists(c.includedItemIds, a, b);
    var (up, u2) := RenameInLists(c.rateUpItemIds, a, b);
    (c.(includedItemIds := inc, rateUpItemIds := up), u1 || u2)
  }

  function RemoveFromConfig(c: PoolConfig, a: string): (r: (PoolConfig, bool))
    ensures r.0 == c.(includedItemIds := RemoveInLists(c.includedItemIds, a).0,
                      rateUpItemIds := RemoveInLists(c.rateUpItemIds, a).0)
    ensures r.1 <==> Mentions(c.includedItemIds, a) || Mentions(c.rateUpItemIds, a)
  {
    var (inc, u1) := RemoveInLists(c.includedItemIds, a);
    var (up, u2) := RemoveInLists(c.rateUpItemIds, a);
    (c.(includedItemIds := inc, rateUpItemIds := up), u1 || u2)
  }

  /** After a rename to a different id no list of the configuration
      mentions the old id any more. */
  lemma RenameForgets(c: PoolConfig, a: string, b: string)
    requires a != b
    ensures !Mentions(RenameInConfig(c, a, b).0.includedItemIds, a)
    ensures !Mentions(RenameInConfig(c, a, b).0.rateUpItemIds, a)
  {
    forall l: IdLists, i | 0 <= i < |l| ensures a !in RenameInLists(l, a, b).0[i].1 {
      RenameIdsInverse(l[i].1, a, b);
    }
  }

  /** After a removal no list of the configuration mentions the id. */
  lemma RemoveForgets(c: PoolConfig, a: string)
    ensures !Mentions(RemoveFromConfig(c, a).0.includedItemIds, a)
    ensures !Mentions(RemoveFromConfig(c, a).0.rateUpItemIds, a)
  {
  }

  // ----- the whole registry -----

  /** The first path registered for the pool `cpId`, the file the source
      writes an updated configuration back to. */
  function FirstPathFor(paths: Dict<string, string>, cpId: string): (r: Option<string>)
    ensures r.Some? ==> (r.value, cpId) in paths
    ensures r.None? <==> forall p :: p in paths ==> p.1 != cpId
  {
    if |paths| == 0 then None
    else if paths[0].1 == cpId then Some(paths[0].0)
    else
      var rest := FirstPathFor(paths[1..], cpId);
      assert forall p :: p in paths ==> p == paths[0] || p in paths[1..];
      rest
  }

  /** A configuration was saved to `path`: an edit changed it, and `path` is
      the first path registered for it. */
  ghost predicate SavedTo(configs: Dict<string, PoolConfig>, paths: Dict<string, string>,
                          edit: PoolConfig -> (PoolConfig, bool), path: string)
  {
    exists i :: 0 <= i < |configs| && edit(configs[i].1).1 && FirstPathFor(paths, configs[i].1.cpId) == Some(path)
  }

  /** One pass over the registered configurations, in registration order:
      every configuration edited in place, and the file of each changed one
      that has a path listed for saving. */
  function Sweep(configs: Dict<string, PoolConfig>, paths: Dict<string, string>,
                 edit: PoolConfig -> (PoolConfig, bool)): (r: (Dict<string, PoolConfig>, seq<string>))
    ensures Keys(r.0) == Keys(configs)
    ensures forall i :: 0 <= i < |configs| ==> r.0[i].1 == edit(configs[i].1).0
    ensures forall path :: path in r.1 <==> SavedTo(configs, paths, edit, path)
  {
    if |configs| == 0 then ([], [])
    else
      var c := configs[0].1;
      var (c', updated) := edit(c);
      var rest := Sweep(configs[1..], paths, edit);
      var save := if updated && FirstPathFor(paths, c.cpId).Some? then [FirstPathFor(paths, c.cpId).value] else [];
      assert forall path :: SavedTo(configs, paths, edit, path)
                <==> path in save || SavedTo(configs[1..], paths, edit, path) by {
        forall path ensures SavedTo(configs, paths, edit, path)
                            <==> path in save || SavedTo(configs[1..], paths, edit, path) {
          if SavedTo(configs[1..], paths, edit, path) {
            var i :| 0 <= i < |configs[1..]| && edit(configs[1..][i].1).1
                     && FirstPathFor(paths, configs[1..][i].1.cpId) == Some(path);
            assert configs[i + 1] == configs[1..][i];
          }
          if SavedTo(configs, paths, edit, path) && path !in save {
            var i :| 0 <= i < |configs| && edit(configs[i].1).1 && FirstPathFor(paths, configs[i].1.cpId) == Some(path);
            assert i != 0;
            assert configs[1..][i - 1] == configs[i];
          }
        }
      }
      ([(configs[0].0, c')] + rest.0, save + rest.1)
  }

  /** `_update_configs_for_item_change` over the manager's registry. */
  function PropagateRename(reg: Registry.Registry, a: string, b: string): (r: (Registry.Registry, seq<string>))
    ensures r.0.paths == reg.paths
  {
    var (configs, saves) := Sweep(reg.configs, reg.paths, (c: PoolConfig) => RenameInConfig(c, a, b));
    (Registry.Registry(configs, reg.paths), saves)
  }

  /** `_remove_item_from_configs` over the manager's registry. */
  function PropagateRemove(reg: Registry.Registry, a: string): (r: (Registry.Registry, seq<string>))
    ensures r.0.paths == reg.paths
  {
    var (configs, saves) := Sweep(reg.configs, reg.paths, (c: PoolConfig) => RemoveFromConfig(c, a));
    (Registry.Registry(configs, reg.paths), saves)
  }

  /** An edit that keeps each configuration's `cp_id` keeps the registry's
      bookkeeping intact. */
  lemma SweepValid(reg: Registry.Registry, edit: PoolConfig -> (PoolConfig, bool))
    requires Registry.Valid(reg)
    requires forall c: PoolConfig :: edit(c).0.cpId == c.cpId
    ensures Registry.Valid(Registry.Registry(Sweep(reg.configs, reg.paths, edit).0, reg.paths))
  {
    var configs := Sweep(reg.configs, reg.paths, edit).0;
    assert forall i :: 0 <= i < |configs| ==> configs[i].0 == Keys(configs)[i] == Keys(reg.configs)[i] == reg.configs[i].0;
    forall k ensures HasKey(configs, k) <==> HasKey(reg.configs, k) {
      HasKeyIff(configs, k);
      HasKeyIff(reg.configs, k);
    }
    forall p | p in configs ensures p.0 == p.1.cpId {
      var i :| 0 <= i < |configs| && configs[i] == p;
      assert reg.configs[i] in reg.configs;
    }
  }

  /** After the rename every configuration is still registered under its
      id, and none of them mentions the old id any more; every changed
      configuration that has a file is saved. */
  lemma PropagateRenameComplete(reg: Registry.Registry, a: string, b: string)
    requires Registry.Valid(reg) && a != b
    ensures Registry.Valid(PropagateRename(reg, a, b).0)
    ensures forall p :: p in PropagateRename(reg, a, b).0.configs ==>
              !Mentions(p.1.includedItemIds, a) && !Mentions(p.1.rateUpItemIds, a)
  {
    var edit := (c: PoolConfig) => RenameInConfig(c, a, b);
    assert forall c: PoolConfig :: edit(c).0.cpId == c.cpId;
    SweepValid(reg, edit);
    var configs := Sweep(reg.configs, reg.paths, edit).0;
    assert PropagateRename(reg, a, b).0.configs == configs;
    forall p | p in configs ensures !Mentions(p.1.includedItemIds, a) && !Mentions(p.1.rateUpItemIds, a) {
      var i :| 0 <= i < |configs| && configs[i] == p;
      assert p.1 == edit(reg.configs[i].1).0;
      RenameForgets(reg.configs[i].1, a, b);
    }
  }

  /** The same for removal. */
  lemma PropagateRemoveComplete(reg: Registry.Registry, a: string)
    requires Registry.Valid(reg)
    ensures Registry.Valid(PropagateRemove(reg, a).0)
    ensures forall p :: p in PropagateRemove(reg, a).0.configs ==>
              !Mentions(p.1.includedItemIds, a) && !Mentions(p.1.rateUpItemIds, a)
  {
    var edit := (c: PoolConfig) => RemoveFromConfig(c, a);
    assert forall c: PoolConfig :: edit(c).0.cpId == c.cpId;
    SweepValid(reg, edit);
    var configs := Sweep(reg.configs, reg.paths, edit).0;
    assert PropagateRemove(reg, a).0.configs == configs;
    forall p | p in configs ensures !Mentions(p.1.includedItemIds, a) && !Mentions(p.1.rateUpItemIds, a) {
      var i :| 0 <= i < |configs| && configs[i] == p;
      assert p.1 == edit(reg.configs[i].1).0;
      RemoveForgets(reg.configs[i].1, a);
    }
  }
}

=== FILE: proxy.dfy ===
/** The network proxy settings the image downloader uses: a proxy URL that is
    normalised to carry a scheme, optional credentials folded into it, and
    the mapping handed to the HTTP client. */
module Proxy {
  import opened Wrappers
  import opened Dict
  import opened Json
  import Text

  datatype ProxyConfig = ProxyConfig(
    enabled: bool,
    url: Option<string>,
    username: Option<string>,
    password: Option<string>)

  /** The settings before anything is configured. */
  const Disabled := ProxyConfig(false, None, None, None)

  predicate StartsWith(s: string, p: string) {
    |p| <= |s| && s[..|p|] == p
  }

  /** The prefixes that count as "already has a scheme". */
  predicate HasScheme(u: string) {
    StartsWith(u, "http://") || StartsWith(u, "https://") || StartsWith(u, "socks")
  }

  /** The stripped URL, with `http://` put in front unless it already names
      one of the accepted schemes. */
  function NormaliseUrl(u: string): (r: string)
    ensures HasScheme(r)
    ensures HasScheme(Text.Strip(u)) ==> r == Text.Strip(u)
    ensures !HasScheme(Text.Strip(u)) ==> r == "http://" + Text.Strip(u)
  {
    var s := Text.Strip(u);
    if HasScheme(s) then s
    else
      var r := "http://" + s;
      assert r[..7] == "http://";
      r
  }

  // ----- urlsplit, as far as the credential rewrite reads it -----

  /** Characters Python allows in a URL scheme. */
  predicate SchemeChar(c: char) {
    ('a' <= c <= 'z') || ('A' <= c <= 'Z') || ('0' <= c <= '9') || c == '+' || c == '-' || c == '.'
  }

  predicate AsciiLetter(c: char) {
    ('a' <= c <= 'z') || ('A' <= c <= 'Z')
  }

  /** The characters that end a network location. */
  predicate NetlocEnd(c: char) {
    c == '/' || c == '?' || c == '#'
  }

  /** Split `u` at its first colon into a lower-cased scheme and the rest,
      when the text before the colon is a well-formed scheme; otherwise the
      scheme is empty and the whole text is the rest. */
  function SplitScheme(u: string): (r: (string, string))
    ensures r.0 == [] ==> r.1 == u
    ensures r.0 != [] ==> |r.0| + 1 + |r.1| == |u| && u[|r.0|] == ':' && u[|r.0| + 1..] == r.1
  {
    match Text.IndexOf(u, ':')
    case None => ([], u)
    case Some(i) =>
      if i > 0 && AsciiLetter(u[0]) && (forall j :: 0 <= j < i ==> SchemeChar(u[j]))
      then (Text.Lower(u[..i]), u[i + 1..])
      else ([], u)
  }

  /** Position of the first character ending a network location, or the
      length of `s` when there is none. */
  function NetlocLength(s: string): (n: nat)
    ensures n <= |s|
    ensures forall j :: 0 <= j < n ==> !NetlocEnd(s[j])
    ensures n < |s| ==> NetlocEnd(s[n])
  {
    if |s| == 0 || NetlocEnd(s[0]) then 0 else 1 + NetlocLength(s[1..])
  }

  /** The network location of `rest`: the text after a leading `//` up to the
      first `/`, `?` or `#`; empty when `rest` does not start with `//`. */
  function Netloc(rest: string): (r: string)
    ensures forall j :: 0 <= j < |r| ==> !NetlocEnd(r[j])
    ensures StartsWith(rest, "//") ==> StartsWith(rest, "//" + r)
    ensures !StartsWith(rest, "//") ==> r == []
  {
    if StartsWith(rest, "//") then
      var tail := rest[2..];
      var n := NetlocLength(tail);
      assert rest[..2 + n] == "//" + tail[..n];
      tail[..n]
    else []
  }

  /** `f"{scheme}://{user}:{password}@{netloc}"` over `urlparse(u)`: the
      path, query and fragment of `u` are dropped. */
  function WithCredentials(u: string, user: string, pass: string): string {
    var (scheme, rest) := SplitScheme(u);
    var netloc := Netloc(rest);
    scheme + "://" + user + ":" + pass + "@" + netloc
  }

  /** Python truthiness of an optional string argument. */
  predicate Given(s: Option<string>) {
    s.Some? && |s.value| > 0
  }

  /** Enable the proxy at `u`: the URL is normalised, and when both a user
      name and a password are given they are written into it. The stored
      user name and password fields are not touched. */
  function SetProxy(p: ProxyConfig, u: string, user: Option<string>, pass: Option<string>): (r: ProxyConfig)
    ensures r.enabled && r.url.Some?
    ensures r.username == p.username && r.password == p.password
    ensures !(Given(user) && Given(pass)) ==> r.url == Some(NormaliseUrl(u))
    ensures Given(user) && Given(pass) ==>
              r.url == Some(WithCredentials(NormaliseUrl(u), user.value, pass.value))
  {
    var n := NormaliseUrl(u);
    var url := if Given(user) && Given(pass) then WithCredentials(n, user.value, pass.value) else n;
    p.(enabled := true, url := Some(url))
  }

  /** The constructor: configured only when a non-empty URL is passed. */
  function Init(u: Option<string>): (r: ProxyConfig)
    ensures u.Some? && |u.value| > 0 ==> r == SetProxy(Disabled, u.value, None, None)
    ensures !(u.Some? && |u.value| > 0) ==> r == Disabled
  {
    if u.Some? && |u.value| > 0 then SetProxy(Disabled, u.value, None, None) else Disabled
  }

  /** Switch the proxy off and forget the URL and the credentials. */
  function DisableProxy(p: ProxyConfig): (r: ProxyConfig)
    ensures !r.enabled && r.url == None && r.username == None && r.password == None
  {
    Disabled
  }

  /** The mapping for the HTTP client: none when the proxy is off or has no
      URL, every scheme for a SOCKS proxy, otherwise `http://` and
      `https://`; every entry points at the proxy URL. */
  function GetProxyDict(p: ProxyConfig): (r: Option<Dict<string, string>>)
    ensures r.None? <==> !p.enabled || p.url.None? || |p.url.value| == 0
    ensures r.Some? && StartsWith(p.url.value, "socks") ==> r.value == [("all://", p.url.value)]
    ensures r.Some? && !StartsWith(p.url.value, "socks") ==>
              r.value == [("http://", p.url.value), ("https://", p.url.value)]
  {
    if !p.enabled || p.url.None? || |p.url.value| == 0 then None
    else if StartsWith(p.url.value, "socks") then Some([("all://", p.url.value)])
    else Some([("http://", p.url.value), ("https://", p.url.value)])
  }

  function OptStr(s: Option<string>): Json {
    if s.Some? then JStr(s.value) else JNull
  }

  /** The full settings as a dictionary. */
  function GetConfig(p: ProxyConfig): (r: Json)
    ensures r.JObj? && Keys(r.fields) == ["enabled", "proxy_url", "proxy_username", "proxy_password"]
    ensures Get(r.fields, "enabled") == Some(JBool(p.enabled))
    ensures Get(r.fields, "proxy_url") == Some(if p.url.Some? then JStr(p.url.value) else JNull)
  {
    JObj([("enabled", JBool(p.enabled)), ("proxy_url", OptStr(p.url)),
          ("proxy_username", OptStr(p.username)), ("proxy_password", OptStr(p.password))])
  }

  // ----- properties -----

  /** A string without surrounding whitespace is its own strip. */
  lemma StripUnchanged(s: string)
    requires |s| > 0 ==> !Text.IsSpace(s[0]) && !Text.IsSpace(s[|s| - 1])
    ensures Text.Strip(s) == s
  {
    var r := Text.Strip(s);
    assert Text.TrimStart(s, Text.IsSpace) == s;
    assert Text.StripOffset(s) == 0;
  }

  /** Normalising twice changes nothing: a normalised URL has a scheme and
      no surrounding whitespace. */
  lemma NormaliseIdempotent(u: string)
    ensures NormaliseUrl(NormaliseUrl(u)) == NormaliseUrl(u)
  {
    var n := NormaliseUrl(u);
    var s := Text.Strip(u);
    if !HasScheme(s) {
      assert n[0] == 'h';
      if |s| > 0 {
        assert n[|n| - 1] == s[|s| - 1];
      } else {
        assert n[|n| - 1] == '/';
      }
    } else {
      assert n[0] == 'h' || n[0] == 's';
    }
    StripUnchanged(n);
  }

  /** A bare host such as `proxy.example:8080` gets the `http://` scheme and
      keeps its text. */
  lemma BareHostGetsHttp(h: string)
    requires Text.Strip(h) == h && !HasScheme(h)
    ensures NormaliseUrl(h) == "http://" + h
  {
  }

  /** The first colon of `"http://" + h` is the one after the scheme. */
  lemma HttpScheme(h: string)
    ensures SplitScheme("http://" + h) == ("http", "//" + h)
  {
    var u := "http://" + h;
    assert u[4] == ':' && forall j :: 0 <= j < 4 ==> u[j] != ':';
    assert Text.IndexOf(u, ':') == Some(4);
    assert u[..4] == "http";
    assert u[5..] == "//" + h;
    assert Text.Lower("http") == "http" by {
      assert Text.LowerChar('h') == 'h' && Text.LowerChar('t') == 't' && Text.LowerChar('p') == 'p';
    }
  }

  /** Credentials given with a bare host `h` (no scheme, no path) end up as
      `http://user:password@h`, and the HTTP client is pointed at it for
      both schemes. */
  lemma {:induction false} CredentialsEmbedded(p: ProxyConfig, h: string, user: string, pass: string)
    requires Text.Strip(h) == h && !HasScheme(h)
    requires forall j :: 0 <= j < |h| ==> !NetlocEnd(h[j])
    requires |user| > 0 && |pass| > 0
    ensures SetProxy(p, h, Some(user), Some(pass)).url == Some("http://" + user + ":" + pass + "@" + h)
    ensures GetProxyDict(SetProxy(p, h, Some(user), Some(pass))).Some?
  {
    HttpHostCredentials(h, user, pass);
  }

  /** Rewriting `http://h` with credentials keeps the whole host part. */
  lemma HttpHostCredentials(h: string, user: string, pass: string)
    requires forall j :: 0 <= j < |h| ==> !NetlocEnd(h[j])
    ensures WithCredentials("http://" + h, user, pass) == "http://" + user + ":" + pass + "@" + h
  {
    HttpScheme(h);
    var rest := "//" + h;
    assert rest[2..] == h;
    NetlocWhole(h);
    assert h[..|h|] == h;
    assert Netloc(rest) == h;
  }

  lemma {:induction false} NetlocWhole(s: string)
    requires forall j :: 0 <= j < |s| ==> !NetlocEnd(s[j])
    ensures NetlocLength(s) == |s|
  {
    if |s| > 0 {
      assert !NetlocEnd(s[0]);
      NetlocWhole(s[1..]);
    }
  }

  /** Once set, the proxy is always handed to the client: the stored URL is
      never empty. */
  lemma SetProxyIsUsed(p: ProxyConfig, u: string, user: Option<string>, pass: Option<string>)
    ensures GetProxyDict(SetProxy(p, u, user, pass)).Some?
  {
  }

  /** After disabling, the client gets no proxy. */
  lemma DisabledIsUnused(p: ProxyConfig)
    ensures GetProxyDict(DisableProxy(p)) == None
  {
  }

  /** The calls a caller can make on the settings object. */
  datatype Call = Set(u: string, user: Option<string>, pass: Option<string>) | Disable

  function Apply(p: ProxyConfig, c: Call): ProxyConfig {
    match c
    case Set(u, user, pass) => SetProxy(p, u, user, pass)
    case Disable => DisableProxy(p)
  }

  function Run(p: ProxyConfig, calls: seq<Call>): ProxyConfig
    decreases |calls|
  {
    if |calls| == 0 then p else Run(Apply(p, calls[0]), calls[1..])
  }

  /** Whatever calls follow construction, the reported user name and password
      stay `None`: credentials only ever live inside the URL. */
  lemma {:induction false} CredentialsNeverReported(u: Option<string>, calls: seq<Call>)
    ensures var p := Run(Init(u), calls);
            p.username == None && p.password == None
            && Get(GetConfig(p).fields, "proxy_username") == Some(JNull)
            && Get(GetConfig(p).fields, "proxy_password") == Some(JNull)
  {
    NoCredentialsKept(Init(u), calls);
    var p := Run(Init(u), calls);
    assert OptStr(p.username) == JNull && OptStr(p.password) == JNull;
  }

  lemma {:induction false} NoCredentialsKept(p: ProxyConfig, calls: seq<Call>)
    requires p.username == None && p.password == None
    ensures Run(p, calls).username == None && Run(p, calls).password == None
    decreases |calls|
  {
    if |calls| > 0 {
      NoCredentialsKept(Apply(p, calls[0]), calls[1..]);
    }
  }
}

=== FILE: rates.dfy ===
/** The probability calculator of `gacha_mechanics.py`: the 5-star rate with
    soft pity and hard pity, and the 4-star rate with its hard-pity check.

    The pool's dynamic `probability_settings` and `probability_progression`
    are read once into `Rules`, with the defaults the source passes to
    `dict.get`. A missing hard-pity count stays `None` because the two readers
    of the 4-star count use different defaults (0 in the rate, 10 in the
    simultaneous-pity reset); a missing `soft_pity` list stays `None` because
    the source only looks it up below hard pity. */
module Rates {
  import opened Wrappers
  import opened Dict
  import opened Json
  import opened PoolConfigs
  import Sorting

  /** Errors of one draw. `PityOverflow` and `NoItems` are the two
      `ValueError`s the source raises; `KeyError` is a missing dictionary key;
      `Malformed` is a value whose shape makes Python raise a `TypeError`. */
  datatype DrawError =
    | KeyError(key: string)
    | PityOverflow(count: int)
    | NoItems
    | Malformed(field: string)
  {
    predicate IsValueError() { PityOverflow? || NoItems? }
  }

  /** One soft-pity interval: from `start_pull` to `end_pull`, adding
      `increment` per pull. */
  datatype Interval = Interval(start: real, end: real, increment: real)

  datatype Rules = Rules(
    hardPity5: Option<real>,
    hardPityRate5: real,
    base5: real,
    softPity5: Option<seq<Interval>>,
    hardPity4: Option<real>,
    hardPityRate4: real,
    base4: real,
    up5: real,
    up4: real,
    roleRate4: real)

  // ----- reading the configuration -----

  /** `obj.get(key, default)` for a numeric setting. */
  function NumberField(obj: Json, key: string, default: real): (r: Result<real, DrawError>)
    ensures !HasField(obj, key) ==> r == Success(default)
    ensures HasField(obj, key) ==> r.Success? == AsNumber(Field(obj, key).value).Some?
    ensures HasField(obj, key) && r.Success? ==> AsNumber(Field(obj, key).value) == Some(r.value)
  {
    if !HasField(obj, key) then Success(default)
    else
      match AsNumber(Field(obj, key).value)
      case None => Failure(Malformed(key))
      case Some(x) => Success(x)
  }

  /** `obj.get(key)` for a numeric setting whose default depends on the reader. */
  function OptNumberField(obj: Json, key: string): (r: Result<Option<real>, DrawError>)
    ensures !HasField(obj, key) ==> r == Success(None)
    ensures HasField(obj, key) && r.Success? ==>
              r.value.Some? && AsNumber(Field(obj, key).value) == r.value
  {
    if !HasField(obj, key) then Success(None)
    else
      match AsNumber(Field(obj, key).value)
      case None => Failure(Malformed(key))
      case Some(x) => Success(Some(x))
  }

  /** `interval["start_pull"]`, `["end_pull"]` and `["increment"]`. */
  function ParseInterval(j: Json): (r: Result<Interval, DrawError>)
    ensures r.Success? ==>
              && Field(j, "start_pull").Some? && AsNumber(Field(j, "start_pull").value) == Some(r.value.start)
              && Field(j, "end_pull").Some? && AsNumber(Field(j, "end_pull").value) == Some(r.value.end)
              && Field(j, "increment").Some? && AsNumber(Field(j, "increment").value) == Some(r.value.increment)
  {
    if !j.JObj? then Failure(Malformed("soft_pity"))
    else if !HasField(j, "start_pull") then Failure(KeyError("start_pull"))
    else if !HasField(j, "end_pull") then Failure(KeyError("end_pull"))
    else if !HasField(j, "increment") then Failure(KeyError("increment"))
    else
      var s :- NumberField(j, "start_pull", 0.0);
      var e :- NumberField(j, "end_pull", 0.0);
      var inc :- NumberField(j, "increment", 0.0);
      Success(Interval(s, e, inc))
  }

  function ParseIntervals(xs: seq<Json>): (r: Result<seq<Interval>, DrawError>)
    ensures r.Success? ==> |r.value| == |xs|
    ensures r.Success? ==> forall i :: 0 <= i < |xs| ==> ParseInterval(xs[i]) == Success(r.value[i])
  {
    if |xs| == 0 then Success([])
    else
      var first :- ParseInterval(xs[0]);
      var rest :- ParseIntervals(xs[1..]);
      Success([first] + rest)
  }

  /** `progression["soft_pity"]`, absent allowed until it is needed. */
  function SoftPityField(p5: Json): (r: Result<Option<seq<Interval>>, DrawError>)
    ensures !HasField(p5, "soft_pity") ==> r == Success(None)
    ensures r.Success? && r.value.Some? ==> Field(p5, "soft_pity").Some? && Field(p5, "soft_pity").value.JList?
  {
    if !HasField(p5, "soft_pity") then Success(None)
    else
      var sp := Field(p5, "soft_pity").value;
      if !sp.JList? then Failure(Malformed("soft_pity"))
      else
        var ivs :- ParseIntervals(sp.items);
        Success(Some(ivs))
  }

  /** The rules `execute_pull` and the two rate functions read from a pool.
      Both `probability_progression["4star"]` and `["5star"]` are looked up on
      every draw, so either one missing is a `KeyError`. */
  function RulesOf(cfg: PoolConfig): (r: Result<Rules, DrawError>)
    ensures cfg.probabilityProgression.JObj? && !HasField(cfg.probabilityProgression, "4star")
            ==> r.Failure?
    ensures cfg.probabilityProgression.JObj? && !HasField(cfg.probabilityProgression, "5star")
            ==> r.Failure?
    ensures r.Success? ==>
              HasField(cfg.probabilityProgression, "4star") && HasField(cfg.probabilityProgression, "5star")
    ensures r.Success? && HasField(cfg.probabilityProgression, "4star")
            && HasField(cfg.probabilityProgression, "5star") ==>
              var ps := cfg.probabilitySettings;
              var p4 := Field(cfg.probabilityProgression, "4star").value;
              var p5 := Field(cfg.probabilityProgression, "5star").value;
              && (!HasField(ps, "up_5star_rate") ==> r.value.up5 == 0.5)
              && (!HasField(ps, "up_4star_rate") ==> r.value.up4 == 0.5)
              && (!HasField(ps, "_4star_role_rate") ==> r.value.roleRate4 == 0.06)
              && (!HasField(ps, "base_5star_rate") ==> r.value.base5 == 0.008)
              && (!HasField(ps, "base_4star_rate") ==> r.value.base4 == 0.06)
              && (!HasField(p5, "hard_pity_rate") ==> r.value.hardPityRate5 == 1.0)
              && (!HasField(p4, "hard_pity_rate") ==> r.value.hardPityRate4 == 1.0)
              && (r.value.hardPity5.None? <==> !HasField(p5, "hard_pity_pull"))
              && (r.value.hardPity4.None? <==> !HasField(p4, "hard_pity_pull"))
              && (r.value.softPity5.None? <==> !HasField(p5, "soft_pity"))
  {
    var ps := cfg.probabilitySettings;
    var pp := cfg.probabilityProgression;
    if !ps.JObj? then Failure(Malformed("probability_settings"))
    else if !pp.JObj? then Failure(Malformed("probability_progression"))
    else
      var up5 :- NumberField(ps, "up_5star_rate", 0.5);
      var up4 :- NumberField(ps, "up_4star_rate", 0.5);
      var role :- NumberField(ps, "_4star_role_rate", 0.06);
      if !HasField(pp, "4star") then Failure(KeyError("4star"))
      else
        var p4 := Field(pp, "4star").value;
        if !p4.JObj? then Failure(Malformed("4star"))
        else if !HasField(pp, "5star") then Failure(KeyError("5star"))
        else
          var p5 := Field(pp, "5star").value;
          if !p5.JObj? then Failure(Malformed("5star"))
          else
            var hard4 :- OptNumberField(p4, "hard_pity_pull");
            var hard5 :- OptNumberField(p5, "hard_pity_pull");
            var rate5 :- NumberField(p5, "hard_pity_rate", 1.0);
            var base5 :- NumberField(ps, "base_5star_rate", 0.008);
            var soft :- SoftPityField(p5);
            var rate4 :- NumberField(p4, "hard_pity_rate", 1.0);
            var base4 :- NumberField(ps, "base_4star_rate", 0.06);
            Success(Rules(hard5, rate5, base5, soft, hard4, rate4, base4, up5, up4, role))
  }

  // ----- calculate_rate_5star -----

  function Min(a: real, b: real): real {
    if a <= b then a else b
  }

  /** What an interval the count has reached adds: its increment for every
      pull from its start up to the count or its end, whichever comes first. */
  function Gain(iv: Interval, c: real): real {
    (Min(c, iv.end) - iv.start + 1.0) * iv.increment
  }

  /** The interval walk: each interval the count has reached adds its gain;
      the walk stops at the first interval not yet reached or not yet left. */
  function SoftPityWalk(acc: real, ivs: seq<Interval>, c: real): real
    decreases |ivs|
  {
    if |ivs| == 0 || c < ivs[0].start then acc
    else if c <= ivs[0].end then acc + Gain(ivs[0], c)
    else SoftPityWalk(acc + Gain(ivs[0], c), ivs[1..], c)
  }

  function StartOf(iv: Interval): real {
    iv.start
  }

  /** `calculate_rate_5star(rate_number)`: the rate for count
      `rate_number + 1`. At or past hard pity (default 95) it is
      `hard_pity_rate` verbatim; below, the walk over the intervals sorted by
      `start_pull`, capped at 1. */
  function Rate5(rules: Rules, rateNumber: int): (r: Result<real, DrawError>)
    ensures (rateNumber + 1) as real >= rules.hardPity5.GetOr(95.0) ==> r == Success(rules.hardPityRate5)
    ensures (rateNumber + 1) as real < rules.hardPity5.GetOr(95.0) ==>
              (r.Failure? <==> rules.softPity5.None?) && (r.Success? ==> r.value <= 1.0)
    ensures r.Failure? ==> r.error == KeyError("soft_pity")
  {
    var c := (rateNumber + 1) as real;
    if c >= rules.hardPity5.GetOr(95.0) then Success(rules.hardPityRate5)
    else
      match rules.softPity5
      case None => Failure(KeyError("soft_pity"))
      case Some(ivs) => Success(Min(SoftPityWalk(rules.base5, Sorting.SortBy(ivs, StartOf), c), 1.0))
  }

  /** Increments are not negative and no interval ends before it starts. */
  ghost predicate WellFormedIntervals(ivs: seq<Interval>) {
    forall i :: 0 <= i < |ivs| ==> ivs[i].increment >= 0.0 && ivs[i].start <= ivs[i].end
  }

  /** The tail of a well-formed list is well formed. */
  lemma TailWellFormed(ivs: seq<Interval>)
    requires WellFormedIntervals(ivs) && |ivs| > 0
    ensures WellFormedIntervals(ivs[1..])
  {
    assert forall i :: 0 <= i < |ivs[1..]| ==> ivs[1..][i] == ivs[i + 1];
  }

  /** A reached interval's gain is not negative and grows with the count. */
  lemma GainMonotone(iv: Interval, c1: real, c2: real)
    requires iv.increment >= 0.0 && iv.start <= iv.end
    requires iv.start <= c1 <= c2
    ensures 0.0 <= Gain(iv, c1) <= Gain(iv, c2)
  {
    var x1 := Min(c1, iv.end) - iv.start + 1.0;
    var x2 := Min(c2, iv.end) - iv.start + 1.0;
    assert 0.0 <= x1 <= x2;
    assert x2 * iv.increment - x1 * iv.increment == (x2 - x1) * iv.increment;
  }

  /** The walk never lowers the running total. */
  lemma {:induction false} WalkAtLeast(acc: real, ivs: seq<Interval>, c: real)
    requires WellFormedIntervals(ivs)
    ensures SoftPityWalk(acc, ivs, c) >= acc
    decreases |ivs|
  {
    if |ivs| > 0 && c >= ivs[0].start {
      GainMonotone(ivs[0], c, c);
      if c > ivs[0].end {
        TailWellFormed(ivs);
        WalkAtLeast(acc + Gain(ivs[0], c), ivs[1..], c);
      }
    }
  }

  /** The walk is non-decreasing in both the starting total and the count. */
  lemma {:induction false} WalkMonotone(a1: real, a2: real, ivs: seq<Interval>, c1: real, c2: real)
    requires WellFormedIntervals(ivs)
    requires a1 <= a2 && c1 <= c2
    ensures SoftPityWalk(a1, ivs, c1) <= SoftPityWalk(a2, ivs, c2)
    decreases |ivs|
  {
    if |ivs| > 0 && c2 >= ivs[0].start {
      var iv := ivs[0];
      TailWellFormed(ivs);
      GainMonotone(iv, c2, c2);
      if c1 >= iv.start {
        GainMonotone(iv, c1, c2);
      }
      if c1 >= iv.start && c1 > iv.end {
        WalkMonotone(a1 + Gain(iv, c1), a2 + Gain(iv, c2), ivs[1..], c1, c2);
      } else if c2 > iv.end {
        WalkAtLeast(a2 + Gain(iv, c2), ivs[1..], c2);
      }
    }
  }

  /** Sorting keeps every interval, so it keeps them well formed. */
  lemma SortKeepsWellFormed(ivs: seq<Interval>)
    requires WellFormedIntervals(ivs)
    ensures WellFormedIntervals(Sorting.SortBy(ivs, StartOf))
  {
    var s := Sorting.SortBy(ivs, StartOf);
    forall i | 0 <= i < |s| ensures s[i].increment >= 0.0 && s[i].start <= s[i].end {
      assert s[i] in multiset(s);
      assert s[i] in multiset(ivs);
      var j :| 0 <= j < |ivs| && ivs[j] == s[i];
    }
  }

  /** Below hard pity, with a non-negative base and well-formed intervals, the
      5-star rate is a probability. */
  lemma Rate5Bounds(rules: Rules, rateNumber: int)
    requires rules.base5 >= 0.0
    requires rules.softPity5.Some? && WellFormedIntervals(rules.softPity5.value)
    requires (rateNumber + 1) as real < rules.hardPity5.GetOr(95.0)
    ensures Rate5(rules, rateNumber).Success?
    ensures 0.0 <= Rate5(rules, rateNumber).value <= 1.0
  {
    SortKeepsWellFormed(rules.softPity5.value);
    WalkAtLeast(rules.base5, Sorting.SortBy(rules.softPity5.value, StartOf), (rateNumber + 1) as real);
  }

  /** The 5-star rate never drops as the count grows, provided the hard-pity
      rate is at least the cap of 1 whenever the later count reaches it. */
  lemma Rate5Monotone(rules: Rules, n1: int, n2: int)
    requires n1 <= n2
    requires rules.softPity5.Some? && WellFormedIntervals(rules.softPity5.value)
    requires (n2 + 1) as real >= rules.hardPity5.GetOr(95.0) ==> rules.hardPityRate5 >= 1.0
    ensures Rate5(rules, n1).Success? && Rate5(rules, n2).Success?
    ensures Rate5(rules, n1).value <= Rate5(rules, n2).value
  {
    var sorted := Sorting.SortBy(rules.softPity5.value, StartOf);
    SortKeepsWellFormed(rules.softPity5.value);
    WalkMonotone(rules.base5, rules.base5, sorted, (n1 + 1) as real, (n2 + 1) as real);
  }

  /** With an empty interval list the rate below hard pity is the base rate
      (capped at 1). */
  lemma Rate5NoSoftPity(rules: Rules, rateNumber: int)
    requires rules.softPity5 == Some([])
    requires (rateNumber + 1) as real < rules.hardPity5.GetOr(95.0)
    ensures Rate5(rules, rateNumber) == Success(Min(rules.base5, 1.0))
  {
    assert Sorting.SortBy([], StartOf) == [];
  }

  // ----- a reference for the walk -----

  /** What one interval adds for count `c`, looked at on its own. */
  function IntervalBonus(iv: Interval, c: real): real {
    if c >= iv.start then Gain(iv, c) else 0.0
  }

  /** The bonus stated interval by interval, with no early exit. */
  function TotalBonus(ivs: seq<Interval>, c: real): real
    decreases |ivs|
  {
    if |ivs| == 0 then 0.0 else IntervalBonus(ivs[0], c) + TotalBonus(ivs[1..], c)
  }

  /** Intervals in order, each starting after the previous one ends. */
  ghost predicate Disjoint(ivs: seq<Interval>) {
    forall i :: 0 <= i < |ivs| - 1 ==> ivs[i].end < ivs[i + 1].start
  }

  /** When every interval starts beyond the count, none contributes. */
  lemma {:induction false} TotalBonusNotReached(ivs: seq<Interval>, c: real)
    requires forall i :: 0 <= i < |ivs| ==> c < ivs[i].start
    ensures TotalBonus(ivs, c) == 0.0
    decreases |ivs|
  {
    if |ivs| > 0 {
      assert forall i :: 0 <= i < |ivs[1..]| ==> ivs[1..][i] == ivs[i + 1];
      TotalBonusNotReached(ivs[1..], c);
    }
  }

  /** Later intervals of an ordered disjoint list start after an earlier one ends. */
  lemma {:induction false} DisjointLater(ivs: seq<Interval>, i: nat, j: nat)
    requires WellFormedIntervals(ivs) && Disjoint(ivs)
    requires i < j < |ivs|
    ensures ivs[i].end < ivs[j].start
    decreases j - i
  {
    if j > i + 1 {
      DisjointLater(ivs, i, j - 1);
    }
  }

  /** For ordered, disjoint, well-formed intervals the walk adds exactly the
      per-interval bonus: the early exits of the source only skip intervals
      that contribute nothing. */
  lemma {:induction false} WalkIsTotalBonus(acc: real, ivs: seq<Interval>, c: real)
    requires WellFormedIntervals(ivs) && Disjoint(ivs)
    ensures SoftPityWalk(acc, ivs, c) == acc + TotalBonus(ivs, c)
    decreases |ivs|
  {
    if |ivs| > 0 {
      var iv := ivs[0];
      var tail := ivs[1..];
      assert WellFormedIntervals(tail) by {
        forall i | 0 <= i < |tail| ensures tail[i].increment >= 0.0 && tail[i].start <= tail[i].end {
          assert tail[i] == ivs[i + 1];
        }
      }
      assert Disjoint(tail) by {
        forall i | 0 <= i < |tail| - 1 ensures tail[i].end < tail[i + 1].start {
          assert tail[i] == ivs[i + 1] && tail[i + 1] == ivs[i + 2];
        }
      }
      forall k | 0 <= k < |tail| ensures iv.end < tail[k].start {
        DisjointLater(ivs, 0, k + 1);
      }
      if c >= iv.start && c > iv.end {
        var acc' := acc + IntervalBonus(iv, c);
        assert SoftPityWalk(acc, ivs, c) == SoftPityWalk(acc', tail, c);
        assert TotalBonus(ivs, c) == IntervalBonus(iv, c) + TotalBonus(tail, c);
        WalkIsTotalBonus(acc', tail, c);
      } else {
        TotalBonusNotReached(tail, c);
      }
    }
  }

  /** For an ordered, disjoint, well-formed soft-pity list, the 5-star rate
      below hard pity is the base plus every interval's own bonus, capped at 1. */
  lemma Rate5ByIntervals(rules: Rules, rateNumber: int)
    requires rules.softPity5.Some?
    requires WellFormedIntervals(rules.softPity5.value) && Disjoint(rules.softPity5.value)
    requires (rateNumber + 1) as real < rules.hardPity5.GetOr(95.0)
    ensures Rate5(rules, rateNumber)
         == Success(Min(rules.base5 + TotalBonus(rules.softPity5.value, (rateNumber + 1) as real), 1.0))
  {
    var ivs := rules.softPity5.value;
    assert Sorting.SortedBy(ivs, StartOf) by {
      forall i, j | 0 <= i < j < |ivs| ensures StartOf(ivs[i]) <= StartOf(ivs[j]) {
        DisjointLater(ivs, i, j);
      }
    }
    Sorting.SortBySorted(ivs, StartOf);
    WalkIsTotalBonus(rules.base5, ivs, (rateNumber + 1) as real);
  }

  // ----- calculate_rate_4star -----

  /** `calculate_rate_4star(rate_number)`: for count `rate_number + 1`, the
      base rate below hard pity (default 0), the hard-pity rate at it, and a
      `ValueError` past it. */
  function Rate4(rules: Rules, rateNumber: int): (r: Result<real, DrawError>)
    ensures r.Failure? <==> (rateNumber + 1) as real > rules.hardPity4.GetOr(0.0)
    ensures r.Failure? ==> r.error == PityOverflow(rateNumber + 1)
    ensures r.Success? && (rateNumber + 1) as real < rules.hardPity4.GetOr(0.0) ==> r.value == rules.base4
    ensures r.Success? && (rateNumber + 1) as real == rules.hardPity4.GetOr(0.0) ==> r.value == rules.hardPityRate4
  {
    var c := (rateNumber + 1) as real;
    var h := rules.hardPity4.GetOr(0.0);
    if c < h then Success(rules.base4)
    else if c == h then Success(rules.hardPityRate4)
    else Failure(PityOverflow(rateNumber + 1))
  }

  /** Without a 4-star `hard_pity_pull` the default 0 makes every positive
      count overflow. */
  lemma Rate4WithoutHardPity(rules: Rules, rateNumber: int)
    requires rules.hardPity4.None?
    requires rateNumber >= 0
    ensures Rate4(rules, rateNumber) == Failure(PityOverflow(rateNumber + 1))
  {
  }
}

=== FILE: registry.dfy ===
/** The in-memory registry of `CardPoolManager`: pool configurations keyed by
    `cp_id`, and the map from a configuration's relative file path (without
    the `.json` suffix) to its `cp_id`.

    Every operation returns the new registry together with its result, or an
    error and no registry: the source raises before it mutates either map, so
    a failed call leaves the registry as it was. Saving and deleting the JSON
    files is not modelled. */
module Registry {
  import opened Wrappers
  import opened Dict
  import opened Json
  import Text
  import Digest
  import opened PoolConfigs

  datatype Registry = Registry(configs: Dict<string, PoolConfig>, paths: Dict<string, string>)

  /** The manager right after construction, before any file is loaded. */
  const Empty := Registry([], [])

  /** Every configuration is stored under its own `cp_id`. */
  ghost predicate KeyedById(configs: Dict<string, PoolConfig>) {
    forall p :: p in configs ==> p.0 == p.1.cpId
  }

  /** Every path names a stored configuration. */
  ghost predicate PathsResolve(paths: Dict<string, string>, configs: Dict<string, PoolConfig>) {
    forall p :: p in paths ==> HasKey(configs, p.1)
  }

  /** No two paths name the same configuration. */
  ghost predicate PathsInjective(paths: Dict<string, string>) {
    forall p, q :: p in paths && q in paths && p.1 == q.1 ==> p.0 == q.0
  }

  /** The bookkeeping the operations keep. */
  ghost predicate Valid(reg: Registry) {
    && NoDupKeys(reg.configs)
    && NoDupKeys(reg.paths)
    && KeyedById(reg.configs)
    && PathsResolve(reg.paths, reg.configs)
    && PathsInjective(reg.paths)
  }

  lemma EmptyValid()
    ensures Valid(Empty)
  {
  }

  /** `get_config`: by `cp_id` first, then by file path, otherwise `KeyError`. */
  function GetConfig(reg: Registry, identifier: string): (r: Result<PoolConfig, ConfigError>)
    ensures HasKey(reg.configs, identifier) ==> r.Success? && (identifier, r.value) in reg.configs
    ensures !HasKey(reg.configs, identifier) && HasKey(reg.paths, identifier) && r.Success? ==>
              (Get(reg.paths, identifier).value, r.value) in reg.configs
    ensures !HasKey(reg.configs, identifier) && !HasKey(reg.paths, identifier) ==>
              r == Failure(NotFound(identifier))
    ensures r.Failure? ==> r.error.NotFound?
  {
    if HasKey(reg.configs, identifier) then
      GetFound(reg.configs, identifier);
      Success(Get(reg.configs, identifier).value)
    else if HasKey(reg.paths, identifier) then
      var cpId := Get(reg.paths, identifier).value;
      if HasKey(reg.configs, cpId) then
        GetFound(reg.configs, cpId);
        Success(Get(reg.configs, cpId).value)
      else Failure(NotFound(cpId))
    else Failure(NotFound(identifier))
  }

  /** On a valid registry the lookup succeeds exactly for known ids and known
      paths, and what it finds carries the id it was stored under. */
  lemma GetConfigValid(reg: Registry, identifier: string)
    requires Valid(reg)
    ensures GetConfig(reg, identifier).Success?
        <==> HasKey(reg.configs, identifier) || HasKey(reg.paths, identifier)
    ensures HasKey(reg.configs, identifier) ==> GetConfig(reg, identifier).value.cpId == identifier
  {
    if !HasKey(reg.configs, identifier) && HasKey(reg.paths, identifier) {
      GetFound(reg.paths, identifier);
    }
  }

  /** The position of the first stored path whose basename is `name`. */
  function FindByBasename(paths: Dict<string, string>, name: string): (r: Option<nat>)
    ensures r.Some? ==> r.value < |paths| && Text.Basename(paths[r.value].0) == name
    ensures r.Some? ==> forall j :: 0 <= j < r.value ==> Text.Basename(paths[j].0) != name
    ensures r.None? ==> forall j :: 0 <= j < |paths| ==> Text.Basename(paths[j].0) != name
  {
    var names := Basenames(paths);
    FirstIndexFrom(names, name, 0)
  }

  /** The basename of every stored path, in order. */
  function Basenames(paths: Dict<string, string>): (r: seq<string>)
    ensures |r| == |paths|
    ensures forall i :: 0 <= i < |paths| ==> r[i] == Text.Basename(paths[i].0)
  {
    if |paths| == 0 then [] else [Text.Basename(paths[0].0)] + Basenames(paths[1..])
  }

  /** The first position from `from` on that holds `x`. */
  function FirstIndexFrom(xs: seq<string>, x: string, from: nat): (r: Option<nat>)
    requires from <= |xs|
    requires forall j :: 0 <= j < from ==> xs[j] != x
    ensures r.Some? ==> r.value < |xs| && xs[r.value] == x
    ensures r.Some? ==> forall j :: 0 <= j < r.value ==> xs[j] != x
    ensures r.None? ==> forall j :: 0 <= j < |xs| ==> xs[j] != x
    decreases |xs| - from
  {
    if from == |xs| then None
    else if xs[from] == x then Some(from)
    else FirstIndexFrom(xs, x, from + 1)
  }

  /** The lookup shared by update, delete and enable: the exact path, else the
      first stored path whose basename is the argument; a missing or empty
      `cp_id` is a `KeyError`. The result is the stored path and its id. */
  function Resolve(reg: Registry, filePath: string): (r: Result<(string, string), ConfigError>)
    ensures r.Success? ==> r.value in reg.paths && r.value.1 != ""
    ensures r.Failure? ==> r.error == NotFound(filePath)
    ensures HasKey(reg.paths, filePath) ==>
              (r.Success? <==> Get(reg.paths, filePath).value != "")
              && (r.Success? ==> r.value.0 == filePath)
    ensures !HasKey(reg.paths, filePath) && r.Success? ==>
              exists i :: 0 <= i < |reg.paths| && reg.paths[i] == r.value
                          && Text.Basename(r.value.0) == filePath
                          && forall j :: 0 <= j < i ==> Text.Basename(reg.paths[j].0) != filePath
    ensures !HasKey(reg.paths, filePath)
            && (forall j :: 0 <= j < |reg.paths| ==> Text.Basename(reg.paths[j].0) != filePath)
            ==> r.Failure?
  {
    var found :=
      if HasKey(reg.paths, filePath) then
        GetFound(reg.paths, filePath);
        Some((filePath, Get(reg.paths, filePath).value))
      else
        match FindByBasename(reg.paths, filePath)
        case None => None
        case Some(i) => Some(reg.paths[i]);
    if found.None? || found.value.1 == "" then Failure(NotFound(filePath))
    else Success(found.value)
  }

  /** `get_enabled_configs`: the enabled configurations, in registry order. */
  function GetEnabledConfigs(configs: Dict<string, PoolConfig>): (r: Dict<string, PoolConfig>)
    ensures forall p :: p in r <==> p in configs && p.1.enable
    ensures |r| <= |configs|
  {
    if |configs| == 0 then []
    else
      var rest := GetEnabledConfigs(configs[1..]);
      assert forall p :: p in configs <==> p == configs[0] || p in configs[1..];
      if configs[0].1.enable then [configs[0]] + rest else rest
  }

  /** `config[cp_id] = instance` keeps the registry valid. */
  lemma StoreValid(reg: Registry, c: PoolConfig)
    requires Valid(reg)
    ensures Valid(reg.(configs := Put(reg.configs, c.cpId, c)))
  {
    var configs' := Put(reg.configs, c.cpId, c);
    PutKeepsNoDup(reg.configs, c.cpId, c);
    PutMembers(reg.configs, c.cpId, c);
    assert KeyedById(configs') by {
      forall p | p in configs' ensures p.0 == p.1.cpId {
        assert p == (c.cpId, c) || p in reg.configs;
      }
    }
    PutKeepsKeys(reg.configs, c.cpId, c, reg.paths);
  }

  /** Assignment in the configuration map never loses a key a path names. */
  lemma PutKeepsKeys(configs: Dict<string, PoolConfig>, k: string, c: PoolConfig, paths: Dict<string, string>)
    requires PathsResolve(paths, configs)
    ensures PathsResolve(paths, Put(configs, k, c))
  {
    forall p | p in paths ensures HasKey(Put(configs, k, c), p.1) {
      assert HasKey(configs, p.1);
      if p.1 != k {
        assert Get(Put(configs, k, c), p.1) == Get(configs, p.1);
      }
    }
  }

  // ----- add_config -----

  /** The `cp_id` step of `add_config`: a supplied id is kept; otherwise the
      name is required and the id is generated from the path and `str(name)`. */
  function WithCpId(md5: Digest.Hasher, filePath: string, data: Dict<string, Json>)
    : (r: Result<Dict<string, Json>, ConfigError>)
    ensures HasKey(data, "cp_id") ==> r == Success(data)
    ensures !HasKey(data, "cp_id") && !HasKey(data, "name") ==> r == Failure(MissingName)
    ensures r.Success? ==> HasKey(r.value, "cp_id")
    ensures r.Success? && !HasKey(data, "cp_id") ==>
              (var n := PyStr(Get(data, "name").value);
               n.Some? && Get(r.value, "cp_id") == Some(JStr(GenerateCpId(md5, filePath, n.value))))
    ensures r.Success? ==> forall k :: k != "cp_id" ==> Get(r.value, k) == Get(data, k)
  {
    if HasKey(data, "cp_id") then Success(data)
    else if !HasKey(data, "name") then Failure(MissingName)
    else
      match PyStr(Get(data, "name").value)
      case None => Failure(Unsupported("name"))
      case Some(n) => Success(Put(data, "cp_id", JStr(GenerateCpId(md5, filePath, n))))
  }

  /** The body of `add_config`'s `try`: the id step, the duplicate-id check,
      construction, and registration under `config_group/file_path`. */
  function Insert(reg: Registry, md5: Digest.Hasher, filePath: string, data: Dict<string, Json>)
    : (r: Result<(Registry, PoolConfig), ConfigError>)
    ensures r.Success? ==>
              var (reg', c) := r.value;
              && !HasKey(reg.configs, c.cpId)
              && reg'.configs == Put(reg.configs, c.cpId, c)
              && reg'.paths == Put(reg.paths, Text.PathJoin(c.configGroup, filePath), c.cpId)
    ensures r.Success? && HasKey(data, "cp_id") ==> Get(data, "cp_id") == Some(JStr(r.value.1.cpId))
    ensures !HasKey(data, "cp_id") && !HasKey(data, "name") ==> r == Failure(MissingName)
  {
    var full :- WithCpId(md5, filePath, data);
    var id := Get(full, "cp_id").value;
    if id.JStr? && HasKey(reg.configs, id.s) then Failure(DuplicateCpId(id.s))
    else
      var c :- FromDict(full);
      Success((Registry(Put(reg.configs, c.cpId, c),
                        Put(reg.paths, Text.PathJoin(c.configGroup, filePath), c.cpId)), c))
  }

  /** `add_config` as written: the already-known check looks up the argument,
      but the entry is stored under `config_group/file_path`. Failures inside
      the `try` surface as `RuntimeError`. */
  function AddConfigAsWritten(reg: Registry, md5: Digest.Hasher, filePath: string, data: Dict<string, Json>)
    : (r: Result<(Registry, PoolConfig), ConfigError>)
    ensures HasKey(reg.paths, filePath) ==> r == Failure(PathExists(filePath))
    ensures !HasKey(reg.paths, filePath) && r.Failure? ==> r.error.Runtime?
    ensures !HasKey(reg.paths, filePath) && !HasKey(data, "cp_id") && !HasKey(data, "name") ==>
              r == Failure(Runtime(MissingName))
    ensures r.Success? ==>
              var (reg', c) := r.value;
              && !HasKey(reg.configs, c.cpId)
              && Get(reg'.configs, c.cpId) == Some(c)
              && Get(reg'.paths, Text.PathJoin(c.configGroup, filePath)) == Some(c.cpId)
              && (forall k :: k != c.cpId ==> Get(reg'.configs, k) == Get(reg.configs, k))
              && (forall k :: k != Text.PathJoin(c.configGroup, filePath) ==> Get(reg'.paths, k) == Get(reg.paths, k))
  {
    if HasKey(reg.paths, filePath) then Failure(PathExists(filePath))
    else
      match Insert(reg, md5, filePath, data)
      case Failure(e) => Failure(Runtime(e))
      case Success(x) => Success(x)
  }

  /** `add_config` with the already-known check made against the key the
      entry is stored under: a successful call never replaces a path. */
  function AddConfig(reg: Registry, md5: Digest.Hasher, filePath: string, data: Dict<string, Json>)
    : (r: Result<(Registry, PoolConfig), ConfigError>)
    ensures HasKey(reg.paths, filePath) ==> r == Failure(PathExists(filePath))
    ensures r.Success? ==>
              var (reg', c) := r.value;
              && !HasKey(reg.configs, c.cpId)
              && !HasKey(reg.paths, Text.PathJoin(c.configGroup, filePath))
              && Get(reg'.configs, c.cpId) == Some(c)
              && Get(reg'.paths, Text.PathJoin(c.configGroup, filePath)) == Some(c.cpId)
              && (forall p :: p in reg.paths ==> p in reg'.paths)
              && (forall p :: p in reg.configs ==> p in reg'.configs)
  {
    if HasKey(reg.paths, filePath) then Failure(PathExists(filePath))
    else
      match Insert(reg, md5, filePath, data)
      case Failure(e) => Failure(Runtime(e))
      case Success((reg', c)) =>
        var full := Text.PathJoin(c.configGroup, filePath);
        if HasKey(reg.paths, full) then Failure(PathExists(full))
        else
          PutShape(reg.paths, full, c.cpId);
          PutShape(reg.configs, c.cpId, c);
          Success((reg', c))
  }

  /** Registration keeps the registry valid. */
  lemma InsertValid(reg: Registry, md5: Digest.Hasher, filePath: string, data: Dict<string, Json>)
    requires Valid(reg)
    requires Insert(reg, md5, filePath, data).Success?
    ensures Valid(Insert(reg, md5, filePath, data).value.0)
  {
    var (reg', c) := Insert(reg, md5, filePath, data).value;
    StoreValid(reg, c);
    NewPathValid(reg.(configs := reg'.configs), Text.PathJoin(c.configGroup, filePath), c.cpId);
  }

  /** Binding a path to a stored configuration that no path names yet keeps
      the registry valid. */
  lemma NewPathValid(reg: Registry, path: string, cpId: string)
    requires Valid(reg)
    requires HasKey(reg.configs, cpId)
    requires forall p :: p in reg.paths ==> p.1 != cpId
    ensures Valid(reg.(paths := Put(reg.paths, path, cpId)))
  {
    var paths' := Put(reg.paths, path, cpId);
    PutKeepsNoDup(reg.paths, path, cpId);
    PutMembers(reg.paths, path, cpId);
    assert PathsResolve(paths', reg.configs) by {
      forall p | p in paths' ensures HasKey(reg.configs, p.1) {
        assert p == (path, cpId) || p in reg.paths;
      }
    }
    assert PathsInjective(paths') by {
      forall p, q | p in paths' && q in paths' && p.1 == q.1 ensures p.0 == q.0 {
        assert p == (path, cpId) || p in reg.paths;
        assert q == (path, cpId) || q in reg.paths;
      }
    }
  }

  lemma AddConfigValid(reg: Registry, md5: Digest.Hasher, filePath: string, data: Dict<string, Json>)
    requires Valid(reg)
    ensures AddConfig(reg, md5, filePath, data).Success? ==> Valid(AddConfig(reg, md5, filePath, data).value.0)
    ensures AddConfigAsWritten(reg, md5, filePath, data).Success? ==>
              Valid(AddConfigAsWritten(reg, md5, filePath, data).value.0)
  {
    if Insert(reg, md5, filePath, data).Success? {
      InsertValid(reg, md5, filePath, data);
    }
  }

  // ----- update_config -----

  /** The path-map update of `update_config`: the old entry is deleted and
      the new path bound to the same id. */
  function MovePath(paths: Dict<string, string>, actual: string, newPath: string, cpId: string)
    : (r: Dict<string, string>)
    ensures Get(r, newPath) == Some(cpId)
    ensures newPath != actual ==> !HasKey(r, actual)
    ensures forall k :: k != newPath && k != actual ==> Get(r, k) == Get(paths, k)
  {
    var removed := Remove(paths, actual);
    assert Get(removed, actual) == None;
    var r := Put(removed, newPath, cpId);
    assert newPath != actual ==> Get(r, actual) == Get(removed, actual);
    r
  }

  /** The body of `update_config`'s `try`, once the path is resolved: the
      stored id is supplied when the data has none, and the path entry moves
      to `config_group/basename` when that differs, still naming the OLD id. */
  function Replace(reg: Registry, actual: string, cpId: string, data: Dict<string, Json>)
    : (r: Result<(Registry, PoolConfig), ConfigError>)
    ensures r.Success? ==>
              var (reg', c) := r.value;
              var newPath := Text.PathJoin(c.configGroup, Text.Basename(actual));
              && (!HasKey(data, "cp_id") ==> c.cpId == cpId)
              && (HasKey(data, "cp_id") ==> Get(data, "cp_id") == Some(JStr(c.cpId)))
              && reg'.configs == Put(reg.configs, c.cpId, c)
              && reg'.paths == (if newPath != actual then MovePath(reg.paths, actual, newPath, cpId)
                                else reg.paths)
  {
    var full := if HasKey(data, "cp_id") then data else Put(data, "cp_id", JStr(cpId));
    var c :- FromDict(full);
    var newPath := Text.PathJoin(c.configGroup, Text.Basename(actual));
    var paths' := if newPath != actual then MovePath(reg.paths, actual, newPath, cpId) else reg.paths;
    Success((Registry(Put(reg.configs, c.cpId, c), paths'), c))
  }

  /** `update_config`: resolution failures are `KeyError`s; everything after
      is wrapped as `RuntimeError`. A changed group moves the path entry; the
      id is kept when the data supplies none. */
  function UpdateConfig(reg: Registry, filePath: string, data: Dict<string, Json>)
    : (r: Result<(Registry, PoolConfig), ConfigError>)
    ensures Resolve(reg, filePath).Failure? ==> r == Failure(NotFound(filePath))
    ensures Resolve(reg, filePath).Success? && r.Failure? ==> r.error.Runtime?
    ensures r.Success? ==>
              var (actual, cpId) := Resolve(reg, filePath).value;
              var (reg', c) := r.value;
              var newPath := Text.PathJoin(c.configGroup, Text.Basename(actual));
              && (!HasKey(data, "cp_id") ==> c.cpId == cpId)
              && Get(reg'.configs, c.cpId) == Some(c)
              && (newPath != actual ==> Get(reg'.paths, newPath) == Some(cpId) && !HasKey(reg'.paths, actual))
              && (newPath == actual ==> reg'.paths == reg.paths)
  {
    var (actual, cpId) :- Resolve(reg, filePath);
    match Replace(reg, actual, cpId, data)
    case Failure(e) => Failure(Runtime(e))
    case Success(x) => Success(x)
  }

  /** `update_config` keeps the registry valid. */
  lemma UpdateConfigValid(reg: Registry, filePath: string, data: Dict<string, Json>)
    requires Valid(reg)
    requires UpdateConfig(reg, filePath, data).Success?
    ensures Valid(UpdateConfig(reg, filePath, data).value.0)
  {
    var (actual, cpId) := Resolve(reg, filePath).value;
    var (reg', c) := Replace(reg, actual, cpId, data).value;
    var stored := reg.(configs := Put(reg.configs, c.cpId, c));
    StoreValid(reg, c);
    var newPath := Text.PathJoin(c.configGroup, Text.Basename(actual));
    if newPath != actual {
      MovePathValid(stored, actual, cpId, newPath);
    }
  }

  /** Moving the path entry of `cpId` to a new key keeps the registry valid. */
  lemma MovePathValid(reg: Registry, actual: string, cpId: string, newPath: string)
    requires Valid(reg)
    requires (actual, cpId) in reg.paths
    ensures Valid(reg.(paths := Put(Remove(reg.paths, actual), newPath, cpId)))
  {
    var removed := Remove(reg.paths, actual);
    RemoveKeepsNoDup(reg.paths, actual);
    var mid := reg.(paths := removed);
    assert PathsResolve(removed, reg.configs) by {
      forall p | p in removed ensures HasKey(reg.configs, p.1) {
        assert p in reg.paths;
      }
    }
    assert PathsInjective(removed) by {
      forall p, q | p in removed && q in removed && p.1 == q.1 ensures p.0 == q.0 {
        assert p in reg.paths && q in reg.paths;
      }
    }
    assert HasKey(reg.configs, cpId);
    forall p | p in removed ensures p.1 != cpId {
      assert p in reg.paths && p.0 != actual;
    }
    NewPathValid(mid, newPath, cpId);
  }

  // ----- update_config_property -----

  /** The configuration `update_config_property` rebuilds: the dotted path is
      walked over `asdict(c)`, the last key assigned, and the dictionary passed
      back through `from_dict`. A bad path is the `ValueError`; a failure to
      rebuild is wrapped as `RuntimeError`. */
  function SetProperty(c: PoolConfig, propertyPath: string, value: Json): (r: Result<PoolConfig, ConfigError>)
    ensures r.Failure? ==> r.error.BadPropertyPath? || r.error.Runtime?
  {
    var d :- SetPath(AsDict(c), Text.Split(propertyPath, '.'), value, propertyPath);
    match FromDict(d)
    case Failure(e) => Failure(Runtime(e))
    case Success(u) => Success(u)
  }

  /** `update_config_property`: a missing configuration (`KeyError`) and a bad
      path (`ValueError`) are re-raised as they are; the rebuilt configuration
      is stored under its own id and the path map is untouched. */
  function UpdateConfigProperty(reg: Registry, filePath: string, propertyPath: string, value: Json)
    : (r: Result<(Registry, PoolConfig), ConfigError>)
    ensures Resolve(reg, filePath).Failure? ==> r == Failure(NotFound(filePath))
    ensures r.Failure? ==> r.error.NotFound? || r.error.BadPropertyPath? || r.error.Runtime?
    ensures r.Success? ==>
              && Target(reg, filePath).Some?
              && SetProperty(Target(reg, filePath).value, propertyPath, value) == Success(r.value.1)
              && r.value.0 == Registry(Put(reg.configs, r.value.1.cpId, r.value.1), reg.paths)
  {
    var (actual, cpId) :- Resolve(reg, filePath);
    if !HasKey(reg.configs, cpId) then Failure(NotFound(cpId))
    else
      var u :- SetProperty(Get(reg.configs, cpId).value, propertyPath, value);
      Success((Registry(Put(reg.configs, u.cpId, u), reg.paths), u))
  }

  /** The stored configuration an identifier resolves to, when there is one. */
  function Target(reg: Registry, filePath: string): (r: Option<PoolConfig>)
    ensures r.Some? ==> Resolve(reg, filePath).Success?
                        && Get(reg.configs, Resolve(reg, filePath).value.1) == Some(r.value)
    ensures r.None? ==> Resolve(reg, filePath).Failure?
                        || !HasKey(reg.configs, Resolve(reg, filePath).value.1)
  {
    match Resolve(reg, filePath)
    case Failure(_) => None
    case Success(found) => Get(reg.configs, found.1)
  }

  /** A property update changes only the field its path starts with: every
      other field comes back unchanged. */
  lemma {:induction false} SetPropertyFrame(c: PoolConfig, propertyPath: string, value: Json)
    requires SetProperty(c, propertyPath, value).Success?
    ensures var u := SetProperty(c, propertyPath, value).value;
            var f := Text.Split(propertyPath, '.')[0];
            && (f != "cp_id" ==> u.cpId == c.cpId)
            && (f != "name" ==> u.name == c.name)
            && (f != "probability_settings" ==> u.probabilitySettings == c.probabilitySettings)
            && (f != "rate_up_item_ids" ==> u.rateUpItemIds == c.rateUpItemIds)
            && (f != "included_item_ids" ==> u.includedItemIds == c.includedItemIds)
            && (f != "probability_progression" ==> u.probabilityProgression == c.probabilityProgression)
            && (f != "config_group" ==> u.configGroup == c.configGroup)
            && (f != "enable" ==> u.enable == c.enable)
  {
    var keys := Text.Split(propertyPath, '.');
    var f := keys[0];
    var d := SetPath(AsDict(c), keys, value, propertyPath).value;
    var u := FromDict(d).value;
    AsDictFields(c);
    FrameFacts(c, AsDict(c), d, f);
    FrameScalars(c, d, u, f);
    FrameTables(c, d, u, f);
  }

  /** The fields of `c` that an update of field `f` leaves in its dictionary. */
  lemma FrameFacts(c: PoolConfig, a: Dict<string, Json>, d: Dict<string, Json>, f: string)
    requires forall k :: k != f ==> Get(d, k) == Get(a, k)
    requires Get(a, "cp_id") == Some(JStr(c.cpId))
    requires Get(a, "name") == Some(JStr(c.name))
    requires Get(a, "probability_settings") == Some(c.probabilitySettings)
    requires Get(a, "rate_up_item_ids") == Some(JObj(IdListsToJson(c.rateUpItemIds)))
    requires Get(a, "included_item_ids") == Some(JObj(IdListsToJson(c.includedItemIds)))
    requires Get(a, "probability_progression") == Some(c.probabilityProgression)
    requires Get(a, "config_group") == Some(JStr(c.configGroup))
    requires Get(a, "enable") == Some(JBool(c.enable))
    ensures f != "cp_id" ==> Get(d, "cp_id") == Some(JStr(c.cpId))
    ensures f != "name" ==> Get(d, "name") == Some(JStr(c.name))
    ensures f != "probability_settings" ==> Get(d, "probability_settings") == Some(c.probabilitySettings)
    ensures f != "rate_up_item_ids" ==> Get(d, "rate_up_item_ids") == Some(JObj(IdListsToJson(c.rateUpItemIds)))
    ensures f != "included_item_ids" ==>
              Get(d, "included_item_ids") == Some(JObj(IdListsToJson(c.includedItemIds)))
    ensures f != "probability_progression" ==>
              Get(d, "probability_progression") == Some(c.probabilityProgression)
    ensures f != "config_group" ==> Get(d, "config_group") == Some(JStr(c.configGroup))
    ensures f != "enable" ==> Get(d, "enable") == Some(JBool(c.enable))
  {
  }

  lemma FrameScalars(c: PoolConfig, d: Dict<string, Json>, u: PoolConfig, f: string)
    requires FromDict(d) == Success(u)
    requires f != "cp_id" ==> Get(d, "cp_id") == Some(JStr(c.cpId))
    requires f != "name" ==> Get(d, "name") == Some(JStr(c.name))
    requires f != "probability_settings" ==> Get(d, "probability_settings") == Some(c.probabilitySettings)
    requires f != "probability_progression" ==>
               Get(d, "probability_progression") == Some(c.probabilityProgression)
    requires f != "config_group" ==> Get(d, "config_group") == Some(JStr(c.configGroup))
    requires f != "enable" ==> Get(d, "enable") == Some(JBool(c.enable))
    ensures f != "cp_id" ==> u.cpId == c.cpId
    ensures f != "name" ==> u.name == c.name
    ensures f != "probability_settings" ==> u.probabilitySettings == c.probabilitySettings
    ensures f != "probability_progression" ==> u.probabilityProgression == c.probabilityProgression
    ensures f != "config_group" ==> u.configGroup == c.configGroup
    ensures f != "enable" ==> u.enable == c.enable
  {
  }

  lemma FrameTables(c: PoolConfig, d: Dict<string, Json>, u: PoolConfig, f: string)
    requires FromDict(d) == Success(u)
    requires f != "rate_up_item_ids" ==>
               Get(d, "rate_up_item_ids") == Some(JObj(IdListsToJson(c.rateUpItemIds)))
    requires f != "included_item_ids" ==>
               Get(d, "included_item_ids") == Some(JObj(IdListsToJson(c.includedItemIds)))
    ensures f != "rate_up_item_ids" ==> u.rateUpItemIds == c.rateUpItemIds
    ensures f != "included_item_ids" ==> u.includedItemIds == c.includedItemIds
  {
    if f != "rate_up_item_ids" {
      IdListUnchanged(d, "rate_up_item_ids", c.rateUpItemIds, u.rateUpItemIds);
    }
    if f != "included_item_ids" {
      IdListUnchanged(d, "included_item_ids", c.includedItemIds, u.includedItemIds);
    }
  }

  /** An id-list field still holding the serialised form of `l` parses back to `l`. */
  lemma IdListUnchanged(d: Dict<string, Json>, field: string, l: IdLists, parsed: IdLists)
    requires Get(d, field) == Some(JObj(IdListsToJson(l)))
    requires IdListsField(Get(d, field).value) == Some(parsed)
    ensures parsed == l
  {
    ParseIdListsRoundTrip(l);
  }

  /** A path that starts outside the eight declared fields is dropped by
      `from_dict`: the configuration comes back unchanged. */
  lemma SetPropertyUnknownField(c: PoolConfig, propertyPath: string, value: Json)
    requires SetProperty(c, propertyPath, value).Success?
    requires Text.Split(propertyPath, '.')[0] !in ValidFields
    ensures SetProperty(c, propertyPath, value) == Success(c)
  {
    var keys := Text.Split(propertyPath, '.');
    var d := SetPath(AsDict(c), keys, value, propertyPath).value;
    assert SameDeclaredFields(d, AsDict(c)) by {
      forall f | f in ValidFields ensures Get(d, f) == Get(AsDict(c), f) {
        assert f != keys[0];
      }
    }
    FromDictReadsDeclaredFields(d, AsDict(c));
    FromDictAsDict(c);
  }

  /** The walk fails with `ValueError` exactly when the path without its last
      key does not lead to a dictionary inside `asdict(c)`. */
  lemma SetPropertyBadPath(c: PoolConfig, propertyPath: string, value: Json)
    ensures var r := SetProperty(c, propertyPath, value);
            var keys := Text.Split(propertyPath, '.');
            var p := GetPath(JObj(AsDict(c)), keys[..|keys| - 1]);
            (r.Failure? && r.error.BadPropertyPath?) <==> !(p.Some? && p.value.JObj?)
  {
    var keys := Text.Split(propertyPath, '.');
    var d := AsDict(c);
    SetPathSucceedsIff(d, keys, value, propertyPath);
    var walked := SetPath(d, keys, value, propertyPath);
    if walked.Failure? {
      assert SetProperty(c, propertyPath, value) == Failure(walked.error);
    } else {
      var r := SetProperty(c, propertyPath, value);
      assert r.Failure? ==> r.error.Runtime?;
    }
  }

  /** `update_config_property` keeps the registry valid. */
  lemma UpdateConfigPropertyValid(reg: Registry, filePath: string, propertyPath: string, value: Json)
    requires Valid(reg)
    requires UpdateConfigProperty(reg, filePath, propertyPath, value).Success?
    ensures Valid(UpdateConfigProperty(reg, filePath, propertyPath, value).value.0)
  {
    StoreValid(reg, UpdateConfigProperty(reg, filePath, propertyPath, value).value.1);
  }

  // ----- set_config_enable -----

  /** `asdict`, one field reassigned, `from_dict`: the same configuration with
      only `enable` changed. */
  lemma EnableRoundTrip(c: PoolConfig, enable: bool)
    ensures FromDict(Put(AsDict(c), "enable", JBool(enable))) == Success(c.(enable := enable))
  {
    var d := Put(AsDict(c), "enable", JBool(enable));
    var c' := c.(enable := enable);
    AsDictFields(c);
    AsDictFields(c');
    assert SameDeclaredFields(d, AsDict(c'));
    FromDictReadsDeclaredFields(d, AsDict(c'));
    FromDictAsDict(c');
  }

  /** `set_config_enable`: only a missing configuration can make it fail, and
      the stored configuration changes in `enable` alone. */
  function SetConfigEnable(reg: Registry, filePath: string, enable: bool)
    : (r: Result<(Registry, PoolConfig), ConfigError>)
    ensures r.Success? <==> Target(reg, filePath).Some?
    ensures r.Failure? ==> r.error.NotFound?
    ensures r.Success? ==>
              && r.value.1 == Target(reg, filePath).value.(enable := enable)
              && r.value.0.configs == Put(reg.configs, r.value.1.cpId, r.value.1)
              && r.value.0.paths == reg.paths
  {
    var (actual, cpId) :- Resolve(reg, filePath);
    if !HasKey(reg.configs, cpId) then Failure(NotFound(cpId))
    else
      var c := Get(reg.configs, cpId).value;
      EnableRoundTrip(c, enable);
      match FromDict(Put(AsDict(c), "enable", JBool(enable)))
      case Failure(e) => Failure(Runtime(e))
      case Success(u) => Success((Registry(Put(reg.configs, u.cpId, u), reg.paths), u))
  }

  /** After `configs[c.cp_id] = c`, `c` is among the enabled configurations
      exactly when it is enabled. */
  lemma EnabledAfterPut(configs: Dict<string, PoolConfig>, c: PoolConfig)
    requires NoDupKeys(configs)
    ensures HasKey(GetEnabledConfigs(Put(configs, c.cpId, c)), c.cpId) == c.enable
  {
    var configs' := Put(configs, c.cpId, c);
    PutMembers(configs, c.cpId, c);
    var en := GetEnabledConfigs(configs');
    HasKeyIff(en, c.cpId);
    if c.enable {
      assert (c.cpId, c) in en;
    }
    if HasKey(en, c.cpId) {
      var i :| 0 <= i < |en| && en[i].0 == c.cpId;
      assert en[i] in configs';
    }
  }

  /** After enabling, the pool is among the enabled configurations; after
      disabling, it is not. */
  lemma SetConfigEnableListed(reg: Registry, filePath: string, enable: bool)
    requires Valid(reg)
    requires SetConfigEnable(reg, filePath, enable).Success?
    ensures var (reg', c) := SetConfigEnable(reg, filePath, enable).value;
            HasKey(GetEnabledConfigs(reg'.configs), c.cpId) == enable
    ensures Valid(SetConfigEnable(reg, filePath, enable).value.0)
  {
    var (reg', c) := SetConfigEnable(reg, filePath, enable).value;
    StoreValid(reg, c);
    EnabledAfterPut(reg.configs, c);
  }

  // ----- delete_config -----

  /** `delete_config`: both bindings removed; a missing configuration after a
      successful resolution is a `KeyError` wrapped as `RuntimeError`. */
  function DeleteConfig(reg: Registry, filePath: string): (r: Result<Registry, ConfigError>)
    ensures Resolve(reg, filePath).Failure? ==> r == Failure(NotFound(filePath))
    ensures r.Success? <==> Target(reg, filePath).Some?
    ensures r.Success? ==>
              var (actual, cpId) := Resolve(reg, filePath).value;
              && !HasKey(r.value.configs, cpId) && !HasKey(r.value.paths, actual)
              && (forall k :: k != cpId ==> Get(r.value.configs, k) == Get(reg.configs, k))
              && (forall k :: k != actual ==> Get(r.value.paths, k) == Get(reg.paths, k))
  {
    var (actual, cpId) :- Resolve(reg, filePath);
    if !HasKey(reg.configs, cpId) then Failure(Runtime(NotFound(cpId)))
    else Success(Registry(Remove(reg.configs, cpId), Remove(reg.paths, actual)))
  }

  /** Deletion keeps the registry valid, and the pool can no longer be found
      by its id (unless that id also happens to be a stored path). */
  lemma DeleteConfigValid(reg: Registry, filePath: string)
    requires Valid(reg)
    requires DeleteConfig(reg, filePath).Success?
    ensures Valid(DeleteConfig(reg, filePath).value)
    ensures var reg', cpId := DeleteConfig(reg, filePath).value, Resolve(reg, filePath).value.1;
            !HasKey(reg'.paths, cpId) ==> GetConfig(reg', cpId).Failure?
  {
    var (actual, cpId) := Resolve(reg, filePath).value;
    var reg' := DeleteConfig(reg, filePath).value;
    RemoveKeepsNoDup(reg.configs, cpId);
    RemoveKeepsNoDup(reg.paths, actual);
    assert KeyedById(reg'.configs) by {
      forall p | p in reg'.configs ensures p.0 == p.1.cpId {
        assert p in reg.configs;
      }
    }
    assert PathsResolve(reg'.paths, reg'.configs) by {
      forall p | p in reg'.paths ensures HasKey(reg'.configs, p.1) {
        assert p in reg.paths && p.0 != actual;
        assert p.1 != cpId;
        assert Get(reg'.configs, p.1) == Get(reg.configs, p.1);
      }
    }
    assert PathsInjective(reg'.paths) by {
      forall p, q | p in reg'.paths && q in reg'.paths && p.1 == q.1 ensures p.0 == q.0 {
        assert p in reg.paths && q in reg.paths;
      }
    }
  }

  /** A registry holding one pool file, `default/x`. */
  const OnePool := Registry(
    [("id1", PoolConfig("id1", "a", JObj([]), [], [], JObj([]), "default", true))],
    [("default/x", "id1")])

  /** A second pool, `id2`, in the same group. */
  const SecondPool := PoolConfig("id2", "b", JObj([]), [], [], JObj([]), "default", true)

  lemma OnePoolValid()
    ensures Valid(OnePool)
  {
  }

  /** Registering the second pool for file "x" binds `default/x` to `id2`. */
  lemma InsertSecondPool(md5: Digest.Hasher)
    ensures Insert(OnePool, md5, "x", AsDict(SecondPool))
         == Success((Registry(Put(OnePool.configs, "id2", SecondPool),
                              Put(OnePool.paths, "default/x", "id2")), SecondPool))
  {
    var d := AsDict(SecondPool);
    FromDictAsDict(SecondPool);
    AsDictFields(SecondPool);
    assert WithCpId(md5, "x", d) == Success(d);
    OnePoolFacts();
  }

  /** The keys `OnePool` does and does not hold, and the path file "x" of
      the default group is stored under. */
  lemma OnePoolFacts()
    ensures !HasKey(OnePool.configs, "id2")
    ensures HasKey(OnePool.paths, "default/x") && !HasKey(OnePool.paths, "x")
    ensures Text.PathJoin("default", "x") == "default/x"
  {
    assert "id1" != "id2" by { assert "id1"[2] != "id2"[2]; }
    assert "default/x" != "x" by { assert |"default/x"| != |"x"|; }
    assert "default"[|"default"| - 1] == 't';
    assert "default" + "/" + "x" == "default/x";
  }

  /** As written, adding file "x" again passes the already-known check and
      silently rebinds `default/x` to the new pool, leaving `id1` without a
      file. */
  lemma AddConfigRebindsPath(md5: Digest.Hasher)
    ensures Valid(OnePool)
    ensures Get(OnePool.paths, "default/x") == Some("id1")
    ensures AddConfigAsWritten(OnePool, md5, "x", AsDict(SecondPool)).Success?
    ensures Get(AddConfigAsWritten(OnePool, md5, "x", AsDict(SecondPool)).value.0.paths, "default/x")
         == Some("id2")
  {
    OnePoolValid();
    InsertSecondPool(md5);
    OnePoolFacts();
  }

  /** The corrected check refuses the same call. */
  lemma AddConfigRefusesKnownPath(md5: Digest.Hasher)
    ensures AddConfig(OnePool, md5, "x", AsDict(SecondPool)) == Failure(PathExists("default/x"))
  {
    InsertSecondPool(md5);
    OnePoolFacts();
  }
}

=== FILE: selection.dfy ===
/** Which item a draw hands out once its rarity is decided: the pool's item
    set, its rarity and rate-up buckets, and the fallback search of
    `_get_item_with_fallback` in `gacha_mechanics.py`.

    `random.choice(candidates)` is modelled by a sample `choice` and the pick
    `candidates[choice % |candidates|]`. */
module Selection {
  import opened Wrappers
  import opened Dict
  import opened Items
  import opened Rates

  datatype Tier = Five | Four | Three

  /** The rarity string a tier stands for. */
  function RarityName(t: Tier): string {
    match t
    case Five => "5star"
    case Four => "4star"
    case Three => "3star"
  }

  /** The rarities a tier can fall back to, as `execute_pull` lists them. */
  function FallbackPath(t: Tier): seq<Tier> {
    match t
    case Five => [Four, Three]
    case Four => [Three, Five]
    case Three => [Four, Five]
  }

  // ----- the pool -----

  /** Every id of the `included_item_ids` groups, group by group. */
  function IncludedIds(included: Dict<string, seq<string>>): (r: seq<string>)
    ensures forall id :: id in r <==> exists i :: 0 <= i < |included| && id in included[i].1
  {
    if |included| == 0 then []
    else
      var rest := IncludedIds(included[1..]);
      assert forall i :: 0 <= i < |included[1..]| ==> included[1..][i] == included[i + 1];
      assert forall id :: (exists i :: 0 <= i < |included| && id in included[i].1)
                          ==> id in included[0].1 || exists i :: 0 <= i < |included[1..]| && id in included[1..][i].1 by {
        forall id | exists i :: 0 <= i < |included| && id in included[i].1
          ensures id in included[0].1 || exists i :: 0 <= i < |included[1..]| && id in included[1..][i].1
        {
          var i :| 0 <= i < |included| && id in included[i].1;
          if i > 0 {
            assert id in included[1..][i - 1].1;
          }
        }
      }
      included[0].1 + rest
  }

  /** The filtering loop: each id the catalogue knows is stored under its id,
      a repeated id keeping its first position. */
  function AddKnown(acc: Dict<string, Item>, ids: seq<string>, objects: Dict<string, Item>)
    : (r: Dict<string, Item>)
    decreases |ids|
    requires NoDupKeys(acc)
    ensures NoDupKeys(r)
    ensures forall k :: HasKey(r, k) <==> HasKey(acc, k) || (k in ids && HasKey(objects, k))
    ensures forall k :: k !in ids ==> Get(r, k) == Get(acc, k)
    ensures forall k :: k in ids && HasKey(objects, k) ==> Get(r, k) == Get(objects, k)
  {
    if |ids| == 0 then acc
    else
      var id := ids[0];
      var acc' := if HasKey(objects, id) then Put(acc, id, Get(objects, id).value) else acc;
      assert NoDupKeys(acc') by {
        if HasKey(objects, id) {
          PutKeepsNoDup(acc, id, Get(objects, id).value);
        }
      }
      assert forall k :: k in ids <==> k == id || k in ids[1..] by {
        assert ids == [id] + ids[1..];
      }
      var r := AddKnown(acc', ids[1..], objects);
      assert forall k :: k != id ==> Get(acc', k) == Get(acc, k) && (HasKey(acc', k) <==> HasKey(acc, k));
      assert HasKey(acc', id) <==> HasKey(acc, id) || HasKey(objects, id);
      assert forall k :: k in ids && HasKey(objects, k) ==> Get(r, k) == Get(objects, k) by {
        forall k | k in ids && HasKey(objects, k) ensures Get(r, k) == Get(objects, k) {
          if k !in ids[1..] {
            assert k == id;
            assert Get(acc', k) == Get(objects, k);
          }
        }
      }
      r
  }

  /** The pool's items by id: the included ids the catalogue knows. */
  function PoolItems(included: Dict<string, seq<string>>, objects: Dict<string, Item>)
    : (r: Dict<string, Item>)
    ensures NoDupKeys(r)
    ensures forall k :: HasKey(r, k) <==> k in IncludedIds(included) && HasKey(objects, k)
    ensures forall k :: HasKey(r, k) ==> Get(r, k) == Get(objects, k)
  {
    AddKnown([], IncludedIds(included), objects)
  }

  /** The items a draw chooses among, with the rate-up ids of the two upper
      rarities. */
  datatype Pool = Pool(items: seq<Item>, upIds5: seq<string>, upIds4: seq<string>)

  // ----- buckets -----

  /** `[item for item in items if item.rarity == rarity]`. */
  function OfRarity(items: seq<Item>, rarity: string): (r: seq<Item>)
    ensures forall x :: x in r <==> x in items && x.rarity == rarity
    ensures |r| <= |items|
  {
    if |items| == 0 then []
    else (if items[0].rarity == rarity then [items[0]] else []) + OfRarity(items[1..], rarity)
  }

  /** `[item for item in items if item.external_id in ids]`. */
  function WithIds(items: seq<Item>, ids: seq<string>): (r: seq<Item>)
    ensures forall x :: x in r <==> x in items && x.externalId in ids
  {
    if |items| == 0 then []
    else (if items[0].externalId in ids then [items[0]] else []) + WithIds(items[1..], ids)
  }

  /** `_filter_up_items`: `[item for item in items if item.external_id not in
      up_ids]`, the items that are not rate-up. The draw builds its buckets
      inline and never calls it. */
  function WithoutIds(items: seq<Item>, ids: seq<string>): (r: seq<Item>)
    ensures forall x :: x in r <==> x in items && x.externalId !in ids
  {
    if |items| == 0 then []
    else (if items[0].externalId !in ids then [items[0]] else []) + WithoutIds(items[1..], ids)
  }

  /** The rate-up filter and `_filter_up_items` split a list between them:
      every occurrence lands in exactly one of the two. */
  lemma {:induction false} UpSplit(items: seq<Item>, ids: seq<string>)
    ensures multiset(WithIds(items, ids)) + multiset(WithoutIds(items, ids)) == multiset(items)
    ensures |WithIds(items, ids)| + |WithoutIds(items, ids)| == |items|
  {
    if |items| > 0 {
      UpSplit(items[1..], ids);
      assert items == [items[0]] + items[1..];
    }
  }

  /** `[item for item in items if item.type == t]`. */
  function OfType(items: seq<Item>, t: string): (r: seq<Item>)
    ensures forall x :: x in r <==> x in items && x.itemType == t
  {
    if |items| == 0 then []
    else (if items[0].itemType == t then [items[0]] else []) + OfType(items[1..], t)
  }

  /** The rate-up ids of a tier; 3-star has no rate-up bucket. */
  function UpIds(pool: Pool, t: Tier): seq<string> {
    match t
    case Five => pool.upIds5
    case Four => pool.upIds4
    case Three => []
  }

  /** One bucket: every item of the tier's rarity, or only its rate-up items. */
  function Bucket(pool: Pool, t: Tier, up: bool): (r: seq<Item>)
    ensures forall x :: x in r <==> x in pool.items && x.rarity == RarityName(t)
                                    && (up ==> t != Three && x.externalId in UpIds(pool, t))
  {
    if !up then OfRarity(pool.items, RarityName(t))
    else if t == Three then []
    else WithIds(OfRarity(pool.items, RarityName(t)), UpIds(pool, t))
  }

  /** The optional type filter, ignored when it would leave nothing. */
  function TypeFilter(cands: seq<Item>, itemType: Option<string>): (r: seq<Item>)
    ensures |r| == 0 <==> |cands| == 0
    ensures forall x :: x in r ==> x in cands
    ensures itemType.Some? && (exists x :: x in cands && x.itemType == itemType.value) ==>
              forall x :: x in r ==> x.itemType == itemType.value
  {
    match itemType
    case None => cands
    case Some(t) =>
      var filtered := OfType(cands, t);
      if |filtered| > 0 then filtered
      else
        assert forall x :: x in cands ==> x.itemType != t;
        cands
  }

  // ----- the fallback search -----

  /** `(rarity, f(alse)), (rarity, t(rue))` for every fallback rarity. */
  function FallbackPairs(path: seq<Tier>): (r: seq<(Tier, bool)>)
    ensures |r| == 2 * |path|
    ensures forall i :: 0 <= i < |path| ==> r[2 * i] == (path[i], false) && r[2 * i + 1] == (path[i], true)
  {
    if |path| == 0 then [] else [(path[0], false), (path[0], true)] + FallbackPairs(path[1..])
  }

  /** The order the buckets are tried in: the requested one, the other one of
      the same rarity, then both buckets of each fallback rarity, plain first. */
  function PriorityList(base: Tier, isUp: bool, path: seq<Tier>): (r: seq<(Tier, bool)>)
    ensures |r| == 2 + 2 * |path|
    ensures r[0] == (base, isUp) && r[1] == (base, !isUp)
    ensures forall i :: 0 <= i < |path| ==> r[2 + 2 * i] == (path[i], false) && r[3 + 2 * i] == (path[i], true)
  {
    [(base, isUp), (base, !isUp)] + FallbackPairs(path)
  }

  /** The candidates one priority entry offers. */
  function Offer(pool: Pool, p: (Tier, bool), itemType: Option<string>): seq<Item> {
    TypeFilter(Bucket(pool, p.0, p.1), itemType)
  }

  /** The position of the first non-empty offer from position `i` on, or
      the list's length when there is none. */
  function FirstNonEmpty(pool: Pool, ps: seq<(Tier, bool)>, itemType: Option<string>, i: nat): (k: nat)
    requires i <= |ps|
    ensures i <= k <= |ps|
    ensures forall j :: i <= j < k ==> |Offer(pool, ps[j], itemType)| == 0
    ensures k < |ps| ==> |Offer(pool, ps[k], itemType)| > 0
    decreases |ps| - i
  {
    if i == |ps| then i
    else if |Offer(pool, ps[i], itemType)| > 0 then i
    else FirstNonEmpty(pool, ps, itemType, i + 1)
  }

  /** The priority loop: the choice among the first non-empty offer. */
  function FirstOffer(pool: Pool, ps: seq<(Tier, bool)>, itemType: Option<string>, choice: nat)
    : (r: Option<Item>)
    ensures r.None? <==> forall i :: 0 <= i < |ps| ==> |Offer(pool, ps[i], itemType)| == 0
    ensures r.Some? ==>
              var k := FirstNonEmpty(pool, ps, itemType, 0);
              k < |ps| && r.value == Offer(pool, ps[k], itemType)[choice % |Offer(pool, ps[k], itemType)|]
  {
    var k := FirstNonEmpty(pool, ps, itemType, 0);
    if k < |ps| then
      var cands := Offer(pool, ps[k], itemType);
      Some(cands[choice % |cands|])
    else None
  }

  /** Every item of the last-resort union: the three rarity lists then the
      two rate-up lists, de-duplicated by external id (first position kept,
      last item stored). */
  function UnionItems(pool: Pool): (r: Dict<string, Item>)
  {
    var all := OfRarity(pool.items, "5star") + OfRarity(pool.items, "4star") + OfRarity(pool.items, "3star")
             + Bucket(pool, Five, true) + Bucket(pool, Four, true);
    ByExternalId([], all)
  }

  /** `{item.external_id: item for item in items}`, extending `acc`. */
  function ByExternalId(acc: Dict<string, Item>, items: seq<Item>): (r: Dict<string, Item>)
    ensures |r| == 0 <==> |acc| == 0 && |items| == 0
    ensures forall p :: p in r ==> p in acc || p.1 in items
    decreases |items|
  {
    if |items| == 0 then acc
    else
      var x := items[0];
      var acc' := Put(acc, x.externalId, x);
      assert |acc'| > 0 by { assert HasKey(acc', x.externalId); }
      assert forall p :: p in acc' ==> p in acc || p.1 == x by {
        forall p | p in acc' ensures p in acc || p.1 == x {
          PutFrom(acc, x.externalId, x, p);
        }
      }
      ByExternalId(acc', items[1..])
  }

  /** A pair of an assignment's result is the new pair or an old one. */
  lemma {:induction false} PutFrom<K(!new), V>(d: Dict<K, V>, k: K, v: V, p: (K, V))
    requires p in Put(d, k, v)
    ensures p in d || p == (k, v)
  {
    if |d| > 0 && d[0].0 != k {
      assert Put(d, k, v) == [d[0]] + Put(d[1..], k, v);
      if p != d[0] {
        PutFrom(d[1..], k, v, p);
      }
    } else if |d| > 0 {
      assert Put(d, k, v) == [(k, v)] + d[1..];
    }
  }

  /** `_get_item_with_fallback`: the first non-empty offer in priority order,
      else a choice from the union of all buckets, else `ValueError`. */
  function Select(pool: Pool, base: Tier, isUp: bool, itemType: Option<string>, choice: nat)
    : (r: Result<Item, DrawError>)
    ensures r.Failure? ==> r.error == NoItems
    ensures r.Success? ==> r.value in pool.items
  {
    match FirstOffer(pool, PriorityList(base, isUp, FallbackPath(base)), itemType, choice)
    case Some(it) => Success(it)
    case None =>
      var all := Values(UnionItems(pool));
      if |all| == 0 then Failure(NoItems)
      else
        var it := all[choice % |all|];
        assert it in pool.items by {
          var all' := OfRarity(pool.items, "5star") + OfRarity(pool.items, "4star") + OfRarity(pool.items, "3star")
                    + Bucket(pool, Five, true) + Bucket(pool, Four, true);
          assert (UnionItems(pool)[choice % |all|].0, it) in UnionItems(pool);
        }
        Success(it)
  }

  /** A star rarity: the ones the three plain buckets collect. */
  predicate Starred(x: Item) {
    x.rarity == "5star" || x.rarity == "4star" || x.rarity == "3star"
  }

  /** Every base rarity's priority list tries the plain bucket of all three
      rarities. */
  lemma PriorityCoversPlainBuckets(base: Tier, isUp: bool, t: Tier)
    ensures exists i :: 0 <= i < |PriorityList(base, isUp, FallbackPath(base))|
                        && PriorityList(base, isUp, FallbackPath(base))[i] == (t, false)
  {
    var ps := PriorityList(base, isUp, FallbackPath(base));
    var path := FallbackPath(base);
    if t == base {
      if isUp { assert ps[1] == (t, false); } else { assert ps[0] == (t, false); }
    } else if t == path[0] {
      assert ps[2] == (t, false);
    } else {
      assert t == path[1];
      assert ps[4] == (t, false);
    }
  }

  /** The priority loop finds an item whenever the pool holds a starred one:
      the union fallback after it can never be reached. */
  lemma UnionFallbackUnreachable(pool: Pool, base: Tier, isUp: bool, itemType: Option<string>, choice: nat)
    requires exists x :: x in pool.items && Starred(x)
    ensures FirstOffer(pool, PriorityList(base, isUp, FallbackPath(base)), itemType, choice).Some?
  {
    var x :| x in pool.items && Starred(x);
    var t := if x.rarity == "5star" then Five else if x.rarity == "4star" then Four else Three;
    PriorityCoversPlainBuckets(base, isUp, t);
    var ps := PriorityList(base, isUp, FallbackPath(base));
    var i :| 0 <= i < |ps| && ps[i] == (t, false);
    assert x in Bucket(pool, t, false);
  }

  /** A non-empty sequence has its first element as a member. */
  lemma FirstIsMember<T>(s: seq<T>)
    requires |s| > 0
    ensures s[0] in s
  {
  }

  /** Without a starred item every bucket is empty. */
  lemma NoStarredEmptyBuckets(pool: Pool, t: Tier, up: bool)
    requires forall x :: x in pool.items ==> !Starred(x)
    ensures |Bucket(pool, t, up)| == 0
  {
    var b := Bucket(pool, t, up);
    if |b| > 0 {
      FirstIsMember(b);
    }
  }

  /** Without a starred item the last-resort union is empty too. */
  lemma NoStarredEmptyUnion(pool: Pool)
    requires forall x :: x in pool.items ==> !Starred(x)
    ensures |UnionItems(pool)| == 0
  {
    NoStarredEmptyBuckets(pool, Five, false);
    NoStarredEmptyBuckets(pool, Four, false);
    NoStarredEmptyBuckets(pool, Three, false);
    NoStarredEmptyBuckets(pool, Five, true);
    NoStarredEmptyBuckets(pool, Four, true);
  }

  /** A draw finds an item exactly when the pool holds a starred item. */
  lemma SelectSucceedsIff(pool: Pool, base: Tier, isUp: bool, itemType: Option<string>, choice: nat)
    ensures Select(pool, base, isUp, itemType, choice).Success? <==> exists x :: x in pool.items && Starred(x)
  {
    if exists x :: x in pool.items && Starred(x) {
      UnionFallbackUnreachable(pool, base, isUp, itemType, choice);
    } else {
      var ps := PriorityList(base, isUp, FallbackPath(base));
      forall i | 0 <= i < |ps| ensures |Offer(pool, ps[i], itemType)| == 0 {
        NoStarredEmptyBuckets(pool, ps[i].0, ps[i].1);
      }
      NoStarredEmptyUnion(pool);
    }
  }

  /** The priority loop stops at the first entry whose bucket is not empty. */
  lemma FirstOfferAt(pool: Pool, ps: seq<(Tier, bool)>, itemType: Option<string>, choice: nat, i: nat)
    requires i < |ps|
    requires |Bucket(pool, ps[i].0, ps[i].1)| > 0
    requires forall j :: 0 <= j < i ==> |Bucket(pool, ps[j].0, ps[j].1)| == 0
    ensures FirstNonEmpty(pool, ps, itemType, 0) == i
    ensures FirstOffer(pool, ps, itemType, choice).Some?
    ensures FirstOffer(pool, ps, itemType, choice).value in Offer(pool, ps[i], itemType)
  {
    var o := Offer(pool, ps[i], itemType);
    assert o[choice % |o|] in o;
  }

  /** The item comes from the first bucket in priority order that has one;
      with a type asked for, it has that type whenever that bucket offers one. */
  lemma SelectFromFirstBucket(pool: Pool, base: Tier, isUp: bool, itemType: Option<string>, choice: nat, i: nat)
    requires i < |PriorityList(base, isUp, FallbackPath(base))|
    requires var ps := PriorityList(base, isUp, FallbackPath(base));
             && |Bucket(pool, ps[i].0, ps[i].1)| > 0
             && forall j :: 0 <= j < i ==> |Bucket(pool, ps[j].0, ps[j].1)| == 0
    ensures var ps := PriorityList(base, isUp, FallbackPath(base));
            var r := Select(pool, base, isUp, itemType, choice);
            var o := Offer(pool, ps[i], itemType);
            && r == Success(o[choice % |o|])
            && r.value in Bucket(pool, ps[i].0, ps[i].1)
            && r.value.rarity == RarityName(ps[i].0)
            && (itemType.Some? && (exists x :: x in Bucket(pool, ps[i].0, ps[i].1) && x.itemType == itemType.value)
                ==> r.value.itemType == itemType.value)
  {
    var ps := PriorityList(base, isUp, FallbackPath(base));
    FirstOfferAt(pool, ps, itemType, choice, i);
  }

  /** `x` is what the catalogue holds under one of the included ids. */
  ghost predicate Included(x: Item, included: Dict<string, seq<string>>, objects: Dict<string, Item>) {
    exists k :: k in IncludedIds(included) && Get(objects, k) == Some(x)
  }

  /** Every value of the pool's item table is the catalogue's item for one
      of the included ids. */
  lemma PoolItemsValues(included: Dict<string, seq<string>>, objects: Dict<string, Item>, x: Item)
    requires x in Values(PoolItems(included, objects))
    ensures Included(x, included, objects)
  {
    var d := PoolItems(included, objects);
    var i :| 0 <= i < |d| && Values(d)[i] == x;
    assert d[i] == (d[i].0, x);
    GetStored(d, d[i].0, x);
    assert d[i].0 in IncludedIds(included) && Get(objects, d[i].0) == Some(x);
  }

  /** The pool a draw works on: the included items the catalogue knows, with
      the rate-up lists of `rate_up_item_ids` (empty when absent). */
  function PoolOf(included: Dict<string, seq<string>>, rateUp: Dict<string, seq<string>>,
                  objects: Dict<string, Item>): (r: Pool)
    ensures forall x :: x in r.items ==> Included(x, included, objects)
    ensures r.upIds5 == Get(rateUp, "5star").GetOr([]) && r.upIds4 == Get(rateUp, "4star").GetOr([])
  {
    var items := Values(PoolItems(included, objects));
    assert forall x :: x in items ==> Included(x, included, objects) by {
      forall x | x in items ensures Included(x, included, objects) {
        PoolItemsValues(included, objects, x);
      }
    }
    Pool(items, Get(rateUp, "5star").GetOr([]), Get(rateUp, "4star").GetOr([]))
  }
}

=== FILE: sorting.dfy ===
/** Python's `sorted(xs, key=k)`: a stable sort by a numeric key. The core
    sorts soft-pity intervals by `start_pull` and the ten-pull result by
    rarity and type; both rely on equal keys keeping their input order. */
module Sorting {

  /** Non-decreasing keys. */
  ghost predicate SortedBy<T>(s: seq<T>, key: T -> real) {
    forall i, j :: 0 <= i < j < |s| ==> key(s[i]) <= key(s[j])
  }

  /** The elements whose key is `k`, in their order in `s`. */
  function WithKey<T>(s: seq<T>, key: T -> real, k: real): (r: seq<T>)
    ensures |r| <= |s|
    ensures forall i :: 0 <= i < |r| ==> key(r[i]) == k
  {
    if |s| == 0 then []
    else if key(s[0]) == k then [s[0]] + WithKey(s[1..], key, k)
    else WithKey(s[1..], key, k)
  }

  /** Place `x` in front of the first element whose key is not smaller. */
  function Insert<T>(x: T, s: seq<T>, key: T -> real): (r: seq<T>)
    requires SortedBy(s, key)
    ensures SortedBy(r, key)
    ensures |r| == |s| + 1
    ensures multiset(r) == multiset(s) + multiset{x}
    ensures r[0] == x || (|s| > 0 && r[0] == s[0])
  {
    if |s| == 0 then [x]
    else if key(x) <= key(s[0]) then [x] + s
    else
      var rest := Insert(x, s[1..], key);
      assert s == [s[0]] + s[1..];
      SortedCons(s[0], rest, key);
      [s[0]] + rest
  }

  /** An element no greater than the head of a sorted sequence can go in
      front of it. */
  lemma SortedCons<T>(y: T, t: seq<T>, key: T -> real)
    requires SortedBy(t, key) && (|t| > 0 ==> key(y) <= key(t[0]))
    ensures SortedBy([y] + t, key)
  {
    var r := [y] + t;
    forall i, j | 0 <= i < j < |r| ensures key(r[i]) <= key(r[j]) {
      if i > 0 {
        assert r[i] == t[i - 1] && r[j] == t[j - 1];
      } else {
        assert r[j] == t[j - 1];
      }
    }
  }

  /** Insertion sort: the sorted permutation of `s`. */
  function SortBy<T>(s: seq<T>, key: T -> real): (r: seq<T>)
    ensures SortedBy(r, key)
    ensures |r| == |s|
    ensures multiset(r) == multiset(s)
  {
    if |s| == 0 then []
    else
      assert s == [s[0]] + s[1..];
      Insert(s[0], SortBy(s[1..], key), key)
  }

  /** The elements of `y` followed by `t` with key `k`. */
  lemma WithKeyCons<T>(y: T, t: seq<T>, key: T -> real, k: real)
    ensures WithKey([y] + t, key, k) == (if key(y) == k then [y] else []) + WithKey(t, key, k)
  {
    assert ([y] + t)[1..] == t;
  }

  /** Inserting `x` puts it ahead of every element with the same key. */
  lemma {:induction false} InsertWithKey<T>(x: T, s: seq<T>, key: T -> real, k: real)
    requires SortedBy(s, key)
    ensures WithKey(Insert(x, s, key), key, k)
         == (if key(x) == k then [x] else []) + WithKey(s, key, k)
  {
    if |s| == 0 {
      WithKeyCons(x, s, key, k);
    } else if key(x) <= key(s[0]) {
      WithKeyCons(x, s, key, k);
    } else {
      var rest := Insert(x, s[1..], key);
      InsertWithKey(x, s[1..], key, k);
      assert Insert(x, s, key) == [s[0]] + rest;
      WithKeyCons(s[0], rest, key, k);
      assert s == [s[0]] + s[1..];
      WithKeyCons(s[0], s[1..], key, k);
      if key(x) == k {
        assert key(s[0]) != k;
      } else {
        assert WithKey(rest, key, k) == WithKey(s[1..], key, k);
      }
    }
  }

  /** Stability: the elements sharing any one key keep their input order. */
  lemma {:induction false} SortByStable<T>(s: seq<T>, key: T -> real, k: real)
    ensures WithKey(SortBy(s, key), key, k) == WithKey(s, key, k)
  {
    if |s| > 0 {
      SortByStable(s[1..], key, k);
      InsertWithKey(s[0], SortBy(s[1..], key), key, k);
    }
  }

  /** An already sorted sequence is left as it is. */
  lemma {:induction false} SortBySorted<T>(s: seq<T>, key: T -> real)
    requires SortedBy(s, key)
    ensures SortBy(s, key) == s
  {
    if |s| > 0 {
      assert SortedBy(s[1..], key) by {
        forall i, j | 0 <= i < j < |s[1..]| ensures key(s[1..][i]) <= key(s[1..][j]) {
          assert s[1..][i] == s[i + 1] && s[1..][j] == s[j + 1];
        }
      }
      SortBySorted(s[1..], key);
      if |s| > 1 {
        assert key(s[0]) <= key(s[1..][0]) by { assert s[1..][0] == s[1]; }
      }
      assert [s[0]] + s[1..] == s;
    }
  }
}

=== FILE: text.dfy ===
/** The handful of Python `str` and `posixpath` operations the core relies on,
    written over `string` (`seq<char>`). */
module Text {
  import opened Wrappers

  /** Python's `s[:n]`: the first `n` characters, or all of `s` when shorter. */
  function Take(s: string, n: nat): (r: string)
    ensures |r| <= n && r <= s
    ensures |s| <= n ==> r == s
    ensures n <= |s| ==> |r| == n
  {
    if |s| <= n then s else s[..n]
  }

  /** The characters `str.isspace()` accepts, which `str.strip()` removes. */
  predicate IsSpace(c: char) {
    c == ' ' || c == '\t' || c == '\n' || c == '\r' || c == '\U{000B}' || c == '\U{000C}'
    || c == '\U{001C}' || c == '\U{001D}' || c == '\U{001E}' || c == '\U{001F}'
    || c == '\U{0085}' || c == '\U{00A0}' || c == '\U{1680}'
    || ('\U{2000}' <= c <= '\U{200A}') || c == '\U{2028}' || c == '\U{2029}'
    || c == '\U{202F}' || c == '\U{205F}' || c == '\U{3000}'
  }

  /** `s.lstrip()` for the characters `drop` selects. */
  function TrimStart(s: string, drop: char -> bool): (r: string)
    ensures |r| <= |s| && s[|s| - |r|..] == r
    ensures |r| > 0 ==> !drop(r[0])
    ensures forall i :: 0 <= i < |s| - |r| ==> drop(s[i])
  {
    if |s| > 0 && drop(s[0]) then TrimStart(s[1..], drop) else s
  }

  /** `s.rstrip()` for the characters `drop` selects. */
  function TrimEnd(s: string, drop: char -> bool): (r: string)
    ensures |r| <= |s| && s[..|r|] == r
    ensures |r| > 0 ==> !drop(r[|r| - 1])
    ensures forall i :: |r| <= i < |s| ==> drop(s[i])
  {
    if |s| > 0 && drop(s[|s| - 1]) then TrimEnd(s[..|s| - 1], drop) else s
  }

  /** How many leading whitespace characters `Strip` removes. */
  function StripOffset(s: string): nat {
    |s| - |TrimStart(s, IsSpace)|
  }

  /** Python's `s.strip()`: whitespace removed from both ends, nothing else. */
  function Strip(s: string): (r: string)
    ensures |r| > 0 ==> !IsSpace(r[0]) && !IsSpace(r[|r| - 1])
    ensures StripOffset(s) + |r| <= |s| && s[StripOffset(s)..StripOffset(s) + |r|] == r
    ensures forall j :: 0 <= j < StripOffset(s) ==> IsSpace(s[j])
    ensures forall j :: StripOffset(s) + |r| <= j < |s| ==> IsSpace(s[j])
  {
    var t := TrimStart(s, IsSpace);
    var r := TrimEnd(t, IsSpace);
    StripSlice(s, t, r);
    r
  }

  lemma StripSlice(s: string, t: string, r: string)
    requires |t| <= |s| && s[|s| - |t|..] == t
    requires |r| <= |t| && t[..|r|] == r
    requires forall i :: |r| <= i < |t| ==> IsSpace(t[i])
    ensures s[|s| - |t|..|s| - |t| + |r|] == r
    ensures forall j :: |s| - |t| + |r| <= j < |s| ==> IsSpace(s[j])
  {
    var i := |s| - |t|;
    forall j | i + |r| <= j < |s| ensures IsSpace(s[j]) {
      assert s[j] == t[j - i];
    }
  }

  /** Position of the first occurrence of `c`. */
  function IndexOf(s: string, c: char): (r: Option<nat>)
    ensures r.None? <==> c !in s
    ensures r.Some? ==> r.value < |s| && s[r.value] == c && c !in s[..r.value]
  {
    if |s| == 0 then None
    else if s[0] == c then Some(0)
    else
      match IndexOf(s[1..], c)
      case None => None
      case Some(i) =>
        assert s[..i + 1] == [s[0]] + s[1..][..i];
        Some(i + 1)
  }

  /** Position of the last occurrence of `c` (`str.rfind`). */
  function LastIndexOf(s: string, c: char): (r: Option<nat>)
    ensures r.None? <==> c !in s
    ensures r.Some? ==> r.value < |s| && s[r.value] == c && c !in s[r.value + 1..]
  {
    if |s| == 0 then None
    else if s[|s| - 1] == c then Some(|s| - 1)
    else
      var r := LastIndexOf(s[..|s| - 1], c);
      assert s == s[..|s| - 1] + [s[|s| - 1]];
      if r.Some? then
        assert s[r.value + 1..] == s[..|s| - 1][r.value + 1..] + [s[|s| - 1]];
        r
      else r
  }

  /** Python's `s.split(sep)` for a one-character separator: never empty,
      and the pieces hold no separator. */
  function Split(s: string, sep: char): (parts: seq<string>)
    ensures |parts| >= 1
    ensures forall i :: 0 <= i < |parts| ==> sep !in parts[i]
    ensures Join(parts, sep) == s
    decreases |s|
  {
    match IndexOf(s, sep)
    case None => [s]
    case Some(i) =>
      var rest := Split(s[i + 1..], sep);
      assert s == s[..i] + [sep] + s[i + 1..];
      [s[..i]] + rest
  }

  /** Python's `sep.join(parts)`. */
  function Join(parts: seq<string>, sep: char): string {
    if |parts| == 0 then ""
    else if |parts| == 1 then parts[0]
    else parts[0] + [sep] + Join(parts[1..], sep)
  }

  /** Splitting a joined list of separator-free pieces gives the pieces back. */
  lemma {:induction false} SplitJoin(parts: seq<string>, sep: char)
    requires |parts| >= 1
    requires forall i :: 0 <= i < |parts| ==> sep !in parts[i]
    ensures Split(Join(parts, sep), sep) == parts
  {
    if |parts| == 1 {
      assert IndexOf(parts[0], sep).None?;
    } else {
      var s := Join(parts, sep);
      var tail := Join(parts[1..], sep);
      assert s == parts[0] + [sep] + tail;
      var k := |parts[0]|;
      assert s[k] == sep;
      assert sep !in s[..k] by { assert s[..k] == parts[0]; }
      assert IndexOf(s, sep) == Some(k);
      assert s[k + 1..] == tail;
      SplitJoin(parts[1..], sep);
      assert Split(s, sep) == [s[..k]] + Split(tail, sep);
      assert s[..k] == parts[0];
      assert [parts[0]] + parts[1..] == parts;
    }
  }

  /** `posixpath.basename`: everything after the last '/'. */
  function Basename(p: string): (r: string)
    ensures '/' !in r
    ensures |r| <= |p| && p[|p| - |r|..] == r
    ensures '/' !in p ==> r == p
  {
    match LastIndexOf(p, '/')
    case None => p
    case Some(i) => p[i + 1..]
  }

  /** `posixpath.join(a, b)`: `b` replaces `a` when it is absolute, and a '/'
      is inserted only when `a` is non-empty and does not already end in one. */
  function PathJoin(a: string, b: string): (r: string)
    ensures |b| > 0 && b[0] == '/' ==> r == b
    ensures (|b| == 0 || b[0] != '/') && (|a| == 0 || a[|a| - 1] == '/') ==> r == a + b
    ensures (|b| == 0 || b[0] != '/') && |a| > 0 && a[|a| - 1] != '/' ==> r == a + "/" + b
  {
    if |b| > 0 && b[0] == '/' then b
    else if |a| == 0 || a[|a| - 1] == '/' then a + b
    else a + "/" + b
  }

  /** ASCII lower-casing (`str.lower` restricted to A-Z). */
  function LowerChar(c: char): char {
    if 'A' <= c <= 'Z' then (c as int - 'A' as int + 'a' as int) as char else c
  }

  function Lower(s: string): (r: string)
    ensures |r| == |s|
    ensures forall i :: 0 <= i < |s| ==> r[i] == LowerChar(s[i])
  {
    if |s| == 0 then "" else [LowerChar(s[0])] + Lower(s[1..])
  }

  /** `s.replace(a, b)` for single characters. */
  function ReplaceChar(s: string, a: char, b: char): (r: string)
    ensures |r| == |s|
    ensures forall i :: 0 <= i < |s| ==> r[i] == (if s[i] == a then b else s[i])
  {
    if |s| == 0 then "" else [if s[0] == a then b else s[0]] + ReplaceChar(s[1..], a, b)
  }

  function DigitChar(d: nat): char
    requires d < 10
  {
    "0123456789"[d]
  }

  /** Decimal digits of a natural number, without leading zeros. */
  function NatToString(n: nat): (r: string)
    ensures |r| >= 1
    ensures forall i :: 0 <= i < |r| ==> '0' <= r[i] <= '9'
    decreases n
  {
    if n < 10 then [DigitChar(n)] else NatToString(n / 10) + [DigitChar(n % 10)]
  }

  /** Python's `str(n)` for an `int`. */
  function IntToString(n: int): (r: string)
    ensures |r| >= 1
  {
    if n < 0 then "-" + NatToString(-n) else NatToString(n)
  }
}

=== FILE: wrappers.dfy ===
/** Failure-compatible wrappers used throughout the model: `Option` for values
    Python represents with `None`, and `Result` for operations that raise. */
module Wrappers {

  /** A value that may be absent (Python's `None`). */
  datatype Option<+T> = None | Some(value: T) {

    /** The wrapped value, or `default` when absent (Python's `dict.get(k, default)`). */
    function GetOr(default: T): T {
      match this
      case Some(v) => v
      case None => default
    }
  }

  /** The outcome of an operation that either returns a value or raises an error. */
  datatype Result<+R, +E> = Success(value: R) | Failure(error: E) {

    predicate IsFailure() {
      Failure?
    }

    function PropagateFailure<U>(): Result<U, E>
      requires Failure?
    {
      Failure(error)
    }

    function Extract(): R
      requires Success?
    {
      value
    }

    /** Drops the error, keeping only whether a value was produced. */
    function ToOption(): Option<R> {
      match this
      case Success(v) => Some(v)
      case Failure(_) => None
    }
  }
}
